=== FILE: README.md ===
# Phero code-generation core, modelled in Dafny

This project models the part of Phero that turns the TypeScript declarations of a
Phero app into generated code:

- **Parser-model synthesis** (`ModelGenerator.generate`, `generateParserModel`).
  A checker type becomes a `ParserModel`: String, Number, Boolean, the three
  literal kinds, Undefined, Null, Array, Object, Union or Reference. Named types
  are stored in a symbol memo. The memo is then flattened into `deps`, keyed by
  symbol name.
- **The two model helpers.** One is the union normaliser, which turns a
  `true | false` pair into `Boolean`. The other is the optional-member unwrap.
- **The declaration closure walker** (`extractModels`). Starting from the
  parameter and return types of the service functions, it collects every
  interface, alias and enum declaration they depend on, dependencies first.
- **Type-reference cleaning** (`cleanTypeReferences`). Qualified type names are
  shortened to their last identifier.
- **Function-definition resolution** (`parseFunctionDefinition`). An element of
  a service's function list is followed to the function it denotes. The
  function's parameters are checked for types, and a leading `PheroContext`
  parameter is filtered out.
- **The client generator's decisions** (`generateClientSource`). These cover the
  parsed error classes, the per-service error parser (an if-chain on
  `error.name`), the result parsers, the `opts` constructor parameter and the
  domain imports.

The TypeScript checker is input data:

- `TypeGraph.Graph` maps type ids to what the checker reports about a type (flags,
  symbol, alias symbol, printed node shape, properties, type arguments, union
  members). Because it is a map, cyclic types can be written down.
- `Syntax.Program` holds each symbol's declarations and which declarations are
  library declarations.
- `FunctionDefinition.Bindings` holds each symbol's declaration nodes.

Thrown errors become `Result` failures. The source recurses without a bound on
some inputs. There, a `fuel` argument stands for the call stack, and running out
of it is an explicit error (`StackOverflow`, `OutOfFuel`).

Modules, one file each:
- `wrappers.dfy`: `Option`/`Result`.
- `seqs.dfy`: `find` and removal by index.
- `assoc.dfy`: insertion-ordered maps, with JavaScript `Map` semantics.
- `syntax.dfy`: the TypeScript syntax tree the walkers see.
- `parser_model.dfy`, `type_graph.dfy`, `model_generator.dfy`,
  `generator_properties.dfy`: parser-model synthesis.
- `extract_models.dfy`, `extract_examples.dfy`: the closure walker.
- `clean_type_references.dfy`: type-reference cleaning.
- `function_definition.dfy`: function-definition resolution.
- `client_source.dfy`: the client generator.

### Behaviour of the code worth knowing

- **The normaliser is not idempotent.** `replaceBooleanLiteralsWithBooleanType` removes one
  `true` literal and one `false` literal per pass. A union that repeats both
  literals keeps a pair after one pass, and gains a second `Boolean` on the next.
  `ParserModels.NormalizeNotIdempotentOnRepeatedLiterals` shows this.
  `ParserModels.NormalizeIdempotent` proves idempotence when there is at most one
  literal of each kind. That is the shape a union type from the checker has.
- **Aliases are synthesised on every use.** The memo check uses the type's own
  symbol, but an alias is stored under its alias symbol. So "each symbol is
  synthesised at most once" does not hold for aliases.
- **Self-recursive types never finish.** A named model is stored only after its
  synthesis, so a self-referencing interface never finishes synthesis. The model
  keeps this compute-then-store order and does not add a two-phase memo.
- **Closure deduplication can be bypassed.** The closure is not always
  deduplicated by symbol. Heritage clauses and the fallback for a reference
  whose type has no symbol do not check the visited list. So a declaration can be
  listed twice, and a recursive union alias is never finished.
- **`boolean` and literal types abort the walk.** The walker rejects a bare
  `boolean` keyword and every literal type node, because they are not in its
  ignore list.

## Model

The walker's success results are stated under three hypotheses:
- **Without bypasses** (`ExtractModels.BypassFreeDecl` and friends): no heritage clause and no reference whose checker type has no symbol. These are the two paths that skip the visited list.
- **Supported** (`ExtractModels.SupportedNode`, `SupportedDecl`): every keyword is `string` or `number`; there is no literal type and no other node or declaration kind; every non-library reference resolves to a symbol; and every `extends` type resolves.
- **Within budget** (`ExtractModels.Budget`): there are more stack levels than declared symbols not yet visited.

| member | source | states |
|---|---|---|
| ParserModels.ReplaceBooleanLiterals | packages/core/src/generate-model-2/generateParserModel.ts:251-278 | a union holding a `true` and a `false` literal becomes `Boolean` when those are its only members, otherwise the union of the remaining members in order followed by one `Boolean`; without the pair the union is returned unchanged |
| ParserModels.RemoveUndefinedFromUnion | packages/core/src/generate-model-2/generateParserModel.ts:280-299 | only a top-level union with an `Undefined` member changes: its first `Undefined` is dropped and a single survivor is returned bare; anything else is returned unchanged |
| ParserModels.NormalizeIdempotent | packages/core/src/generate-model-2/generateParserModel.ts:251-278 | normalising twice equals normalising once for a union with at most one literal of each boolean kind |
| ParserModels.NormalizeNotIdempotentOnRepeatedLiterals | packages/core/src/generate-model-2/generateParserModel.ts:254-274 | `true, false, true, false` normalises to `Union[true, false, Boolean]`, since only the first `true` and the first `false` are removed, and then to `Union[Boolean, Boolean]`: the normaliser is not idempotent in general |
| ParserModels.RemoveUndefinedRemovesExactlyOne | packages/core/src/generate-model-2/generateParserModel.ts:282-286 | the unwrap removes exactly one `Undefined` member and keeps every other member |
| ParserModels.ReplaceBooleanLiteralsRefs | packages/core/src/generate-model-2/generateParserModel.ts:251-278 | the normaliser introduces no reference its input union did not hold |
| ParserModels.RemoveUndefinedRefs | packages/core/src/generate-model-2/generateParserModel.ts:280-299 | the unwrap introduces no reference its input did not hold |
| Seqs.RemoveFirstMatchIsDropFirst | packages/core/src/generate-model-2/generateParserModel.ts:282-286 | removing the element found by `find` is dropping the first match and keeping everything else in order; with no match nothing changes |
| ModelGenerator.Primitive | packages/core/src/generate-model-2/generateParserModel.ts:70-123 | the answers decided by the type's own flags and node (literals, `undefined`, `null`, string, number, boolean) reference no named model |
| ModelGenerator.Generate | packages/core/src/generate-model-2/generateParserModel.ts:49-248 | synthesis only adds to the symbol memo, keeps its symbols distinct, and keeps it closed: every reference in the memo and in the result names a stored symbol |
| ModelGenerator.Store | packages/core/src/generate-model-2/generateParserModel.ts:132-138 | storing a named model answers `Reference(name)` and makes the symbol look up to that model, adding exactly that symbol |
| ModelGenerator.GenerateArray | packages/core/src/generate-model-2/generateParserModel.ts:165-202 | an array type yields an Array model, and one without a type argument is the "Array has no TypeElement" error |
| ModelGenerator.GenerateList | packages/core/src/generate-model-2/generateParserModel.ts:153-161 | union members yield one model each; the memo threaded through them only grows, stays closed and keeps distinct keys, and every reference in the models names a stored symbol |
| ModelGenerator.GenerateListElementwise | packages/core/src/generate-model-2/generateParserModel.ts:153-161 | element `i` of the output is the synthesis of union member `i` in the memo the members before it left, starting from the given memo and ending in the output memo |
| ModelGenerator.GenerateMembers | packages/core/src/generate-model-2/generateParserModel.ts:214-237 | an object type yields one member per property, in order, with the property's name and Optional flag |
| ModelGenerator.GenerateParserModel | packages/core/src/generate-model-2/generateParserModel.ts:17-33 | succeeds exactly when the root synthesis does; the root is that synthesis's model and looking any name up in `deps` gives the model stored last under a symbol of that name; every reference in the root and in `deps` is a key of `deps`, and keys are distinct |
| ModelGenerator.StoreKeepsClosed | packages/core/src/generate-model-2/generateParserModel.ts:205-211 | storing a model whose references are stored keeps the memo closed and adds exactly the new name |
| ModelGenerator.Deps | packages/core/src/generate-model-2/generateParserModel.ts:28-31 | `deps` has one entry per name, and its names are exactly those of the stored symbols |
| ModelGenerator.DepsKeys | packages/core/src/generate-model-2/generateParserModel.ts:28-31 | the keys of `deps` are exactly the names of the stored symbols |
| ModelGenerator.DepsValuesClosed | packages/core/src/generate-model-2/generateParserModel.ts:28-31 | every value of `deps` is a stored model, so it references only stored names |
| ModelGenerator.DepsUnique | packages/core/src/generate-model-2/generateParserModel.ts:28-31 | spreading into the record keeps one entry per name |
| GeneratorProperties.PrimitiveCasesComeFirst | packages/core/src/generate-model-2/generateParserModel.ts:74-123 | when the flags or node decide the answer, it is given before memo, alias or union are consulted, with the memo untouched |
| GeneratorProperties.BooleanTypeIsBoolean | packages/core/src/generate-model-2/generateParserModel.ts:112-116 | the `boolean` type, flagged as a union of its literals, yields `Boolean` and not a union |
| GeneratorProperties.StoredSymbolIsReference | packages/core/src/generate-model-2/generateParserModel.ts:125-130 | a type whose symbol is stored yields a reference to it with the memo unchanged |
| GeneratorProperties.AliasIsSynthesisedAndStored | packages/core/src/generate-model-2/generateParserModel.ts:125-138 | an aliased type outside alias resolution is synthesised again with the resolving flag, stored under the alias symbol and replaced by a reference, even when the alias is already stored |
| GeneratorProperties.ClassIsStoredThenReferenced | packages/core/src/generate-model-2/generateParserModel.ts:205-212 | a class or interface is stored under its symbol and replaced by a reference; any later request for it is a reference with no new synthesis |
| GeneratorProperties.UnionUsesMembersAsWritten | packages/core/src/generate-model-2/generateParserModel.ts:141-162 | a union is synthesised from its members as written (`origin` when present), in order, then normalised |
| GeneratorProperties.ArrayOfElement | packages/core/src/generate-model-2/generateParserModel.ts:165-202 | an array type (named `Array`, or an object printed as an array) becomes `Array{ArrayElement{element}}`, or the missing-element error |
| GeneratorProperties.ObjectHasOneMemberPerProperty | packages/core/src/generate-model-2/generateParserModel.ts:214-237 | an object type yields an Object model with one member per property, name and optional flag in property order |
| GeneratorProperties.MemberUnwrappedIffOptional | packages/core/src/generate-model-2/generateParserModel.ts:214-237 | member `i` carries property `i`'s name and optional flag, and its parser is the synthesis of property `i` in the memo the properties before it left, unwrapped exactly when the property is optional |
| GeneratorProperties.SelfReferencingInterfaceOverflows | packages/core/src/generate-model-2/generateParserModel.ts:205-206 | an interface with a property of its own type exhausts any stack, because it is stored only after synthesis |
| ModelGenerator.LastNamed | packages/core/src/generate-model-2/generateParserModel.ts:28-31 | the model stored last under a symbol of a given name, present exactly when such a symbol is stored |
| GeneratorProperties.DepsKeepLastModelPerName | packages/core/src/generate-model-2/generateParserModel.ts:28-31 | looking a name up in `deps` gives the model stored last under a symbol of that name |
| GeneratorProperties.SameNameSymbolsCollide | packages/core/src/generate-model-2/generateParserModel.ts:28-31 | two distinct symbols with one name leave a single `deps` entry holding the later model |
| ExtractModels.Expand | packages/core/src/extractModels.ts:62-70 | walking a symbol's declarations only appends (models and visited symbols keep their prefix, no symbol twice), every symbol it newly records has all its non-library declarations walked, and its own non-library declarations are walked: a model declaration among them is in the output and everything it references is recorded as visited; without bypasses it does not run out of stack, and on a supported program it succeeds |
| ExtractModels.DoType | packages/core/src/extractModels.ts:27-105 | walking a type node only appends (models and visited symbols keep their prefix, no symbol twice), every symbol it newly records has all its non-library declarations walked, and every non-library symbol the node references (through type arguments, members, unions, arrays, indexed accesses) is recorded as visited; an `extends` type has its symbol's declarations walked; without bypasses it finishes within one stack level per unvisited symbol, and a supported node without bypasses, walked within budget in a supported program, is walked successfully |
| ExtractModels.DoOptType | packages/core/src/extractModels.ts:27-29 | a missing type node leaves the walk unchanged; a present one is walked as `DoType` states, successfully when supported and within budget |
| ExtractModels.DoTypes | packages/core/src/extractModels.ts:80-87 | walking a list of type nodes only appends (models and visited symbols keep their prefix, no symbol twice), every symbol it newly records has all its non-library declarations walked, and every symbol any of them references is recorded; every symbol an `extends` type among them denotes has its declarations walked; it finishes within budget, and succeeds when all are supported |
| ExtractModels.DoMember | packages/core/src/extractModels.ts:72-79 | a method signature, or an index signature outside a type literal, leaves the walk unchanged; otherwise the member type is walked, recording the symbols it references, successfully when supported and within budget |
| ExtractModels.DoMembers | packages/core/src/extractModels.ts:72-79 | walking a member list only appends (models and visited symbols keep their prefix, no symbol twice), every symbol it newly records has all its non-library declarations walked, and every symbol the walked members reference is recorded; it finishes within budget, and succeeds when the walked members are supported |
| ExtractModels.DoHeritage | packages/core/src/extractModels.ts:118-122 | walking heritage types only appends (models and visited symbols keep their prefix, no symbol twice), every symbol it newly records has all its non-library declarations walked, and every symbol an `extends` type denotes has its non-library declarations walked; it finishes within budget, and succeeds when every heritage type is supported |
| ExtractModels.DoReference | packages/core/src/extractModels.ts:30-70 | walking a type reference only appends (models and visited symbols keep their prefix, no symbol twice), every symbol it newly records has all its non-library declarations walked, and its type arguments' symbols and its own resolved symbol, when it is not a library reference, are recorded; it finishes within budget; a non-library reference that resolves to no symbol fails, and a supported one succeeds |
| ExtractModels.DoResolved | packages/core/src/extractModels.ts:56-70 | a symbol already visited leaves the walk unchanged; a new one is recorded before its declarations are walked, so it is in the visited list afterwards and its declarations are walked; the walk only appends, finishes within budget, and succeeds on a supported program |
| ExtractModels.DoIndexedAccess | packages/core/src/extractModels.ts:95-97 | walking the object type then the index type only appends (models and visited symbols keep their prefix, no symbol twice), every symbol it newly records has all its non-library declarations walked, and the symbols both reference are recorded; it finishes within budget, and succeeds when both are supported |
| ExtractModels.DoAlias | packages/core/src/extractModels.ts:128-135 | a type alias is the last entry of the output; every symbol newly recorded before it was appended, in particular every symbol its aliased type and type parameters reference, has its non-library declarations walked, so model declarations it depends on precede it; a supported alias within budget is walked successfully |
| ExtractModels.DoTypeParameter | packages/core/src/extractModels.ts:140-142 | walking a type parameter's constraint and default only appends (models and visited symbols keep their prefix, no symbol twice), every symbol it newly records has all its non-library declarations walked, and the symbols they reference are recorded; it finishes within budget, and succeeds when both are supported |
| ExtractModels.DoDecl | packages/core/src/extractModels.ts:107-149 | a walked declaration is in the output when it is a model declaration and all symbols it references are recorded; a model declaration is the last entry, and every symbol newly recorded before it was appended has its non-library declarations walked; any other declaration kind is the unsupported-declaration error, and a supported declaration within budget is walked successfully |
| ExtractModels.DoInterface | packages/core/src/extractModels.ts:112-127 | an interface is the last entry of the output; every symbol newly recorded before it was appended, in particular every symbol its properties, heritage and type parameters reference, has its non-library declarations walked; every symbol its `extends` types denote also has its non-library declarations walked before the interface is appended; a supported interface within budget is walked successfully |
| ExtractModels.DoDecls | packages/core/src/extractModels.ts:62-69 | every declaration of the list that is walked (library ones skipped during expansion) is in the output when it is a model declaration and has all its references recorded; the walk only appends, finishes within budget, and succeeds when every declaration is supported |
| ExtractModels.WalkAll | packages/core/src/extractModels.ts:19-25 | each top-level type walk only appends, records every symbol the types reference, and walks the declarations of every symbol it records; for a program and types without bypasses and with fewer declared symbols than stack levels, none runs out of stack, and when they are also supported every walk succeeds |
| ExtractModels.ExtractModels | packages/core/src/extractModels.ts:12-25 | the output is the model list of the whole walk: it holds only interfaces, aliases and enums, what the parameter types yield comes first, and a program without bypasses never runs out of stack; with supported signature types and declarations as well, and fewer declared symbols than stack levels, it succeeds |
| ExtractModels.ExtractWalk | packages/core/src/extractModels.ts:12-149 | the whole walk is closed: every visited symbol, each visited once, has every non-library declaration walked, so each model declaration among them is in the output and every symbol it references is visited too; every non-library symbol the parameter and return types reference is visited; the parameter walk's output is a prefix; a program and signature types without bypasses, all supported, with fewer declared symbols than stack levels, always succeed |
| ExtractModels.ReferencedModelsAreExtracted | packages/core/src/extractModels.ts:56-70 | a model declaration of a symbol referenced by a signature type is in the output, and so is a model declaration of any symbol that declaration references |
| ExtractModels.ExternalReferenceWalksOnlyArguments | packages/core/src/extractModels.ts:30-37 | a library reference walks its type arguments and is not expanded |
| ExtractModels.VisitedSymbolIsNotExpanded | packages/core/src/extractModels.ts:56-58 | a reference to a visited symbol walks only its type arguments |
| ExtractModels.SymbolRecordedBeforeExpansion | packages/core/src/extractModels.ts:56-70 | on first visit the symbol is recorded as visited before its declarations are walked |
| ExtractModels.Internal | packages/core/src/extractModels.ts:62-67 | the non-library declarations of a list, all of them and only them |
| ExtractModels.SkippingExternalIsFiltering | packages/core/src/extractModels.ts:62-69 | skipping library declarations during expansion is walking the filtered list |
| ExtractModels.PropertySignatures | packages/core/src/extractModels.ts:113-117 | the property signatures of a member list, all of them and only them |
| ExtractModels.InterfaceWalksOnlyProperties | packages/core/src/extractModels.ts:113-117 | in an interface only property signatures are walked; index and method signatures are not |
| ExtractModels.KeywordsAndLiterals | packages/core/src/extractModels.ts:102-104 | a keyword or literal type node succeeds, unchanged, exactly when it is `string` or `number`; every other one, `boolean` included, is the unsupported-node error |
| ExtractModels.DoLeaf | packages/core/src/extractModels.ts:102-104 | a keyword, literal or other node succeeds, leaving the walk unchanged, exactly when it is the `string` or `number` keyword; otherwise it is the unsupported-node error for that node |
| ExtractModels.DoExtends | packages/core/src/extractModels.ts:90-94 | an `extends` type whose symbol resolves has that symbol's non-library declarations walked, without consulting or changing the visited list; an unresolved one is an error |
| ExtractModels.DoComposite | packages/core/src/extractModels.ts:80-101 | a union, intersection or tuple walks its members in order, recording every symbol they reference; it succeeds when all members are supported and within budget |
| ExtractModels.RejectedNodes | packages/core/src/extractModels.ts:30-104 | an other node kind is the unsupported-node error, an unresolved `extends` type is the unresolved-heritage error, and a non-library reference that resolves to no symbol fails |
| ExtractModels.RejectedFirstParameterFails | packages/core/src/extractModels.ts:19-21 | when the first parameter type is a literal, another node kind or a keyword other than `string` and `number`, the whole extraction fails with the unsupported-node error for that type, thrown by `doType` at lines 102-104 |
| ExtractModels.EnumMemberIsItsEnum | packages/core/src/extractModels.ts:136-139 | an enum member appends its parent enum, without walking the enum's members |
| ExtractExamples.EmptyInterfaceAppended | packages/core/src/extractModels.ts:112-127 | an interface with nothing to walk is appended as it is |
| ExtractExamples.SingleDeclaration | packages/core/src/extractModels.ts:62-69 | a one-element non-library declaration list is walked as that declaration |
| ExtractExamples.HeritageRepeatsDeclaration | packages/core/src/extractModels.ts:90-94 | for `interface A extends B`, walking `B` then `A` lists `B` twice: the heritage path ignores the visited list |
| ExtractExamples.RecursiveUnionAliasNeverFinishes | packages/core/src/extractModels.ts:45-54 | a reference to a recursive union alias through the no-symbol fallback exhausts any stack |
| CleanTypeReferences.FirstDeclaration | packages/core/src/lib/cleanTypeReferences.ts:30-31 | the first declaration of the alias symbol, else the symbol, present exactly when that symbol has one |
| CleanTypeReferences.Rightmost | packages/core/src/lib/cleanTypeReferences.ts:37-39 | a qualified name becomes its right identifier; an identifier is kept |
| CleanTypeReferences.CleanTypeNames | packages/core/src/lib/cleanTypeReferences.ts:22-44 | non-references and references with no declaration or an enum-member declaration are unchanged; otherwise the name is the rightmost identifier, the argument count is kept and non-reference arguments are untouched |
| CleanTypeReferences.CleanKeepsShape | packages/core/src/lib/cleanTypeReferences.ts:36-43 | cleaning changes reference names and nothing else in the tree |
| CleanTypeReferences.VisitKeepsShape | packages/core/src/lib/cleanTypeReferences.ts:10-16 | the visit rebuilds every non-reference node with its children visited, changing only reference names |
| CleanTypeReferences.CleanRenames | packages/core/src/lib/cleanTypeReferences.ts:22-44 | cleaning relates input and output reference by reference: each keeps its checker answer and arity, takes its rightmost name unless it resolves to nothing or to an enum member, and its arguments are related the same way when it is renamed |
| CleanTypeReferences.VisitRenames | packages/core/src/lib/cleanTypeReferences.ts:10-16 | every reference reached by the visit is cleaned by that rule, and every other node keeps its kind, its non-type fields and the number of its children, each of which is related in turn |
| CleanTypeReferences.VisitType | packages/core/src/lib/cleanTypeReferences.ts:10-16 | the visit keeps references references and non-references non-references; a reference is related to its rewrite by the cleaning rule; keywords and literals are unchanged |
| CleanTypeReferences.VisitDecl | packages/core/src/lib/cleanTypeReferences.ts:3-20 | a visited declaration keeps its name and its kind, and the number of its members, heritage clauses and type parameters; enums, enum members, imports and other kinds are unchanged |
| CleanTypeReferences.VisitDeclRenames | packages/core/src/lib/cleanTypeReferences.ts:3-20 | the visit of a declaration relates every type it holds (property and index types, heritage types, aliased type, type-parameter constraints and defaults, nested type parameters) to its rewrite by the visit rule, and keeps every other field |
| CleanTypeReferences.CleanIdempotent | packages/core/src/lib/cleanTypeReferences.ts:22-44 | cleaning a cleaned node changes nothing |
| CleanTypeReferences.VisitIdempotent | packages/core/src/lib/cleanTypeReferences.ts:10-16 | visiting a visited type node changes nothing |
| CleanTypeReferences.VisitDeclIdempotent | packages/core/src/lib/cleanTypeReferences.ts:3-20 | cleaning a whole declaration twice is cleaning it once |
| FunctionDefinition.Kept | packages/core/src/parsePheroApp/parseFunctionDefinition.ts:131-137 | the parameters that stay form a suffix of the list, all of them or all but the first; one is dropped exactly when the first parameter is the context parameter |
| FunctionDefinition.MakeParamsFrom | packages/core/src/parsePheroApp/parseFunctionDefinition.ts:125-149 | the fold keeps what it has accumulated as a prefix, adds at most one entry per remaining parameter, and a failure names a remaining parameter that has no type |
| FunctionDefinition.MakeParamsFromOutcome | packages/core/src/parsePheroApp/parseFunctionDefinition.ts:125-129 | the fold succeeds exactly when every remaining parameter is typed, and fails on the first untyped one |
| FunctionDefinition.MakeParamsFromSucceeds | packages/core/src/parsePheroApp/parseFunctionDefinition.ts:125-129 | the fold from any index succeeds exactly when every parameter from there on is typed |
| FunctionDefinition.MakeParamsFromFails | packages/core/src/parsePheroApp/parseFunctionDefinition.ts:125-129 | a failing fold names an untyped parameter before which every remaining parameter is typed |
| FunctionDefinition.MakeParamsFromValue | packages/core/src/parsePheroApp/parseFunctionDefinition.ts:125-149 | on success the fold has appended the kept parameters, converted, in order |
| FunctionDefinition.MakeParams | packages/core/src/parsePheroApp/parseFunctionDefinition.ts:122-150 | success exactly when every parameter is typed, the context one included; failure names the first untyped parameter; success holds the kept parameters with name, question token and type, in order |
| FunctionDefinition.ParseFunctionName | packages/core/src/parsePheroApp/parseFunctionDefinition.ts:26-50 | identifier and string-literal names yield their text; every other name kind is S117 |
| FunctionDefinition.FromFunction | packages/core/src/parsePheroApp/parseFunctionDefinition.ts:74-90 | a function-like node yields a function exactly when all its parameters are typed: the node itself, its unfiltered parameters and return type, and the kept parameters converted in order; otherwise the error of the first untyped parameter; in every case the outcome is exactly `makeParams` of its parameters |
| FunctionDefinition.FollowSymbol | packages/core/src/parsePheroApp/parseFunctionDefinition.ts:56-64 | following a symbol's first declaration yields a function node with its own parameters and return type, filtered by `makeParams` |
| FunctionDefinition.ParseActualFunction | packages/core/src/parsePheroApp/parseFunctionDefinition.ts:52-120 | a function expression, arrow function or function declaration resolves exactly when `makeParams` of its parameters succeeds, to itself, with its failure passed through; any resolved function is such a node, with `parameters` unfiltered and `parameters2` their `makeParams` |
| FunctionDefinition.ParseFunctionDefinition | packages/core/src/parsePheroApp/parseFunctionDefinition.ts:7-24 | a spread element is S116; a bad name is S117 before any resolution; with a good name it succeeds exactly when resolution does, passing resolution's error through; success pairs the parsed name with the resolved function |
| FunctionDefinition.ResolutionFuelMonotone | packages/core/src/parsePheroApp/parseFunctionDefinition.ts:52-120 | a resolution that succeeds gives the same result with any larger stack |
| FunctionDefinition.RedirectsAreTransparent | packages/core/src/parsePheroApp/parseFunctionDefinition.ts:66-117 | an import specifier, a property assignment and a property access with a last token resolve as the node they lead to |
| FunctionDefinition.SymbolResolution | packages/core/src/parsePheroApp/parseFunctionDefinition.ts:56-110 | a shorthand property or identifier without a declared symbol is S118 or S119; otherwise it resolves as its symbol's first declaration |
| FunctionDefinition.UnsupportedSyntaxCases | packages/core/src/parsePheroApp/parseFunctionDefinition.ts:92-119 | a property access without a last token, a variable without an initializer and any other node are S120 |
| FunctionDefinition.VariableWithArrowIsTheArrow | packages/core/src/parsePheroApp/parseFunctionDefinition.ts:92-100 | a variable initialised with an arrow function resolves to that arrow function |
| FunctionDefinition.MethodIsUnsupported | packages/core/src/parsePheroApp/parseFunctionDefinition.ts:74-119 | an object-literal method with a clear name is still S120 |
| FunctionDefinition.SelfBindingNeverResolves | packages/core/src/parsePheroApp/parseFunctionDefinition.ts:104-110 | an identifier bound to itself exhausts any stack: resolution keeps no visited set |
| FunctionDefinition.OnlyFirstContextDropped | packages/core/src/parsePheroApp/parseFunctionDefinition.ts:131-137 | of two `PheroContext` parameters only the first is dropped |
| ClientSource.ParseError | packages/client/src/code-gen/generateClientSource.ts:303-313 | an error class parses exactly when it has a name and a constructor; the props are the first constructor's parameters in order |
| ClientSource.ParseErrors | packages/client/src/code-gen/generateClientSource.ts:21 | a list of error classes parses exactly when each does, element by element; a failure carries the error of the first class that does not parse |
| ClientSource.ReduceRight | packages/client/src/code-gen/generateClientSource.ts:339-356 | the chain built from the last error outwards tests the first error outermost: it is the branch for the first error with the chain of the rest as its else, and the initial statement when there are no errors |
| ClientSource.GenerateErrorParser | packages/client/src/code-gen/generateClientSource.ts:315-359 | the parser is named `error_parser_<service>`, returns `Error` or one of the given errors, and on any name and props builds the first error of that name, else the fallback |
| ClientSource.ReduceRightEval | packages/client/src/code-gen/generateClientSource.ts:339-356 | the if-chain built by `reduceRight` selects the first error with the given name, else falls through to the initial statement |
| ClientSource.ErrorParserPicksFirstMatch | packages/client/src/code-gen/generateClientSource.ts:315-359 | the generated error parser builds the first error whose name equals `error.name` from `error.props`, field by field; otherwise `Error` keeps its message and any other name is "Unknown Error" |
| ClientSource.ServiceErrorMatchedByQualifiedName | packages/client/src/code-gen/generateClientSource.ts:164-171 | a service's error is selected by its name `<service>.<name>` unless a domain error or an earlier error of the service has that name |
| ClientSource.GenerateParsersForReturnTypes | packages/client/src/code-gen/generateClientSource.ts:236-264 | the loops produce, in service-then-function order, a `<name>ResultParser` exactly for each return type that is a reference whose first type argument is not a reference |
| ClientSource.ParsersAreForNonReferences | packages/client/src/code-gen/generateClientSource.ts:249-251 | no result parser is for a type reference |
| ClientSource.ContextEntries | packages/client/src/code-gen/generateClientSource.ts:206-211 | one context entry per service with a context, none exactly when no service has one |
| ClientSource.GenerateContextParam | packages/client/src/code-gen/generateClientSource.ts:203-234 | the `context` property exists exactly when some service has a context, with one factory per such service in order |
| ClientSource.GenerateOptsParam | packages/client/src/code-gen/generateClientSource.ts:184-201 | `private readonly opts` exists exactly when some service has a context, and holds the `context` property |
| ClientSource.ConstructorParams | packages/client/src/code-gen/generateClientSource.ts:84-107 | the constructor takes `fetch: Fetch`, then `url` defaulting to `http://localhost:3030`, then `opts` exactly when it exists |
| ClientSource.ParseServiceErrors | packages/client/src/code-gen/generateClientSource.ts:164-170 | every service's error classes parse, service by service, or generation fails with the error of the first service whose classes do not parse |
| ClientSource.ErrorParsers | packages/client/src/code-gen/generateClientSource.ts:164-171 | one error parser per service, over the domain errors followed by the service's errors renamed `<service>.<name>` |
| ClientSource.GenerateClientSource | packages/client/src/code-gen/generateClientSource.ts:14-182 | domain errors are parsed first, and a failure there is the result; otherwise a failure of the service errors is the result; imports are models, then domain errors, then services; the result parsers, the error parsers, the constructor and `super(fetch, url)` are as above |

## Left out

- All I/O, the CLI and the network client: nothing in the core performs any.
- The TypeScript checker is not run. What it answers is input data:
  - `TypeGraph.TypeInfo` for `generate`;
  - `Syntax.RefInfo`, `Syntax.Program` and the recorded external flags for the walker and the cleaner;
  - `FunctionDefinition.Bindings` for resolution.
  The walker asks `getTypeFromTypeNode` of the whole reference node (packages/core/src/extractModels.ts:39). The cleaner asks `getTypeAtLocation` of the reference's type name (packages/core/src/lib/cleanTypeReferences.ts:30). These are different queries on different nodes, but one `Syntax.RefInfo` per reference stands for both answers, so the model assumes they name the same alias symbol and symbol.
- `hasTypeFlag` is modelled as membership in the flag set. A comparison `type.flags === X` is modelled as equality with `{X}`.
- `getInferedReturnTypeOfFunction` is left out. `GenerateParserModel` takes the inferred return type directly.
- `parseReturnType` is left out. The recorded return-type annotation stands for its result.
- `getNameAsString` is modelled as the dotted text of an entity name (`Syntax.NameText`). Parameter names are modelled as their text.
- The `typeToTypeNode` result is reduced to the node shapes `generate` inspects. Its missing-node error is kept.
- Number-literal values are integers, not JavaScript floats.
- `console.log` in `generate` and the `Date.now` timing in `generateClientSource` are left out. Neither affects a result.
- Printing is left out:
  - `tsx`, `generateModel`, `generateModelParser`, `generateNamespace`, `generateClientFunction`, `generateNonModelParser` and `generateError`;
  - the `domainSource` file as a whole.
  A result parser is recorded by its name and the type it parses. The class declaration and the service properties of the client are not modelled.
- Error messages are not modelled. Each error is a constructor, named after its S-code where the source has one.
- Stack overflow is a fuel argument. Running out of fuel is an explicit error where the source would throw a `RangeError`. The fuel bound is not calibrated to a real stack size.
- The source crashes where it dereferences an absent symbol (`symbol.declarations` on a reference whose type has no symbol at all, `extendedType.symbol.declarations`). The model returns an error there.
- ExtractModels.ExtractModels: termination within the fuel bound is proved only for programs without heritage clauses and without symbol-less references, because those two paths bypass the visited list and can repeat or never finish (`ExtractExamples.RecursiveUnionAliasNeverFinishes`).
- ModelGenerator.Generate: no termination claim, because the source does not terminate on self-referencing named types (`GeneratorProperties.SelfReferencingInterfaceOverflows`).
- CleanTypeReferences.VisitDecl: the visit covers type nodes and the declarations the walker yields, not expressions or statements, which hold no type references of interest here.
- CleanTypeReferences.VisitElement: a method signature is kept whole, and an index signature's key type is not represented, so references in method parameter and return types and in index key types are not cleaned, whereas `visitEachChild` (packages/core/src/lib/cleanTypeReferences.ts:14) would clean them; the walker never reads those types (packages/core/src/extractModels.ts:72-79 and 112-117), so the models it yields are unaffected.
- ExtractModels.ExtractWalk: the closure covers the symbols the walk records as visited. Heritage clauses and the no-symbol fallback walk declarations without recording a symbol; those declarations are walked, but nothing is promised about the symbols that reach the walk only that way. The dependencies-first order is stated for the symbols newly recorded while a declaration is walked; a symbol already visited when a cycle comes back to it may still be in progress, and its model declaration can then come after a declaration that references it.

=== FILE: assoc.dfy ===
/**
 * Insertion-ordered association lists: the model of a JavaScript `Map` and of a
 * string-keyed `Record` built by object spread. Setting a key that is present
 * replaces its value in place; a new key is appended at the end.
 */
module Assoc {
  import opened Wrappers

  function Keys<K, V>(m: seq<(K, V)>): set<K> {
    set i | 0 <= i < |m| :: m[i].0
  }

  predicate UniqueKeys<K(==), V>(m: seq<(K, V)>) {
    forall i, j :: 0 <= i < j < |m| ==> m[i].0 != m[j].0
  }

  lemma KeysCons<K, V>(x: (K, V), m: seq<(K, V)>)
    ensures Keys([x] + m) == {x.0} + Keys(m)
  {
    var s := [x] + m;
    forall k | k in Keys(s)
      ensures k in {x.0} + Keys(m)
    {
      var i :| 0 <= i < |s| && s[i].0 == k;
      if i > 0 {
        assert m[i - 1] == s[i];
      }
    }
    forall k | k in Keys(m)
      ensures k in Keys(s)
    {
      var i :| 0 <= i < |m| && m[i].0 == k;
      assert s[i + 1] == m[i];
    }
    assert s[0] == x;
  }

  lemma KeysSplit<K, V>(m: seq<(K, V)>)
    requires |m| > 0
    ensures Keys(m) == {m[0].0} + Keys(m[1..])
  {
    assert m == [m[0]] + m[1..];
    KeysCons(m[0], m[1..]);
  }

  /** The value stored under `k` (the first entry with that key). */
  function Lookup<K(==), V(==)>(m: seq<(K, V)>, k: K): (r: Option<V>)
    ensures r.Some? <==> k in Keys(m)
    ensures r.Some? ==> (k, r.value) in m
  {
    if |m| == 0 then None
    else if m[0].0 == k then Some(m[0].1)
    else
      KeysSplit(m);
      var r := Lookup(m[1..], k);
      assert forall p :: p in m[1..] ==> p in m;
      r
  }

  /** `map.set(k, v)` / `{...m, [k]: v}`. */
  function Put<K(==), V(==)>(m: seq<(K, V)>, k: K, v: V): (r: seq<(K, V)>)
    ensures Keys(r) == Keys(m) + {k}
    ensures forall i :: 0 <= i < |r| ==> r[i] == (k, v) || r[i] in m
    ensures k !in Keys(m) ==> r == m + [(k, v)]
  {
    if |m| == 0 then
      KeysCons((k, v), m);
      [(k, v)]
    else if m[0].0 == k then
      KeysSplit(m);
      KeysCons((k, v), m[1..]);
      assert forall i :: 1 <= i < |m| ==> m[i] == m[1..][i - 1];
      [(k, v)] + m[1..]
    else
      var rest := Put(m[1..], k, v);
      KeysSplit(m);
      KeysCons(m[0], rest);
      assert forall p :: p in m[1..] ==> p in m;
      [m[0]] + rest
  }

  /** After `Put`, `k` maps to `v`, every other key keeps its value, and keys stay unique. */
  lemma {:induction false} PutLookup<K, V>(m: seq<(K, V)>, k: K, v: V, k': K)
    ensures Lookup(Put(m, k, v), k) == Some(v)
    ensures k' != k ==> Lookup(Put(m, k, v), k') == Lookup(m, k')
    ensures |Put(m, k, v)| == |m| + (if k in Keys(m) then 0 else 1)
  {
    if |m| > 0 {
      KeysSplit(m);
      if m[0].0 != k {
        PutLookup(m[1..], k, v, k');
        assert Put(m, k, v)[1..] == Put(m[1..], k, v);
      } else {
        assert Put(m, k, v)[1..] == m[1..];
      }
    }
  }

  lemma {:induction false} PutUnique<K, V>(m: seq<(K, V)>, k: K, v: V)
    requires UniqueKeys(m)
    ensures UniqueKeys(Put(m, k, v))
  {
    if |m| > 0 && m[0].0 != k {
      PutUnique(m[1..], k, v);
      var r := Put(m, k, v);
      assert r[1..] == Put(m[1..], k, v);
      KeysSplit(r);
      forall j | 0 < j < |r|
        ensures r[0].0 != r[j].0
      {
        assert r[j].0 in Keys(Put(m[1..], k, v));
        KeysSplit(m);
      }
    } else if |m| > 0 {
      var r := Put(m, k, v);
      forall i, j | 0 <= i < j < |r|
        ensures r[i].0 != r[j].0
      {
        assert r[j].0 == m[j].0;
        if i > 0 {
          assert r[i].0 == m[i].0;
        }
      }
    }
  }
}

=== FILE: clean_type_references.dfy ===
/**
 * `cleanTypeReferences`: a rewrite of a syntax tree in which every type reference
 * that resolves to a declaration (other than an enum member) loses its qualifier,
 * `ns.A<ns.B>` becoming `A<B>`. Nothing else in the tree changes.
 */
module CleanTypeReferences {
  import opened Wrappers
  import opened Syntax

  /** `(type.aliasSymbol ?? type.symbol)?.declarations?.[0]`. */
  function FirstDeclaration(p: Program, info: RefInfo): (r: Option<Decl>)
    ensures r.Some? <==> ResolvedSymbol(info).Some? && |DeclarationsOf(p, ResolvedSymbol(info).value)| > 0
  {
    match ResolvedSymbol(info)
    case None => None
    case Some(s) => if |DeclarationsOf(p, s)| == 0 then None else Some(DeclarationsOf(p, s)[0])
  }

  /** A reference is left as it is when it resolves to no declaration, or to an enum member. */
  predicate KeepsName(p: Program, info: RefInfo) {
    FirstDeclaration(p, info).None? || FirstDeclaration(p, info).value.EnumMember?
  }

  /** `isQualifiedName(n) ? n.right : n`. */
  function Rightmost(e: EntityName): (r: EntityName)
    ensures r.Identifier?
    ensures e.Identifier? ==> r == e
    ensures e.QualifiedName? ==> r.text == e.right
  {
    match e
    case Identifier(_) => e
    case QualifiedName(_, right) => Identifier(right)
  }

  /**
   * `cleanTypeNames`: a reference that resolves to a declaration gets its rightmost
   * name and has each type argument cleaned by the same rule; type arguments that are
   * not references are returned untouched, so references nested inside them stay.
   */
  function CleanTypeNames(p: Program, n: TypeNode): (r: TypeNode)
    ensures !n.TypeReference? || KeepsName(p, n.info) ==> r == n
    ensures n.TypeReference? ==> r.TypeReference? && r.info == n.info && |r.typeArguments| == |n.typeArguments|
    ensures n.TypeReference? && !KeepsName(p, n.info) ==>
              && r.typeName.Identifier?
              && r.typeName == Rightmost(n.typeName)
              && forall i :: 0 <= i < |n.typeArguments| ==>
                   (!n.typeArguments[i].TypeReference? ==> r.typeArguments[i] == n.typeArguments[i])
    decreases n
  {
    if !n.TypeReference? || KeepsName(p, n.info) then n
    else
      var args := n.typeArguments;
      TypeReference(Rightmost(n.typeName), seq(|args|, i requires 0 <= i < |args| => CleanTypeNames(p, args[i])), n.info)
  }

  /** `visit`: references are cleaned; every other node is rebuilt from its visited children. */
  function VisitType(p: Program, n: TypeNode): (r: TypeNode)
    ensures n.TypeReference? <==> r.TypeReference?
    ensures n.TypeReference? ==> CleanedAs(p, n, r)
    ensures n.KeywordType? || n.LiteralType? ==> r == n
    decreases n
  {
    match n
    case TypeReference(_, _, _) =>
      CleanRenames(p, n);
      CleanTypeNames(p, n)
    case TypeLiteral(ms) => TypeLiteral(seq(|ms|, i requires 0 <= i < |ms| => VisitElement(p, ms[i])))
    case UnionType(ts) => UnionType(seq(|ts|, i requires 0 <= i < |ts| => VisitType(p, ts[i])))
    case IntersectionType(ts) => IntersectionType(seq(|ts|, i requires 0 <= i < |ts| => VisitType(p, ts[i])))
    case ArrayType(e) => ArrayType(VisitType(p, e))
    case ExpressionWithTypeArguments(e, args, s) =>
      ExpressionWithTypeArguments(e, seq(|args|, i requires 0 <= i < |args| => VisitType(p, args[i])), s)
    case IndexedAccessType(o, x) => IndexedAccessType(VisitType(p, o), VisitType(p, x))
    case TupleType(es) => TupleType(seq(|es|, i requires 0 <= i < |es| => VisitType(p, es[i])))
    case KeywordType(_) => n
    case LiteralType(_) => n
    case OtherTypeNode(kind, cs) => OtherTypeNode(kind, seq(|cs|, i requires 0 <= i < |cs| => VisitType(p, cs[i])))
  }

  function VisitOpt(p: Program, o: Option<TypeNode>): Option<TypeNode>
    decreases o
  {
    match o
    case None => None
    case Some(n) => Some(VisitType(p, n))
  }

  function VisitElement(p: Program, m: TypeElement): TypeElement
    decreases m
  {
    match m
    case PropertySignature(name, q, t) => PropertySignature(name, q, VisitOpt(p, t))
    case IndexSignature(t) => IndexSignature(VisitOpt(p, t))
    case MethodSignature(_) => m
  }

  function VisitHeritage(p: Program, h: HeritageClause): HeritageClause
    decreases h
  {
    HeritageClause(seq(|h.types|, i requires 0 <= i < |h.types| => VisitType(p, h.types[i])))
  }

  /** The walk of a declaration root; an enum member's parent is not one of its children. */
  function VisitDecl(p: Program, d: Decl): (r: Decl)
    ensures r.name == d.name
    ensures r.InterfaceDeclaration? == d.InterfaceDeclaration? && r.TypeAliasDeclaration? == d.TypeAliasDeclaration? &&
            r.TypeParameterDeclaration? == d.TypeParameterDeclaration?
    ensures d.InterfaceDeclaration? ==>
              |r.members| == |d.members| && |r.heritageClauses| == |d.heritageClauses| && |r.typeParameters| == |d.typeParameters|
    ensures d.TypeAliasDeclaration? ==> |r.typeParameters| == |d.typeParameters|
    ensures d.EnumDeclaration? || d.EnumMember? || d.ImportSpecifier? || d.OtherDeclaration? ==> r == d
    decreases d
  {
    match d
    case InterfaceDeclaration(name, ms, hs, tps) =>
      InterfaceDeclaration(name,
        seq(|ms|, i requires 0 <= i < |ms| => VisitElement(p, ms[i])),
        seq(|hs|, i requires 0 <= i < |hs| => VisitHeritage(p, hs[i])),
        seq(|tps|, i requires 0 <= i < |tps| => VisitDecl(p, tps[i])))
    case TypeAliasDeclaration(name, t, tps) =>
      TypeAliasDeclaration(name, VisitType(p, t), seq(|tps|, i requires 0 <= i < |tps| => VisitDecl(p, tps[i])))
    case TypeParameterDeclaration(name, c, dflt) => TypeParameterDeclaration(name, VisitOpt(p, c), VisitOpt(p, dflt))
    case EnumDeclaration(_, _) => d
    case EnumMember(_, _) => d
    case ImportSpecifier(_) => d
    case OtherDeclaration(_, _) => d
  }

  /* ---- What the rewrite does, as a relation between a tree and its rewrite ---- */

  /** The name a reference carries after cleaning: unchanged when it is kept, its rightmost part otherwise. */
  function CleanName(p: Program, name: EntityName, info: RefInfo): (r: EntityName)
    ensures KeepsName(p, info) ==> r == name
    ensures !KeepsName(p, info) ==> r.Identifier? && (name.QualifiedName? ==> r.text == name.right)
  {
    if KeepsName(p, info) then name else Rightmost(name)
  }

  /**
   * `after` is `before` seen from a `cleanTypeNames` position: a non-reference is left
   * alone; a reference keeps its checker answer and arity and takes its clean name,
   * and its arguments are related the same way unless the reference is kept whole.
   */
  predicate CleanedAs(p: Program, before: TypeNode, after: TypeNode)
    decreases before
  {
    if !before.TypeReference? then after == before
    else
      && after.TypeReference?
      && after.info == before.info
      && after.typeName == CleanName(p, before.typeName, before.info)
      && |after.typeArguments| == |before.typeArguments|
      && forall i :: 0 <= i < |before.typeArguments| ==>
           if KeepsName(p, before.info) then after.typeArguments[i] == before.typeArguments[i]
           else CleanedAs(p, before.typeArguments[i], after.typeArguments[i])
  }

  /**
   * `after` is `before` seen from a `visit` position: every reference met while
   * descending is related by `CleanedAs`, every other node keeps its kind and its
   * non-type fields, and its type children are related in turn.
   */
  predicate Renamed(p: Program, before: TypeNode, after: TypeNode)
    decreases before
  {
    match before
    case TypeReference(_, _, _) => CleanedAs(p, before, after)
    case TypeLiteral(ms) =>
      && after.TypeLiteral? && |after.members| == |ms|
      && forall i :: 0 <= i < |ms| ==> ElementRenamed(p, ms[i], after.members[i])
    case UnionType(ts) =>
      after.UnionType? && |after.types| == |ts| && forall i :: 0 <= i < |ts| ==> Renamed(p, ts[i], after.types[i])
    case IntersectionType(ts) =>
      after.IntersectionType? && |after.types| == |ts| && forall i :: 0 <= i < |ts| ==> Renamed(p, ts[i], after.types[i])
    case ArrayType(e) => after.ArrayType? && Renamed(p, e, after.elementType)
    case ExpressionWithTypeArguments(e, args, s) =>
      && after.ExpressionWithTypeArguments? && after.expression == e && after.heritageSymbol == s
      && |after.typeArguments| == |args|
      && forall i :: 0 <= i < |args| ==> Renamed(p, args[i], after.typeArguments[i])
    case IndexedAccessType(o, x) =>
      after.IndexedAccessType? && Renamed(p, o, after.objectType) && Renamed(p, x, after.indexType)
    case TupleType(es) =>
      after.TupleType? && |after.elements| == |es| && forall i :: 0 <= i < |es| ==> Renamed(p, es[i], after.elements[i])
    case KeywordType(_) => after == before
    case LiteralType(_) => after == before
    case OtherTypeNode(kind, cs) =>
      && after.OtherTypeNode? && after.kind == kind && |after.children| == |cs|
      && forall i :: 0 <= i < |cs| ==> Renamed(p, cs[i], after.children[i])
  }

  predicate ElementRenamed(p: Program, before: TypeElement, after: TypeElement)
    decreases before
  {
    match before
    case PropertySignature(name, q, t) =>
      && after.PropertySignature? && after.name == name && after.questionToken == q
      && (t.None? <==> after.memberType.None?)
      && (t.Some? && after.memberType.Some? ==> Renamed(p, t.value, after.memberType.value))
    case IndexSignature(t) =>
      && after.IndexSignature?
      && (t.None? <==> after.memberType.None?)
      && (t.Some? && after.memberType.Some? ==> Renamed(p, t.value, after.memberType.value))
    case MethodSignature(_) => after == before
  }

  predicate OptRenamed(p: Program, before: Option<TypeNode>, after: Option<TypeNode>) {
    && (before.None? <==> after.None?)
    && (before.Some? && after.Some? ==> Renamed(p, before.value, after.value))
  }

  predicate HeritageRenamed(p: Program, before: HeritageClause, after: HeritageClause) {
    |after.types| == |before.types| && forall i :: 0 <= i < |before.types| ==> Renamed(p, before.types[i], after.types[i])
  }

  /**
   * `after` is the declaration `before` after the visit: it keeps its kind and name,
   * its members, heritage types, aliased type and type parameters are related in
   * turn, and the kinds without type children (an enum member's parent included)
   * are unchanged.
   */
  predicate DeclRenamed(p: Program, before: Decl, after: Decl)
    decreases before
  {
    match before
    case InterfaceDeclaration(name, ms, hs, tps) =>
      && after.InterfaceDeclaration? && after.name == name
      && |after.members| == |ms| && (forall i :: 0 <= i < |ms| ==> ElementRenamed(p, ms[i], after.members[i]))
      && |after.heritageClauses| == |hs| && (forall i :: 0 <= i < |hs| ==> HeritageRenamed(p, hs[i], after.heritageClauses[i]))
      && |after.typeParameters| == |tps| && (forall i :: 0 <= i < |tps| ==> DeclRenamed(p, tps[i], after.typeParameters[i]))
    case TypeAliasDeclaration(name, t, tps) =>
      && after.TypeAliasDeclaration? && after.name == name && Renamed(p, t, after.aliasedType)
      && |after.typeParameters| == |tps| && (forall i :: 0 <= i < |tps| ==> DeclRenamed(p, tps[i], after.typeParameters[i]))
    case TypeParameterDeclaration(name, c, dflt) =>
      && after.TypeParameterDeclaration? && after.name == name
      && OptRenamed(p, c, after.constraint) && OptRenamed(p, dflt, after.defaultType)
    case _ => after == before
  }

  /** The visit of a declaration relates it to its rewrite by `DeclRenamed`. */
  lemma {:induction false} VisitDeclRenames(p: Program, d: Decl)
    ensures DeclRenamed(p, d, VisitDecl(p, d))
    decreases d
  {
    match d
    case InterfaceDeclaration(name, ms, hs, tps) =>
      forall i | 0 <= i < |ms| ensures ElementRenamed(p, ms[i], VisitElement(p, ms[i])) {
        VisitElementRenames(p, ms[i]);
      }
      forall i | 0 <= i < |hs| ensures HeritageRenamed(p, hs[i], VisitHeritage(p, hs[i])) {
        forall j | 0 <= j < |hs[i].types| ensures Renamed(p, hs[i].types[j], VisitType(p, hs[i].types[j])) {
          VisitRenames(p, hs[i].types[j]);
        }
      }
      forall i | 0 <= i < |tps| ensures DeclRenamed(p, tps[i], VisitDecl(p, tps[i])) {
        VisitDeclRenames(p, tps[i]);
      }
    case TypeAliasDeclaration(name, t, tps) =>
      VisitRenames(p, t);
      forall i | 0 <= i < |tps| ensures DeclRenamed(p, tps[i], VisitDecl(p, tps[i])) {
        VisitDeclRenames(p, tps[i]);
      }
    case TypeParameterDeclaration(name, c, dflt) =>
      if c.Some? {
        VisitRenames(p, c.value);
      }
      if dflt.Some? {
        VisitRenames(p, dflt.value);
      }
    case _ =>
  }

  /** `cleanTypeNames` relates its input and output by `CleanedAs`. */
  lemma {:induction false} CleanRenames(p: Program, n: TypeNode)
    ensures CleanedAs(p, n, CleanTypeNames(p, n))
    decreases n
  {
    if n.TypeReference? && !KeepsName(p, n.info) {
      var c := CleanTypeNames(p, n);
      forall i | 0 <= i < |n.typeArguments|
        ensures CleanedAs(p, n.typeArguments[i], c.typeArguments[i])
      {
        CleanRenames(p, n.typeArguments[i]);
      }
    }
  }

  /** `visit` relates its input and output by `Renamed`. */
  lemma {:induction false} VisitRenames(p: Program, n: TypeNode)
    ensures Renamed(p, n, VisitType(p, n))
    decreases n
  {
    match n
    case TypeReference(_, _, _) => CleanRenames(p, n);
    case TypeLiteral(ms) =>
      forall i | 0 <= i < |ms| ensures ElementRenamed(p, ms[i], VisitElement(p, ms[i])) {
        VisitElementRenames(p, ms[i]);
      }
    case UnionType(ts) => VisitAllRenamed(p, n, ts);
    case IntersectionType(ts) => VisitAllRenamed(p, n, ts);
    case ArrayType(e) => VisitRenames(p, e);
    case ExpressionWithTypeArguments(_, args, _) => VisitAllRenamed(p, n, args);
    case IndexedAccessType(o, x) => VisitRenames(p, o); VisitRenames(p, x);
    case TupleType(es) => VisitAllRenamed(p, n, es);
    case KeywordType(_) =>
    case LiteralType(_) =>
    case OtherTypeNode(_, cs) => VisitAllRenamed(p, n, cs);
  }

  lemma {:induction false} VisitAllRenamed(p: Program, n: TypeNode, ts: seq<TypeNode>)
    requires forall i :: 0 <= i < |ts| ==> ts[i] < n
    ensures forall i :: 0 <= i < |ts| ==> Renamed(p, ts[i], VisitType(p, ts[i]))
    decreases n, 0
  {
    forall i | 0 <= i < |ts| ensures Renamed(p, ts[i], VisitType(p, ts[i])) {
      VisitRenames(p, ts[i]);
    }
  }

  lemma {:induction false} VisitElementRenames(p: Program, m: TypeElement)
    ensures ElementRenamed(p, m, VisitElement(p, m))
    decreases m
  {
    match m
    case PropertySignature(_, _, t) => if t.Some? { VisitRenames(p, t.value); }
    case IndexSignature(t) => if t.Some? { VisitRenames(p, t.value); }
    case MethodSignature(_) =>
  }

  /* ---- The shape of a tree, with every reference's name erased ---- */

  function Shape(n: TypeNode): TypeNode
    decreases n
  {
    match n
    case TypeReference(_, args, info) => TypeReference(Identifier(""), seq(|args|, i requires 0 <= i < |args| => Shape(args[i])), info)
    case TypeLiteral(ms) => TypeLiteral(seq(|ms|, i requires 0 <= i < |ms| => ShapeElement(ms[i])))
    case UnionType(ts) => UnionType(seq(|ts|, i requires 0 <= i < |ts| => Shape(ts[i])))
    case IntersectionType(ts) => IntersectionType(seq(|ts|, i requires 0 <= i < |ts| => Shape(ts[i])))
    case ArrayType(e) => ArrayType(Shape(e))
    case ExpressionWithTypeArguments(e, args, s) =>
      ExpressionWithTypeArguments(e, seq(|args|, i requires 0 <= i < |args| => Shape(args[i])), s)
    case IndexedAccessType(o, x) => IndexedAccessType(Shape(o), Shape(x))
    case TupleType(es) => TupleType(seq(|es|, i requires 0 <= i < |es| => Shape(es[i])))
    case KeywordType(_) => n
    case LiteralType(_) => n
    case OtherTypeNode(kind, cs) => OtherTypeNode(kind, seq(|cs|, i requires 0 <= i < |cs| => Shape(cs[i])))
  }

  function ShapeOpt(o: Option<TypeNode>): Option<TypeNode>
    decreases o
  {
    match o
    case None => None
    case Some(n) => Some(Shape(n))
  }

  function ShapeElement(m: TypeElement): TypeElement
    decreases m
  {
    match m
    case PropertySignature(name, q, t) => PropertySignature(name, q, ShapeOpt(t))
    case IndexSignature(t) => IndexSignature(ShapeOpt(t))
    case MethodSignature(_) => m
  }

  /** Cleaning a reference renames references and nothing else. */
  lemma {:induction false} CleanKeepsShape(p: Program, n: TypeNode)
    ensures Shape(CleanTypeNames(p, n)) == Shape(n)
    decreases n
  {
    if n.TypeReference? && !KeepsName(p, n.info) {
      var args := n.typeArguments;
      var cleaned := CleanTypeNames(p, n).typeArguments;
      forall i | 0 <= i < |args|
        ensures Shape(cleaned[i]) == Shape(args[i])
      {
        CleanKeepsShape(p, args[i]);
      }
    }
  }

  /** The visit renames references and leaves the shape of the tree, and every other node, as it was. */
  lemma {:induction false} VisitKeepsShape(p: Program, n: TypeNode)
    ensures Shape(VisitType(p, n)) == Shape(n)
    decreases n
  {
    match n
    case TypeReference(_, _, _) => CleanKeepsShape(p, n);
    case TypeLiteral(ms) =>
      forall i | 0 <= i < |ms| ensures ShapeElement(VisitElement(p, ms[i])) == ShapeElement(ms[i]) {
        VisitElementKeepsShape(p, ms[i]);
      }
    case UnionType(ts) => VisitAllKeepShape(p, n, ts);
    case IntersectionType(ts) => VisitAllKeepShape(p, n, ts);
    case ArrayType(e) => VisitKeepsShape(p, e);
    case ExpressionWithTypeArguments(_, args, _) => VisitAllKeepShape(p, n, args);
    case IndexedAccessType(o, x) => VisitKeepsShape(p, o); VisitKeepsShape(p, x);
    case TupleType(es) => VisitAllKeepShape(p, n, es);
    case KeywordType(_) =>
    case LiteralType(_) =>
    case OtherTypeNode(_, cs) => VisitAllKeepShape(p, n, cs);
  }

  lemma {:induction false} VisitAllKeepShape(p: Program, n: TypeNode, ts: seq<TypeNode>)
    requires forall i :: 0 <= i < |ts| ==> ts[i] < n
    ensures forall i :: 0 <= i < |ts| ==> Shape(VisitType(p, ts[i])) == Shape(ts[i])
    decreases n, 0
  {
    forall i | 0 <= i < |ts| ensures Shape(VisitType(p, ts[i])) == Shape(ts[i]) {
      VisitKeepsShape(p, ts[i]);
    }
  }

  lemma {:induction false} VisitElementKeepsShape(p: Program, m: TypeElement)
    ensures ShapeElement(VisitElement(p, m)) == ShapeElement(m)
    decreases m
  {
    match m
    case PropertySignature(_, _, t) => if t.Some? { VisitKeepsShape(p, t.value); }
    case IndexSignature(t) => if t.Some? { VisitKeepsShape(p, t.value); }
    case MethodSignature(_) =>
  }

  /** Cleaning twice is cleaning once: the rename depends only on the checker's answer, which is kept. */
  lemma {:induction false} CleanIdempotent(p: Program, n: TypeNode)
    ensures CleanTypeNames(p, CleanTypeNames(p, n)) == CleanTypeNames(p, n)
    decreases n
  {
    if n.TypeReference? && !KeepsName(p, n.info) {
      var c := CleanTypeNames(p, n);
      forall i | 0 <= i < |n.typeArguments|
        ensures CleanTypeNames(p, c.typeArguments[i]) == c.typeArguments[i]
      {
        CleanIdempotent(p, n.typeArguments[i]);
      }
    }
  }

  /** Visiting twice is visiting once. */
  lemma {:induction false} VisitIdempotent(p: Program, n: TypeNode)
    ensures VisitType(p, VisitType(p, n)) == VisitType(p, n)
    decreases n
  {
    match n
    case TypeReference(_, _, _) => CleanIdempotent(p, n);
    case TypeLiteral(ms) =>
      forall i | 0 <= i < |ms| ensures VisitElement(p, VisitElement(p, ms[i])) == VisitElement(p, ms[i]) {
        VisitElementIdempotent(p, ms[i]);
      }
    case UnionType(ts) => VisitAllIdempotent(p, n, ts);
    case IntersectionType(ts) => VisitAllIdempotent(p, n, ts);
    case ArrayType(e) => VisitIdempotent(p, e);
    case ExpressionWithTypeArguments(_, args, _) => VisitAllIdempotent(p, n, args);
    case IndexedAccessType(o, x) => VisitIdempotent(p, o); VisitIdempotent(p, x);
    case TupleType(es) => VisitAllIdempotent(p, n, es);
    case KeywordType(_) =>
    case LiteralType(_) =>
    case OtherTypeNode(_, cs) => VisitAllIdempotent(p, n, cs);
  }

  lemma {:induction false} VisitAllIdempotent(p: Program, n: TypeNode, ts: seq<TypeNode>)
    requires forall i :: 0 <= i < |ts| ==> ts[i] < n
    ensures forall i :: 0 <= i < |ts| ==> VisitType(p, VisitType(p, ts[i])) == VisitType(p, ts[i])
    decreases n, 0
  {
    forall i | 0 <= i < |ts| ensures VisitType(p, VisitType(p, ts[i])) == VisitType(p, ts[i]) {
      VisitIdempotent(p, ts[i]);
    }
  }

  lemma {:induction false} VisitElementIdempotent(p: Program, m: TypeElement)
    ensures VisitElement(p, VisitElement(p, m)) == VisitElement(p, m)
    decreases m
  {
    match m
    case PropertySignature(_, _, t) => if t.Some? { VisitIdempotent(p, t.value); }
    case IndexSignature(t) => if t.Some? { VisitIdempotent(p, t.value); }
    case MethodSignature(_) =>
  }

  lemma VisitHeritageIdempotent(p: Program, h: HeritageClause)
    ensures VisitHeritage(p, VisitHeritage(p, h)) == VisitHeritage(p, h)
  {
    forall i | 0 <= i < |h.types| ensures VisitType(p, VisitType(p, h.types[i])) == VisitType(p, h.types[i]) {
      VisitIdempotent(p, h.types[i]);
    }
  }

  /** Cleaning a whole declaration twice is cleaning it once. */
  lemma {:induction false} VisitDeclIdempotent(p: Program, d: Decl)
    ensures VisitDecl(p, VisitDecl(p, d)) == VisitDecl(p, d)
    decreases d
  {
    match d
    case InterfaceDeclaration(_, ms, hs, tps) =>
      forall i | 0 <= i < |ms| ensures VisitElement(p, VisitElement(p, ms[i])) == VisitElement(p, ms[i]) {
        VisitElementIdempotent(p, ms[i]);
      }
      forall i | 0 <= i < |hs| ensures VisitHeritage(p, VisitHeritage(p, hs[i])) == VisitHeritage(p, hs[i]) {
        VisitHeritageIdempotent(p, hs[i]);
      }
      forall i | 0 <= i < |tps| ensures VisitDecl(p, VisitDecl(p, tps[i])) == VisitDecl(p, tps[i]) {
        VisitDeclIdempotent(p, tps[i]);
      }
    case TypeAliasDeclaration(_, t, tps) =>
      VisitIdempotent(p, t);
      forall i | 0 <= i < |tps| ensures VisitDecl(p, VisitDecl(p, tps[i])) == VisitDecl(p, tps[i]) {
        VisitDeclIdempotent(p, tps[i]);
      }
    case TypeParameterDeclaration(_, c, dflt) =>
      if c.Some? { VisitIdempotent(p, c.value); }
      if dflt.Some? { VisitIdempotent(p, dflt.value); }
    case EnumDeclaration(_, _) =>
    case EnumMember(_, _) =>
    case ImportSpecifier(_) =>
    case OtherDeclaration(_, _) =>
  }
}

=== FILE: client_source.dfy ===
/**
 * The logic of `generateClientSource` that decides what the generated client
 * contains: the parsed error classes, one error parser per service (an if-chain on
 * `error.name`), the result parsers for non-reference return types, the optional
 * `opts` constructor parameter carrying service contexts, and the names imported
 * from the domain file. Printing the syntax tree is not modelled.
 */
module ClientSource {
  import opened Wrappers
  import opened Syntax
  import Seqs

  /* ---- Input ---- */

  datatype ConstructorParameter = ConstructorParameter(name: string, paramType: Option<TypeNode>)
  datatype ClassMember = Constructor(parameters: seq<ConstructorParameter>) | OtherMember(name: string)
  /** A domain or service error class: its name (absent for an anonymous class) and members. */
  datatype ErrorClass = ErrorClass(name: Option<string>, members: seq<ClassMember>)

  /** `name` is absent when the function's name node is. */
  datatype ServiceFunction = ServiceFunction(name: Option<string>, funcType: Option<TypeNode>)
  datatype Service = Service(name: string, functions: seq<ServiceFunction>, context: Option<TypeNode>, errors: seq<ErrorClass>)
  /** `domainModels` holds the names of the domain models. */
  datatype AppDeclaration = AppDeclaration(domainModels: seq<string>, errors: seq<ErrorClass>, services: seq<Service>)

  datatype ClientError =
    | AnonymousErrorClass            // `errorClass.name!.text` on an absent name
    | ErrorWithoutConstructor(name: string)  // `.find(isConstructorDeclaration)!.parameters` on no constructor

  /* ---- Parsed errors ---- */

  datatype Prop = Prop(name: string, propType: Option<TypeNode>)
  datatype ParsedError = ParsedError(name: string, props: seq<Prop>)

  predicate IsConstructor(m: ClassMember) {
    m.Constructor?
  }

  function PropsOf(ps: seq<ConstructorParameter>): (r: seq<Prop>)
    ensures |r| == |ps| && forall i :: 0 <= i < |ps| ==> r[i] == Prop(ps[i].name, ps[i].paramType)
  {
    seq(|ps|, i requires 0 <= i < |ps| => Prop(ps[i].name, ps[i].paramType))
  }

  /** `parseError`: the class name, and the parameters of its first constructor in declaration order. */
  function ParseError(c: ErrorClass): (r: Result<ParsedError, ClientError>)
    ensures r.Success? <==> c.name.Some? && exists i :: 0 <= i < |c.members| && c.members[i].Constructor?
    ensures c.name.None? ==> r == Failure(AnonymousErrorClass)
    ensures r.Success? ==> r.value.name == c.name.value &&
                           exists i :: 0 <= i < |c.members| && c.members[i].Constructor? &&
                                       (forall j :: 0 <= j < i ==> !c.members[j].Constructor?) &&
                                       r.value.props == PropsOf(c.members[i].parameters)
  {
    if c.name.None? then Failure(AnonymousErrorClass)
    else
      match Seqs.FirstMatch(c.members, IsConstructor)
      case None => Failure(ErrorWithoutConstructor(c.name.value))
      case Some(i) => Success(ParsedError(c.name.value, PropsOf(c.members[i].parameters)))
  }

  /** `f` succeeds on every element before `s[k]` and fails on `s[k]` with `e`: the error a `map` that throws reports. */
  predicate FirstFailure<T, V>(s: seq<T>, f: T -> Result<V, ClientError>, k: nat, e: ClientError) {
    k < |s| && f(s[k]) == Failure(e) && forall j :: 0 <= j < k ==> f(s[j]).Success?
  }

  lemma FirstFailureShift<T, V>(s: seq<T>, f: T -> Result<V, ClientError>, e: ClientError)
    requires |s| > 0 && f(s[0]).Success? && exists k :: FirstFailure(s[1..], f, k, e)
    ensures exists k :: FirstFailure(s, f, k, e)
  {
    var k: nat :| FirstFailure(s[1..], f, k, e);
    assert s[k + 1] == s[1..][k];
    forall j | 0 <= j < k + 1
      ensures f(s[j]).Success?
    {
      if j > 0 {
        assert s[j] == s[1..][j - 1];
      }
    }
    assert FirstFailure(s, f, k + 1, e);
  }

  /** `errors.map(parseError)`: the first class that cannot be parsed aborts, with its error. */
  function ParseErrors(cs: seq<ErrorClass>): (r: Result<seq<ParsedError>, ClientError>)
    ensures r.Success? <==> forall i :: 0 <= i < |cs| ==> ParseError(cs[i]).Success?
    ensures r.Success? ==> |r.value| == |cs| && forall i :: 0 <= i < |cs| ==> r.value[i] == ParseError(cs[i]).value
    ensures r.Failure? ==> exists k :: FirstFailure(cs, ParseError, k, r.error)
  {
    if |cs| == 0 then Success([])
    else match ParseError(cs[0])
      case Failure(e) =>
        assert FirstFailure(cs, ParseError, 0, e);
        Failure(e)
      case Success(first) =>
        match ParseErrors(cs[1..])
        case Failure(e) =>
          FirstFailureShift(cs, ParseError, e);
          Failure(e)
        case Success(rest) =>
          assert forall i :: 1 <= i < |cs| ==> cs[i] == cs[1..][i - 1];
          Success([first] + rest)
  }

  /** A service's own errors are known under `<service>.<name>`. */
  function Qualified(service: string, errs: seq<ParsedError>): (r: seq<ParsedError>)
    ensures |r| == |errs| && forall i :: 0 <= i < |errs| ==> r[i] == ParsedError(service + "." + errs[i].name, errs[i].props)
  {
    seq(|errs|, i requires 0 <= i < |errs| => ParsedError(service + "." + errs[i].name, errs[i].props))
  }

  /* ---- The generated error parser ---- */

  /** The expressions the error parser builds its arguments from. */
  datatype Expr = ErrorPropsField(field: string) | TextLiteral(value: string)

  datatype Stmt =
    | IfNameIs(name: string, thenStmt: Stmt, elseStmt: Stmt)  // `if (error.name === name) then else else`
    | ReturnNew(className: string, args: seq<Expr>)          // `return new className(...args)`

  /** The function `error_parser_<service>(error: any): Error | ...`. */
  datatype ErrorParser = ErrorParser(name: string, returnTypeNames: seq<string>, body: Stmt)

  /** `returnError`. */
  function ReturnError(name: string, args: seq<Expr>): Stmt {
    ReturnNew(name, args)
  }

  function PropArgs(props: seq<Prop>): (r: seq<Expr>)
    ensures |r| == |props| && forall i :: 0 <= i < |props| ==> r[i] == ErrorPropsField(props[i].name)
  {
    seq(|props|, i requires 0 <= i < |props| => ErrorPropsField(props[i].name))
  }

  /** A built-in `Error` keeps its message; any other unknown name is an "Unknown Error". */
  const Fallback: Stmt :=
    IfNameIs("Error", ReturnError("Error", [ErrorPropsField("message")]), ReturnError("Error", [TextLiteral("Unknown Error")]))

  function Branch(e: ParsedError, elseStmt: Stmt): Stmt {
    IfNameIs(e.name, ReturnError(e.name, PropArgs(e.props)), elseStmt)
  }

  /**
   * `parsedErrors.reduceRight((elseSt, e) => if-statement, acc)`: the last error is
   * wrapped first, so the first error is the outermost test and `acc` the innermost else.
   */
  function ReduceRight(errs: seq<ParsedError>, acc: Stmt): (r: Stmt)
    ensures |errs| == 0 ==> r == acc
    ensures |errs| > 0 ==> r == Branch(errs[0], ReduceRight(errs[1..], acc))
    decreases |errs|
  {
    if |errs| == 0 then acc
    else
      assert |errs| > 1 ==> errs[1..][..|errs| - 2] == errs[..|errs| - 1][1..] && errs[1..][|errs| - 2] == errs[|errs| - 1];
      ReduceRight(errs[..|errs| - 1], Branch(errs[|errs| - 1], acc))
  }

  /** `generateErrorParser`: a parser whose body picks the first error of that name, else the fallback. */
  function GenerateErrorParser(service: string, errs: seq<ParsedError>): (r: ErrorParser)
    ensures r.name == "error_parser_" + service
    ensures r.returnTypeNames == ["Error"] + Seqs.Map(errs, (e: ParsedError) => e.name)
    ensures forall name, props :: Eval(r.body, name, props) == Expected(errs, name, props)
  {
    ErrorParserBodyEval(errs);
    ErrorParser("error_parser_" + service, ["Error"] + Seqs.Map(errs, (e: ParsedError) => e.name), ReduceRight(errs, Fallback))
  }

  lemma ErrorParserBodyEval(errs: seq<ParsedError>)
    ensures forall name, props :: Eval(ReduceRight(errs, Fallback), name, props) == Expected(errs, name, props)
  {
    forall name, props
      ensures Eval(ReduceRight(errs, Fallback), name, props) == Expected(errs, name, props)
    {
      ReduceRightEval(errs, Fallback, name, props);
    }
  }

  /* ---- What the generated parser does at run time ---- */

  /** A property value of the incoming `error`. */
  datatype Value = StringValue(s: string) | UndefinedValue | Opaque(id: nat)

  datatype Constructed = Constructed(className: string, args: seq<Value>)

  function EvalExpr(e: Expr, props: map<string, Value>): Value {
    match e
    case ErrorPropsField(f) => if f in props then props[f] else UndefinedValue
    case TextLiteral(v) => StringValue(v)
  }

  function EvalArgs(args: seq<Expr>, props: map<string, Value>): (r: seq<Value>)
    ensures |r| == |args| && forall i :: 0 <= i < |args| ==> r[i] == EvalExpr(args[i], props)
  {
    seq(|args|, i requires 0 <= i < |args| => EvalExpr(args[i], props))
  }

  /** Running a parser body on an error with the given `name` and `props`. */
  function Eval(st: Stmt, name: string, props: map<string, Value>): Constructed
    decreases st
  {
    match st
    case IfNameIs(n, t, e) => if name == n then Eval(t, name, props) else Eval(e, name, props)
    case ReturnNew(c, args) => Constructed(c, EvalArgs(args, props))
  }

  /** The error a name stands for: the first parsed error with that name, built from `props.<p>` for each of its props. */
  function Expected(errs: seq<ParsedError>, name: string, props: map<string, Value>): Constructed {
    match Seqs.FirstMatch(errs, (e: ParsedError) => e.name == name)
    case Some(i) => Constructed(errs[i].name, EvalArgs(PropArgs(errs[i].props), props))
    case None =>
      if name == "Error" then Constructed("Error", [EvalExpr(ErrorPropsField("message"), props)])
      else Constructed("Error", [StringValue("Unknown Error")])
  }

  lemma {:induction false} ReduceRightEval(errs: seq<ParsedError>, acc: Stmt, name: string, props: map<string, Value>)
    ensures Eval(ReduceRight(errs, acc), name, props) ==
              match Seqs.FirstMatch(errs, (e: ParsedError) => e.name == name)
              case Some(i) => Constructed(errs[i].name, EvalArgs(PropArgs(errs[i].props), props))
              case None => Eval(acc, name, props)
    decreases |errs|
  {
    if |errs| > 0 {
      ReduceRightEval(errs[1..], acc, name, props);
      var p := (e: ParsedError) => e.name == name;
      if errs[0].name != name {
        match Seqs.FirstMatch(errs[1..], p)
        case Some(i) => assert errs[1..][i] == errs[i + 1];
        case None =>
      }
    }
  }

  /**
   * The generated error parser compares `error.name` with the errors in list order:
   * the first equal name wins and is built from `error.props`, field by field; a
   * built-in `Error` keeps its message and any other name is an "Unknown Error".
   */
  lemma ErrorParserPicksFirstMatch(service: string, errs: seq<ParsedError>, name: string, props: map<string, Value>)
    ensures Eval(GenerateErrorParser(service, errs).body, name, props) == Expected(errs, name, props)
  {
    ReduceRightEval(errs, Fallback, name, props);
  }

  /* ---- Result parsers ---- */

  /** A `<function>ResultParser` declaration for a return type's first type argument. */
  datatype ResultParser = ResultParser(name: string, parsedType: TypeNode)

  /** `func.type.typeArguments?.[0]` when the declared type is a reference. */
  function ReturnTypeArgument(f: ServiceFunction): (r: Option<TypeNode>)
    ensures r.Some? <==> f.funcType.Some? && f.funcType.value.TypeReference? && |f.funcType.value.typeArguments| > 0
    ensures r.Some? ==> r.value == f.funcType.value.typeArguments[0]
  {
    if f.funcType.Some? && f.funcType.value.TypeReference? && |f.funcType.value.typeArguments| > 0
    then Some(f.funcType.value.typeArguments[0])
    else None
  }

  /** The template `${func.name?.getText()}ResultParser`: an absent name prints as `undefined`. */
  function ResultParserName(f: ServiceFunction): string {
    (if f.name.Some? then f.name.value else "undefined") + "ResultParser"
  }

  /** Whether a function gets a result parser: a first type argument that is not itself a reference. */
  predicate NeedsResultParser(f: ServiceFunction) {
    ReturnTypeArgument(f).Some? && !ReturnTypeArgument(f).value.TypeReference?
  }

  /** The reference definition: the result parsers of each function, service by service. */
  function FunctionParsers(fs: seq<ServiceFunction>): seq<ResultParser> {
    if |fs| == 0 then []
    else
      (if NeedsResultParser(fs[0]) then [ResultParser(ResultParserName(fs[0]), ReturnTypeArgument(fs[0]).value)] else []) +
      FunctionParsers(fs[1..])
  }

  function ServiceParsers(services: seq<Service>): seq<ResultParser> {
    if |services| == 0 then [] else FunctionParsers(services[0].functions) + ServiceParsers(services[1..])
  }

  lemma {:induction false} FunctionParsersSnoc(fs: seq<ServiceFunction>, f: ServiceFunction)
    ensures FunctionParsers(fs + [f]) == FunctionParsers(fs) + FunctionParsers([f])
    decreases |fs|
  {
    if |fs| > 0 {
      assert (fs + [f])[1..] == fs[1..] + [f];
      FunctionParsersSnoc(fs[1..], f);
    } else {
      assert fs + [f] == [f];
    }
  }

  lemma {:induction false} ServiceParsersSnoc(ss: seq<Service>, s: Service)
    ensures ServiceParsers(ss + [s]) == ServiceParsers(ss) + FunctionParsers(s.functions)
    decreases |ss|
  {
    if |ss| > 0 {
      assert (ss + [s])[1..] == ss[1..] + [s];
      ServiceParsersSnoc(ss[1..], s);
    } else {
      assert ss + [s] == [s];
      assert [s][1..] == [];
    }
  }

  /** `generateParsersForReturnTypes`: the nested loops over services and their functions. */
  method GenerateParsersForReturnTypes(services: seq<Service>) returns (result: seq<ResultParser>)
    ensures result == ServiceParsers(services)
    ensures forall k :: 0 <= k < |result| ==> !result[k].parsedType.TypeReference?
  {
    result := [];
    for i := 0 to |services|
      invariant result == ServiceParsers(services[..i])
    {
      var functions := services[i].functions;
      var before := result;
      for j := 0 to |functions|
        invariant result == before + FunctionParsers(functions[..j])
      {
        var f := functions[j];
        var returnType := ReturnTypeArgument(f);
        FunctionParsersSnoc(functions[..j], f);
        assert functions[..j + 1] == functions[..j] + [f];
        if returnType.None? || returnType.value.TypeReference? {
          continue;
        }
        result := result + [ResultParser(ResultParserName(f), returnType.value)];
      }
      assert functions[..|functions|] == functions;
      ServiceParsersSnoc(services[..i], services[i]);
      assert services[..i + 1] == services[..i] + [services[i]];
    }
    assert services[..|services|] == services;
    ParsersAreForNonReferences(services);
  }

  /** Every result parser is for a first type argument that is not a reference. */
  lemma {:induction false} ParsersAreForNonReferences(services: seq<Service>)
    ensures forall k :: 0 <= k < |ServiceParsers(services)| ==> !ServiceParsers(services)[k].parsedType.TypeReference?
    decreases |services|
  {
    if |services| > 0 {
      FunctionParsersAreForNonReferences(services[0].functions);
      ParsersAreForNonReferences(services[1..]);
    }
  }

  lemma {:induction false} FunctionParsersAreForNonReferences(fs: seq<ServiceFunction>)
    ensures forall k :: 0 <= k < |FunctionParsers(fs)| ==> !FunctionParsers(fs)[k].parsedType.TypeReference?
    decreases |fs|
  {
    if |fs| > 0 {
      FunctionParsersAreForNonReferences(fs[1..]);
    }
  }

  /* ---- Constructor and opts ---- */

  /** The types the generated client spells out. */
  datatype GenType =
    | GenRef(name: string, args: seq<GenType>)
    | GenUnion(types: seq<GenType>)
    | Given(node: TypeNode)                 // a type node copied from the app declaration
    | GenFunction(resultType: GenType)       // a function type with no parameters
    | GenLiteral(props: seq<GenProp>)
  datatype GenProp = GenProp(name: string, propType: GenType)
  datatype GenParam = GenParam(name: string, isPrivate: bool, isReadonly: bool, paramType: Option<GenType>, initializer: Option<string>)

  /** `serviceName: () => C | Promise<C>`. */
  function ContextFactory(serviceName: string, c: TypeNode): GenProp {
    GenProp(serviceName, GenFunction(GenUnion([Given(c), GenRef("Promise", [Given(c)])])))
  }

  /** One context factory per service that has a context, in service order. */
  function ContextEntries(services: seq<Service>): (r: seq<GenProp>)
    ensures |r| == Seqs.Count(services, (s: Service) => s.context.Some?)
    ensures |r| == 0 <==> forall i :: 0 <= i < |services| ==> services[i].context.None?
  {
    if |services| == 0 then []
    else if services[0].context.Some? then [ContextFactory(services[0].name, services[0].context.value)] + ContextEntries(services[1..])
    else ContextEntries(services[1..])
  }

  /** `generateContextParam`: the `context` property, present iff some service has a context. */
  function GenerateContextParam(services: seq<Service>): (r: Option<GenProp>)
    ensures r.Some? <==> exists i :: 0 <= i < |services| && services[i].context.Some?
    ensures r.Some? ==> r.value == GenProp("context", GenLiteral(ContextEntries(services)))
  {
    var entries := ContextEntries(services);
    if |entries| == 0 then None else Some(GenProp("context", GenLiteral(entries)))
  }

  /** `generateOptsParam`: `private readonly opts: { context: ... }`, present iff the context property is. */
  function GenerateOptsParam(services: seq<Service>): (r: Option<GenParam>)
    ensures r.Some? <==> exists i :: 0 <= i < |services| && services[i].context.Some?
    ensures r.Some? ==> r.value.name == "opts" && r.value.isPrivate && r.value.isReadonly &&
                        r.value.paramType == Some(GenLiteral([GenProp("context", GenLiteral(ContextEntries(services)))]))
  {
    match GenerateContextParam(services)
    case None => None
    case Some(ctx) => Some(GenParam("opts", true, true, Some(GenLiteral([ctx])), None))
  }

  const DefaultUrl := "http://localhost:3030"

  /** `fetch: Fetch`, then `url = "http://localhost:3030"`, then `opts` when there is one. */
  function ConstructorParams(services: seq<Service>): (r: seq<GenParam>)
    ensures |r| == 2 || |r| == 3
    ensures r[0] == GenParam("fetch", false, false, Some(GenRef("Fetch", [])), None)
    ensures r[1] == GenParam("url", false, false, None, Some(DefaultUrl))
    ensures |r| == 3 <==> exists i :: 0 <= i < |services| && services[i].context.Some?
    ensures |r| == 3 ==> Some(r[2]) == GenerateOptsParam(services)
  {
    var fixed := [GenParam("fetch", false, false, Some(GenRef("Fetch", [])), None), GenParam("url", false, false, None, Some(DefaultUrl))];
    match GenerateOptsParam(services)
    case None => fixed
    case Some(opts) => fixed + [opts]
  }

  /* ---- The client source ---- */

  datatype Client = Client(
    domainImports: seq<string>,
    resultParsers: seq<ResultParser>,
    errorParsers: seq<ErrorParser>,
    constructorParams: seq<GenParam>,
    superArgs: seq<string>)

  /** A service's own error classes, parsed. */
  function OwnErrors(service: Service): Result<seq<ParsedError>, ClientError> {
    ParseErrors(service.errors)
  }

  /** Every service's errors, parsed in service order: the first service whose classes do not parse aborts, with that error. */
  function ParseServiceErrors(services: seq<Service>): (r: Result<seq<seq<ParsedError>>, ClientError>)
    ensures r.Success? <==> forall i :: 0 <= i < |services| ==> ParseErrors(services[i].errors).Success?
    ensures r.Success? ==> |r.value| == |services| &&
                           forall i :: 0 <= i < |services| ==> r.value[i] == ParseErrors(services[i].errors).value
    ensures r.Failure? ==> exists k :: FirstFailure(services, OwnErrors, k, r.error)
  {
    if |services| == 0 then Success([])
    else match ParseErrors(services[0].errors)
      case Failure(e) =>
        assert FirstFailure(services, OwnErrors, 0, e);
        Failure(e)
      case Success(first) =>
        match ParseServiceErrors(services[1..])
        case Failure(e) =>
          FirstFailureShift(services, OwnErrors, e);
          Failure(e)
        case Success(rest) =>
          assert forall i :: 1 <= i < |services| ==> services[i] == services[1..][i - 1];
          Success([first] + rest)
  }

  function ErrorParsers(services: seq<Service>, domain: seq<ParsedError>, own: seq<seq<ParsedError>>): (r: seq<ErrorParser>)
    requires |own| == |services|
    ensures |r| == |services|
    ensures forall i :: 0 <= i < |services| ==> r[i] == GenerateErrorParser(services[i].name, domain + Qualified(services[i].name, own[i]))
  {
    seq(|services|, i requires 0 <= i < |services| => GenerateErrorParser(services[i].name, domain + Qualified(services[i].name, own[i])))
  }

  /**
   * `generateClientSource`: domain errors are parsed first, then each service's
   * errors; the first unparsable error class in that order aborts the generation
   * with its error.
   */
  method GenerateClientSource(app: AppDeclaration) returns (r: Result<Client, ClientError>)
    ensures r.Success? <==> ParseErrors(app.errors).Success? && ParseServiceErrors(app.services).Success?
    ensures ParseErrors(app.errors).Failure? ==> r == Failure(ParseErrors(app.errors).error)
    ensures ParseErrors(app.errors).Success? && ParseServiceErrors(app.services).Failure? ==>
              r == Failure(ParseServiceErrors(app.services).error)
    ensures r.Success? ==>
              var domain := ParseErrors(app.errors).value;
              && r.value.domainImports == app.domainModels + Seqs.Map(domain, (e: ParsedError) => e.name) + Seqs.Map(app.services, (s: Service) => s.name)
              && r.value.resultParsers == ServiceParsers(app.services)
              && |r.value.errorParsers| == |app.services|
              && (forall i :: 0 <= i < |app.services| ==>
                    r.value.errorParsers[i] == GenerateErrorParser(app.services[i].name,
                      domain + Qualified(app.services[i].name, ParseErrors(app.services[i].errors).value)))
              && r.value.constructorParams == ConstructorParams(app.services)
              && r.value.superArgs == ["fetch", "url"]
  {
    var domain := ParseErrors(app.errors);
    if domain.Failure? {
      return Failure(domain.error);
    }
    var own := ParseServiceErrors(app.services);
    if own.Failure? {
      return Failure(own.error);
    }
    var parsers := GenerateParsersForReturnTypes(app.services);
    r := Success(Client(
      app.domainModels + Seqs.Map(domain.value, (e: ParsedError) => e.name) + Seqs.Map(app.services, (s: Service) => s.name),
      parsers,
      ErrorParsers(app.services, domain.value, own.value),
      ConstructorParams(app.services),
      ["fetch", "url"]));
  }

  /**
   * A service's own error is matched by its qualified name `<service>.<name>`, unless
   * a domain error or an earlier error of the service carries that same name.
   */
  lemma ServiceErrorMatchedByQualifiedName(service: string, domain: seq<ParsedError>, own: seq<ParsedError>, k: nat, props: map<string, Value>)
    requires k < |own|
    requires forall i :: 0 <= i < |domain| ==> domain[i].name != service + "." + own[k].name
    requires forall i :: 0 <= i < k ==> own[i].name != own[k].name
    ensures Eval(GenerateErrorParser(service, domain + Qualified(service, own)).body, service + "." + own[k].name, props) ==
            Constructed(service + "." + own[k].name, EvalArgs(PropArgs(own[k].props), props))
  {
    var errs := domain + Qualified(service, own);
    var name := service + "." + own[k].name;
    ErrorParserPicksFirstMatch(service, errs, name, props);
    var m := Seqs.FirstMatch(errs, (e: ParsedError) => e.name == name);
    assert errs[|domain| + k].name == name;
    assert m.Some?;
    forall i | |domain| <= i < |domain| + k
      ensures errs[i].name != name
    {
      assert errs[i].name == service + "." + own[i - |domain|].name;
      assert own[i - |domain|].name != own[k].name;
      assert service + "." + own[i - |domain|].name != name by {
        var a := service + ".";
        assert (a + own[i - |domain|].name)[|a|..] == own[i - |domain|].name;
        assert (a + own[k].name)[|a|..] == own[k].name;
      }
    }
    assert m.value == |domain| + k;
  }
}

=== FILE: extract_examples.dfy ===
/**
 * Two behaviours of the closure walk on small programs: heritage clauses repeat a
 * declaration already in the output, and a recursive union alias is expanded without
 * end because a union type has no symbol of its own.
 */
module ExtractExamples {
  import opened Wrappers
  import opened Syntax
  import opened ExtractModels

  const SymA := Sym(1, "A")
  const SymB := Sym(2, "B")
  const DeclB := InterfaceDeclaration("B", [], [], [])
  /** `interface A extends B {}` */
  const DeclA := InterfaceDeclaration("A", [], [HeritageClause([ExpressionWithTypeArguments(Identifier("B"), [], Some(SymB))])], [])
  const RefA := TypeReference(Identifier("A"), [], RefInfo(false, None, Some(SymA), Some(SymA)))
  const RefB := TypeReference(Identifier("B"), [], RefInfo(false, None, Some(SymB), Some(SymB)))
  const Inherits := Program(map[SymA := [DeclA], SymB := [DeclB]], {})

  /** An interface with no members, heritage or type parameters is appended as it is. */
  lemma EmptyInterfaceAppended(p: Program, d: Decl, w: Walk, fuel: nat)
    requires d.InterfaceDeclaration? && d.members == [] && d.heritageClauses == [] && d.typeParameters == []
    ensures DoDecl(p, d, w, fuel) == Success(Walk(w.models + [d], w.added))
  {
    assert DoInterface(p, d, w, fuel) == Success(Walk(w.models + [d], w.added));
  }

  lemma SingleDeclaration(p: Program, d: Decl, skipExternal: bool, w: Walk, fuel: nat)
    requires d !in p.externalDeclarations
    ensures DoDecls(p, [d], skipExternal, w, fuel) == DoDecl(p, d, w, fuel)
  {
    assert [d][1..] == [];
  }

  lemma FirstReferenceToB()
    ensures DoType(Inherits, RefB, Walk([], []), 2) == Success(Walk([DeclB], [SymB]))
  {
    var w := Walk([], [SymB]);
    EmptyInterfaceAppended(Inherits, DeclB, w, 1);
    SingleDeclaration(Inherits, DeclB, true, w, 1);
    assert DeclarationsOf(Inherits, SymB) == [DeclB];
    assert Expand(Inherits, SymB, true, w, 2) == DoDecls(Inherits, [DeclB], true, w, 1);
    assert DoDecls(Inherits, [DeclB], true, w, 1) == DoDecl(Inherits, DeclB, w, 1);
    assert w.models + [DeclB] == [DeclB];
    assert Expand(Inherits, SymB, true, w, 2) == Success(Walk([DeclB], [SymB]));
    assert DoTypes(Inherits, RefB.typeArguments, Walk([], []), 2) == Success(Walk([], []));
    assert Walk([], []).(added := [] + [SymB]) == w;
    assert DoReference(Inherits, RefB, Walk([], []), 2) == Expand(Inherits, SymB, true, w, 2);
  }

  /** A single heritage clause with a single type walks that type. */
  lemma SingleHeritageType(p: Program, e: TypeNode, w: Walk, fuel: nat)
    ensures DoHeritage(p, [HeritageClause([e])], w, fuel) == DoType(p, e, w, fuel)
  {
    assert [e][1..] == [];
    assert [HeritageClause([e])][1..] == [];
    assert DoTypes(p, [e], w, fuel) == DoType(p, e, w, fuel) by {
      assert DoTypes(p, [e][1..], w, fuel) == Success(w);
    }
  }

  /** A resolved `extends` type walks as the expansion of its symbol, library declarations included. */
  lemma ExtendsIsExpand(p: Program, e: TypeNode, w: Walk, fuel: nat)
    requires e.ExpressionWithTypeArguments? && e.heritageSymbol.Some?
    ensures DoType(p, e, w, fuel) == Expand(p, e.heritageSymbol.value, false, w, fuel)
  {
    assert DoType(p, e, w, fuel) == DoExtends(p, e, w, fuel);
  }

  lemma HeritageOfA()
    ensures DoHeritage(Inherits, DeclA.heritageClauses, Walk([DeclB], [SymB, SymA]), 1) == Success(Walk([DeclB, DeclB], [SymB, SymA]))
  {
    var w := Walk([DeclB], [SymB, SymA]);
    var w' := Walk([DeclB, DeclB], [SymB, SymA]);
    EmptyInterfaceAppended(Inherits, DeclB, w, 0);
    assert w.models + [DeclB] == [DeclB, DeclB];
    SingleDeclaration(Inherits, DeclB, false, w, 0);
    assert DeclarationsOf(Inherits, SymB) == [DeclB];
    var e := ExpressionWithTypeArguments(Identifier("B"), [], Some(SymB));
    assert Expand(Inherits, SymB, false, w, 1) == Success(w');
    ExtendsIsExpand(Inherits, e, w, 1);
    SingleHeritageType(Inherits, e, w, 1);
  }

  /**
   * Expanding a symbol whose one declaration is an interface with neither members nor
   * type parameters walks the interface's heritage, then appends the interface.
   */
  lemma HeritageOnlyInterfaceExpands(p: Program, s: Sym, d: Decl, w: Walk, w1: Walk, fuel: nat)
    requires DeclarationsOf(p, s) == [d] && d !in p.externalDeclarations
    requires d.InterfaceDeclaration? && d.members == [] && d.typeParameters == []
    requires DoHeritage(p, d.heritageClauses, w, fuel) == Success(w1)
    ensures Expand(p, s, true, w, fuel + 1) == Success(w1.(models := w1.models + [d]))
  {
    assert DoMembers(p, d.members, false, w, fuel) == Success(w);
    assert DoDecls(p, d.typeParameters, false, w1, fuel) == Success(w1);
    assert DoInterface(p, d, w, fuel) == Success(w1.(models := w1.models + [d]));
    SingleDeclaration(p, d, true, w, fuel);
  }

  lemma DeclarationsOfA()
    ensures DeclarationsOf(Inherits, SymA) == [DeclA]
  {
  }

  lemma ExpandA()
    ensures Expand(Inherits, SymA, true, Walk([DeclB], [SymB, SymA]), 2) == Success(Walk([DeclB, DeclB, DeclA], [SymB, SymA]))
  {
    var w1 := Walk([DeclB, DeclB], [SymB, SymA]);
    assert w1.(models := w1.models + [DeclA]) == Walk([DeclB, DeclB, DeclA], [SymB, SymA]);
    DeclarationsOfA();
    HeritageOfA();
    HeritageOnlyInterfaceExpands(Inherits, SymA, DeclA, Walk([DeclB], [SymB, SymA]), w1, 1);
  }

  lemma SecondReferenceToA()
    ensures DoType(Inherits, RefA, Walk([DeclB], [SymB]), 2) == Success(Walk([DeclB, DeclB, DeclA], [SymB, SymA]))
  {
    var w0 := Walk([DeclB], [SymB]);
    var w := Walk([DeclB], [SymB, SymA]);
    ExpandA();
    assert SymA !in w0.added;
    assert w0.(added := w0.added + [SymA]) == w;
    assert DoResolved(Inherits, RefA, w0, 2) == Expand(Inherits, SymA, true, w, 2);
    assert DoTypes(Inherits, RefA.typeArguments, w0, 2) == Success(w0);
    assert DoReference(Inherits, RefA, w0, 2) == DoResolved(Inherits, RefA, w0, 2);
  }

  /**
   * Walking `(b: B, a: A)` lists `B` twice: once from the reference, once from the
   * heritage clause of `A`, which does not consult the visited list.
   */
  lemma HeritageRepeatsDeclaration()
    ensures DoTypes(Inherits, [RefB, RefA], Walk([], []), 2) == Success(Walk([DeclB, DeclB, DeclA], [SymB, SymA]))
  {
    FirstReferenceToB();
    SecondReferenceToA();
    TwoTypes(Inherits, RefB, RefA, Walk([], []), Walk([DeclB], [SymB]), Walk([DeclB, DeclB, DeclA], [SymB, SymA]), 2);
  }

  /** Two type nodes are walked one after the other. */
  lemma TwoTypes(p: Program, a: TypeNode, b: TypeNode, w: Walk, w1: Walk, w2: Walk, fuel: nat)
    requires DoType(p, a, w, fuel) == Success(w1) && DoType(p, b, w1, fuel) == Success(w2)
    ensures DoTypes(p, [a, b], w, fuel) == Success(w2)
  {
    assert [a, b][1..] == [b];
    assert [b][1..] == [];
    assert DoTypes(p, [b], w1, fuel) == Success(w2) by {
      assert DoTypes(p, [b][1..], w2, fuel) == Success(w2);
    }
  }

  /**
   * A reference, through a type without a symbol, to an alias whose first declaration
   * reads `type L = { next: L, ... } | ...`: a union has an alias symbol but no symbol.
   */
  predicate RecursiveUnionAlias(p: Program, r: TypeNode) {
    && r.TypeReference? && r.typeArguments == [] && !r.info.external
    && r.info.symbol.None? && r.info.nameSymbol.Some?
    && var ds := DeclarationsOf(p, r.info.nameSymbol.value);
    && |ds| > 0 && ds[0].TypeAliasDeclaration?
    && ds[0].aliasedType.UnionType? && |ds[0].aliasedType.types| > 0
    && ds[0].aliasedType.types[0].TypeLiteral? && |ds[0].aliasedType.types[0].members| > 0
    && ds[0].aliasedType.types[0].members[0].PropertySignature?
    && ds[0].aliasedType.types[0].members[0].memberType == Some(r)
  }

  /**
   * The fallback for a referenced type without a symbol expands the name's
   * declarations before the visited list is consulted, so the walk of a recursive
   * union alias exhausts any stack.
   */
  lemma {:induction false} RecursiveUnionAliasNeverFinishes(p: Program, r: TypeNode, w: Walk, fuel: nat)
    requires RecursiveUnionAlias(p, r)
    ensures DoType(p, r, w, fuel) == Failure(OutOfFuel)
    decreases fuel
  {
    var s := r.info.nameSymbol.value;
    if fuel > 0 {
      RecursiveUnionAliasNeverFinishes(p, r, w, fuel - 1);
      AliasBodyFails(p, r, w, fuel - 1);
    }
    assert Expand(p, s, false, w, fuel) == Failure(OutOfFuel);
    assert DoTypes(p, r.typeArguments, w, fuel) == Success(w);
    assert DoReference(p, r, w, fuel) == Failure(OutOfFuel);
  }

  /** One level of the expansion: the alias fails as soon as the reference in its first member does. */
  lemma AliasBodyFails(p: Program, r: TypeNode, w: Walk, fuel: nat)
    requires RecursiveUnionAlias(p, r)
    requires DoType(p, r, w, fuel) == Failure(OutOfFuel)
    ensures Expand(p, r.info.nameSymbol.value, false, w, fuel + 1) == Failure(OutOfFuel)
  {
    var ds := DeclarationsOf(p, r.info.nameSymbol.value);
    var body := ds[0].aliasedType;
    var literal := body.types[0];
    assert DoMember(p, literal.members[0], true, w, fuel) == Failure(OutOfFuel);
    assert DoMembers(p, literal.members, true, w, fuel) == Failure(OutOfFuel);
    assert DoType(p, literal, w, fuel) == Failure(OutOfFuel);
    assert DoTypes(p, body.types, w, fuel) == Failure(OutOfFuel);
    assert DoType(p, body, w, fuel) == Failure(OutOfFuel);
    assert DoAlias(p, ds[0], w, fuel) == Failure(OutOfFuel);
    assert DoDecl(p, ds[0], w, fuel) == Failure(OutOfFuel);
  }
}

=== FILE: extract_models.dfy ===
/**
 * The declaration-closure walk of `extractModels`: starting from the parameter and
 * return types of the app's functions, every interface, type alias and enum they
 * depend on is collected, dependencies first.
 *
 * The walk threads two lists: `models`, the declarations found so far, and `added`,
 * the symbols whose declarations have been expanded. `fuel` bounds the number of
 * nested jumps from a symbol to its declarations, which is how the JavaScript stack
 * is modelled: the walk is otherwise structural.
 */
module ExtractModels {
  import opened Wrappers
  import opened Syntax

  datatype WalkError =
    | UnsupportedTypeNode(node: TypeNode)     // the `ParseError` for a type node
    | UnsupportedDeclaration(decl: Decl)      // the `ParseError` for a declaration
    | UnresolvedSymbol(typeName: EntityName)  // `symbol.declarations` read on an undefined symbol
    | UnresolvedHeritage(expression: EntityName)
    | OutOfFuel                               // the stack is exhausted

  datatype Walk = Walk(models: seq<Decl>, added: seq<Sym>)

  /** A parsed function as the walk sees it: its parameters' type annotations and its return type. */
  datatype Signature = Signature(parameterTypes: seq<Option<TypeNode>>, returnType: Option<TypeNode>)

  /** The declarations `doDeclaration` appends to the output. */
  predicate IsModelDecl(d: Decl) {
    d.InterfaceDeclaration? || d.TypeAliasDeclaration? || d.EnumDeclaration?
  }

  predicate NoDup<T(==)>(s: seq<T>) {
    forall i, j :: 0 <= i < j < |s| ==> s[i] != s[j]
  }

  /**
   * A walk step only appends: both lists keep their prefix, only model declarations
   * are added to the output, and no symbol is visited twice.
   */
  predicate Grows(w: Walk, w': Walk) {
    && w.models <= w'.models
    && w.added <= w'.added
    && (forall i :: |w.models| <= i < |w'.models| ==> IsModelDecl(w'.models[i]))
    && (NoDup(w.added) ==> NoDup(w'.added))
  }

  lemma GrowsTrans(a: Walk, b: Walk, c: Walk)
    requires Grows(a, b) && Grows(b, c)
    ensures Grows(a, c)
  {
    forall i | |a.models| <= i < |c.models|
      ensures IsModelDecl(c.models[i])
    {
      if i < |b.models| {
        assert c.models[i] == b.models[i];
      }
    }
  }

  predicate Exhausted(r: Result<Walk, WalkError>) {
    r.Failure? && r.error.OutOfFuel?
  }

  /** Symbols with declarations that have not been expanded yet. */
  function Unvisited(p: Program, w: Walk): set<Sym> {
    p.declarations.Keys - AddedSet(w)
  }

  function AddedSet(w: Walk): set<Sym> {
    set s | s in w.added
  }

  lemma SubsetCardinality<T>(a: set<T>, b: set<T>)
    requires a <= b
    ensures |a| <= |b|
  {
    assert b == a + (b - a);
    assert a * (b - a) == {};
  }

  lemma UnvisitedShrinks(p: Program, w: Walk, w': Walk)
    requires Grows(w, w')
    ensures Unvisited(p, w') <= Unvisited(p, w)
    ensures |Unvisited(p, w')| <= |Unvisited(p, w)|
  {
    forall s | s in w.added
      ensures s in w'.added
    {
      var i :| 0 <= i < |w.added| && w.added[i] == s;
      assert w'.added[i] == s;
    }
    SubsetCardinality(Unvisited(p, w'), Unvisited(p, w));
  }

  /** Recording a new symbol grows the walk and takes that symbol off the unvisited set. */
  lemma RecordShrinks(p: Program, w: Walk, s: Sym)
    requires s !in w.added
    ensures Grows(w, w.(added := w.added + [s]))
    ensures Unvisited(p, w.(added := w.added + [s])) == Unvisited(p, w) - {s}
    ensures s in p.declarations ==> |Unvisited(p, w.(added := w.added + [s]))| + 1 == |Unvisited(p, w)|
  {
    var w1 := w.(added := w.added + [s]);
    forall x
      ensures x in AddedSet(w1) <==> x in AddedSet(w) || x == s
    {
      assert x in w1.added <==> x in w.added || x == s;
    }
    assert AddedSet(w1) == AddedSet(w) + {s};
  }

  /* ---- What the walk collects ---- */

  /**
   * The symbols a walk of `n` records by itself: `aliasSymbol ?? symbol` of every
   * non-library reference among the node's own children. Declarations expanded on
   * the way without recording a symbol (heritage types, the fallback through a type
   * name) do not contribute.
   */
  function NodeRefs(n: TypeNode): set<Sym>
    decreases n
  {
    match n
    case TypeReference(_, args, info) =>
      NodesRefs(args) + (if !info.external && ResolvedSymbol(info).Some? then {ResolvedSymbol(info).value} else {})
    case TypeLiteral(members) => ElementsRefs(members, true)
    case UnionType(types) => NodesRefs(types)
    case IntersectionType(types) => NodesRefs(types)
    case ArrayType(e) => NodeRefs(e)
    case ExpressionWithTypeArguments(_, _, _) => {}
    case IndexedAccessType(o, x) => NodeRefs(o) + NodeRefs(x)
    case TupleType(elements) => NodesRefs(elements)
    case KeywordType(_) => {}
    case LiteralType(_) => {}
    case OtherTypeNode(_, _) => {}
  }

  function NodesRefs(ns: seq<TypeNode>): set<Sym>
    decreases ns
  {
    if |ns| == 0 then {} else NodeRefs(ns[0]) + NodesRefs(ns[1..])
  }

  function OptRefs(o: Option<TypeNode>): set<Sym>
    decreases o
  {
    match o
    case None => {}
    case Some(n) => NodeRefs(n)
  }

  function OptsRefs(ts: seq<Option<TypeNode>>): set<Sym> {
    if |ts| == 0 then {} else OptRefs(ts[0]) + OptsRefs(ts[1..])
  }

  /** Index signatures count only where they are walked: in a type literal. */
  function ElementRefs(m: TypeElement, withIndexSignatures: bool): set<Sym>
    decreases m
  {
    match m
    case PropertySignature(_, _, t) => OptRefs(t)
    case IndexSignature(t) => if withIndexSignatures then OptRefs(t) else {}
    case MethodSignature(_) => {}
  }

  function ElementsRefs(ms: seq<TypeElement>, withIndexSignatures: bool): set<Sym>
    decreases ms
  {
    if |ms| == 0 then {} else ElementRefs(ms[0], withIndexSignatures) + ElementsRefs(ms[1..], withIndexSignatures)
  }

  function HeritageRefs(hs: seq<HeritageClause>): set<Sym>
    decreases hs
  {
    if |hs| == 0 then {} else NodesRefs(hs[0].types) + HeritageRefs(hs[1..])
  }

  /** The symbols a walk of `d` records by itself, through the type nodes `doDeclaration` visits. */
  function DeclRefs(d: Decl): set<Sym>
    decreases d
  {
    match d
    case InterfaceDeclaration(_, members, heritage, tps) => ElementsRefs(members, false) + HeritageRefs(heritage) + DeclsRefs(tps)
    case TypeAliasDeclaration(_, t, tps) => NodeRefs(t) + DeclsRefs(tps)
    case EnumDeclaration(_, _) => {}
    case EnumMember(_, parent) => DeclRefs(parent)
    case TypeParameterDeclaration(_, c, dflt) => OptRefs(c) + OptRefs(dflt)
    case ImportSpecifier(_) => {}
    case OtherDeclaration(_, _) => {}
  }

  function DeclsRefs(ds: seq<Decl>): set<Sym>
    decreases ds
  {
    if |ds| == 0 then {} else DeclRefs(ds[0]) + DeclsRefs(ds[1..])
  }

  /** The symbols whose declarations the walk of `ns` expands through `extends` types, without recording them. */
  function NodesExtends(ns: seq<TypeNode>): set<Sym>
    decreases ns
  {
    if |ns| == 0 then {}
    else (if ns[0].ExpressionWithTypeArguments? && ns[0].heritageSymbol.Some? then {ns[0].heritageSymbol.value} else {})
         + NodesExtends(ns[1..])
  }

  function HeritageExtends(hs: seq<HeritageClause>): set<Sym>
    decreases hs
  {
    if |hs| == 0 then {} else NodesExtends(hs[0].types) + HeritageExtends(hs[1..])
  }

  /** The symbols an interface extends; other declarations extend none. */
  function DeclExtends(d: Decl): set<Sym> {
    if d.InterfaceDeclaration? then HeritageExtends(d.heritageClauses) else {}
  }

  /** `d` has been walked by `w`: it is in the output if it is a model, and what it references is recorded. */
  predicate Walked(d: Decl, w: Walk) {
    (IsModelDecl(d) ==> d in w.models) && DeclRefs(d) <= AddedSet(w)
  }

  /** Every non-library declaration of `s` has been walked by `w`. */
  predicate Expanded(p: Program, s: Sym, w: Walk) {
    forall d :: d in DeclarationsOf(p, s) && d !in p.externalDeclarations ==> Walked(d, w)
  }

  /** Every symbol recorded between `w` and `w'` has been expanded by `w'`. */
  predicate Collected(p: Program, w: Walk, w': Walk) {
    forall s :: s in w'.added && s !in w.added ==> Expanded(p, s, w')
  }

  /**
   * `w'` ends with `d`, and before `d` was appended every symbol recorded since `w`
   * and every symbol `d` extends had been expanded: the declarations `d` newly depends
   * on come first.
   */
  predicate AppendedAfterDependencies(p: Program, d: Decl, w: Walk, w': Walk) {
    && |w'.models| > 0 && w'.models[|w'.models| - 1] == d
    && Collected(p, w, Walk(w'.models[..|w'.models| - 1], w'.added))
    && forall s :: s in DeclExtends(d) ==> Expanded(p, s, Walk(w'.models[..|w'.models| - 1], w'.added))
  }

  /**
   * A finished walk is closed: every recorded symbol has been expanded, so the output
   * holds the non-library models of a set of symbols closed under reference.
   */
  predicate Closed(p: Program, w: Walk) {
    forall s :: s in w.added ==> Expanded(p, s, w)
  }

  lemma GrowsKeeps(w: Walk, w': Walk)
    requires Grows(w, w')
    ensures AddedSet(w) <= AddedSet(w')
    ensures forall d :: d in w.models ==> d in w'.models
  {
    forall s | s in w.added
      ensures s in w'.added
    {
      var i :| 0 <= i < |w.added| && w.added[i] == s;
      assert w'.added[i] == s;
    }
    forall d | d in w.models
      ensures d in w'.models
    {
      var i :| 0 <= i < |w.models| && w.models[i] == d;
      assert w'.models[i] == d;
    }
  }

  lemma ExpandedGrows(p: Program, s: Sym, w: Walk, w': Walk)
    requires Grows(w, w') && Expanded(p, s, w)
    ensures Expanded(p, s, w')
  {
    GrowsKeeps(w, w');
  }

  /** Two walk steps compose: growth, collection and the recorded set all carry over. */
  lemma Step(p: Program, a: Walk, b: Walk, c: Walk)
    requires Grows(a, b) && Grows(b, c)
    requires Collected(p, a, b) && Collected(p, b, c)
    ensures Grows(a, c) && Collected(p, a, c)
    ensures AddedSet(a) <= AddedSet(b) <= AddedSet(c)
  {
    GrowsTrans(a, b, c);
    GrowsKeeps(a, b);
    GrowsKeeps(b, c);
    forall s | s in c.added && s !in a.added
      ensures Expanded(p, s, c)
    {
      if s in b.added {
        ExpandedGrows(p, s, b, c);
      }
    }
  }

  /** Recording `s` and then expanding it in full collects everything recorded since before `s`. */
  lemma RecordStep(p: Program, w: Walk, s: Sym, w': Walk)
    requires Grows(w.(added := w.added + [s]), w')
    requires Collected(p, w.(added := w.added + [s]), w') && Expanded(p, s, w')
    ensures Collected(p, w, w')
  {
  }

  /** Appending a model declaration keeps everything collected so far. */
  lemma AppendStep(p: Program, a: Walk, b: Walk, d: Decl)
    requires IsModelDecl(d) && Grows(a, b) && Collected(p, a, b)
    requires forall s :: s in DeclExtends(d) ==> Expanded(p, s, b)
    ensures Grows(a, b.(models := b.models + [d])) && Collected(p, a, b.(models := b.models + [d]))
    ensures AddedSet(a) <= AddedSet(b) == AddedSet(b.(models := b.models + [d]))
    ensures AppendedAfterDependencies(p, d, a, b.(models := b.models + [d]))
  {
    var b' := b.(models := b.models + [d]);
    assert b'.models[..|b'.models| - 1] == b.models;
    assert Walk(b.models, b.added) == b;
    Step(p, a, b, b');
  }

  /** Expansions survive growth. */
  lemma ExpandedAllGrow(p: Program, ss: set<Sym>, w: Walk, w': Walk)
    requires Grows(w, w') && forall s :: s in ss ==> Expanded(p, s, w)
    ensures forall s :: s in ss ==> Expanded(p, s, w')
  {
    forall s | s in ss
      ensures Expanded(p, s, w')
    {
      ExpandedGrows(p, s, w, w');
    }
  }

  /* ---- Programs without the two paths that bypass the visited list ---- */

  /**
   * No heritage type (walked without consulting `added`) and no reference that takes
   * the fallback through its type name's symbol (a referenced type without a symbol).
   */
  predicate BypassFreeNode(n: TypeNode)
    decreases n
  {
    match n
    case TypeReference(_, args, info) => info.symbol.Some? && forall i :: 0 <= i < |args| ==> BypassFreeNode(args[i])
    case TypeLiteral(members) => forall i :: 0 <= i < |members| ==> BypassFreeElement(members[i])
    case UnionType(types) => forall i :: 0 <= i < |types| ==> BypassFreeNode(types[i])
    case IntersectionType(types) => forall i :: 0 <= i < |types| ==> BypassFreeNode(types[i])
    case ArrayType(e) => BypassFreeNode(e)
    case ExpressionWithTypeArguments(_, _, _) => false
    case IndexedAccessType(o, x) => BypassFreeNode(o) && BypassFreeNode(x)
    case TupleType(elements) => forall i :: 0 <= i < |elements| ==> BypassFreeNode(elements[i])
    case KeywordType(_) => true
    case LiteralType(_) => true
    case OtherTypeNode(_, _) => true
  }

  predicate BypassFreeOpt(o: Option<TypeNode>)
    decreases o
  {
    match o
    case None => true
    case Some(n) => BypassFreeNode(n)
  }

  predicate BypassFreeElement(m: TypeElement)
    decreases m
  {
    match m
    case PropertySignature(_, _, t) => BypassFreeOpt(t)
    case IndexSignature(t) => BypassFreeOpt(t)
    case MethodSignature(_) => true
  }

  predicate BypassFreeDecl(d: Decl)
    decreases d
  {
    match d
    case InterfaceDeclaration(_, members, heritage, tps) =>
      && (forall i :: 0 <= i < |members| ==> BypassFreeElement(members[i]))
      && (forall i :: 0 <= i < |heritage| ==> forall j :: 0 <= j < |heritage[i].types| ==> BypassFreeNode(heritage[i].types[j]))
      && (forall i :: 0 <= i < |tps| ==> BypassFreeDecl(tps[i]))
    case TypeAliasDeclaration(_, t, tps) => BypassFreeNode(t) && forall i :: 0 <= i < |tps| ==> BypassFreeDecl(tps[i])
    case EnumDeclaration(_, _) => true
    case EnumMember(_, parent) => BypassFreeDecl(parent)
    case TypeParameterDeclaration(_, c, dflt) => BypassFreeOpt(c) && BypassFreeOpt(dflt)
    case ImportSpecifier(_) => true
    case OtherDeclaration(_, _) => true
  }

  predicate AllBypassFree(p: Program) {
    forall s :: s in p.declarations ==> forall i :: 0 <= i < |p.declarations[s]| ==> BypassFreeDecl(p.declarations[s][i])
  }

  /** Enough fuel to expand every symbol not yet visited, one nested jump each. */
  predicate Budget(p: Program, w: Walk, fuel: nat) {
    AllBypassFree(p) && |Unvisited(p, w)| < fuel
  }

  /* ---- Programs the walk accepts ---- */

  /**
   * A node the walk accepts: no keyword but `string` and `number`, no literal or other
   * node kind, every non-library reference resolved to a symbol, every `extends` type
   * resolved; index signatures count only where they are walked.
   */
  predicate SupportedNode(n: TypeNode)
    decreases n
  {
    match n
    case TypeReference(_, args, info) =>
      (forall i :: 0 <= i < |args| ==> SupportedNode(args[i])) && (info.external || ResolvedSymbol(info).Some?)
    case TypeLiteral(members) => forall i :: 0 <= i < |members| ==> SupportedElement(members[i], true)
    case UnionType(types) => forall i :: 0 <= i < |types| ==> SupportedNode(types[i])
    case IntersectionType(types) => forall i :: 0 <= i < |types| ==> SupportedNode(types[i])
    case ArrayType(e) => SupportedNode(e)
    case ExpressionWithTypeArguments(_, _, heritageSymbol) => heritageSymbol.Some?
    case IndexedAccessType(o, x) => SupportedNode(o) && SupportedNode(x)
    case TupleType(elements) => forall i :: 0 <= i < |elements| ==> SupportedNode(elements[i])
    case KeywordType(k) => k == StringKeyword || k == NumberKeyword
    case LiteralType(_) => false
    case OtherTypeNode(_, _) => false
  }

  predicate SupportedOpt(o: Option<TypeNode>)
    decreases o
  {
    match o
    case None => true
    case Some(n) => SupportedNode(n)
  }

  predicate SupportedElement(m: TypeElement, withIndexSignatures: bool)
    decreases m
  {
    match m
    case PropertySignature(_, _, t) => SupportedOpt(t)
    case IndexSignature(t) => withIndexSignatures ==> SupportedOpt(t)
    case MethodSignature(_) => true
  }

  /** A declaration the walk accepts: anything but an unsupported kind, with accepted parts. */
  predicate SupportedDecl(d: Decl)
    decreases d
  {
    match d
    case InterfaceDeclaration(_, members, heritage, tps) =>
      && (forall i :: 0 <= i < |members| ==> SupportedElement(members[i], false))
      && (forall i :: 0 <= i < |heritage| ==> forall j :: 0 <= j < |heritage[i].types| ==> SupportedNode(heritage[i].types[j]))
      && (forall i :: 0 <= i < |tps| ==> SupportedDecl(tps[i]))
    case TypeAliasDeclaration(_, t, tps) => SupportedNode(t) && forall i :: 0 <= i < |tps| ==> SupportedDecl(tps[i])
    case EnumDeclaration(_, _) => true
    case EnumMember(_, parent) => SupportedDecl(parent)
    case TypeParameterDeclaration(_, c, dflt) => SupportedOpt(c) && SupportedOpt(dflt)
    case ImportSpecifier(_) => true
    case OtherDeclaration(_, _) => false
  }

  predicate AllSupported(p: Program) {
    forall s :: s in p.declarations ==> forall i :: 0 <= i < |p.declarations[s]| ==> SupportedDecl(p.declarations[s][i])
  }

  /** A bypass-free, fully accepted program with a stack level per unvisited symbol. */
  predicate Accepts(p: Program, w: Walk, fuel: nat) {
    Budget(p, w, fuel) && AllSupported(p)
  }

  /* ---- The walk ---- */

  /** `for (const declr of symbol.declarations) doDeclaration(declr)`, one stack level down. */
  function Expand(p: Program, s: Sym, skipExternal: bool, w: Walk, fuel: nat): (r: Result<Walk, WalkError>)
    ensures r.Success? ==> Grows(w, r.value) && Collected(p, w, r.value) && Expanded(p, s, r.value)
    ensures AllBypassFree(p) && (s in p.declarations ==> |Unvisited(p, w)| + 1 < fuel) ==> !Exhausted(r)
    ensures AllBypassFree(p) && AllSupported(p) && (s in p.declarations ==> |Unvisited(p, w)| + 1 < fuel) ==> r.Success?
    decreases fuel, 0, 0, 0
  {
    var ds := DeclarationsOf(p, s);
    if |ds| == 0 then Success(w)
    else if fuel == 0 then Failure(OutOfFuel)
    else DoDecls(p, ds, skipExternal, w, fuel - 1)
  }

  /** `doType`. */
  function DoType(p: Program, n: TypeNode, w: Walk, fuel: nat): (r: Result<Walk, WalkError>)
    ensures r.Success? ==> Grows(w, r.value) && Collected(p, w, r.value) && NodeRefs(n) <= AddedSet(r.value)
    ensures r.Success? && n.ExpressionWithTypeArguments? ==>
              n.heritageSymbol.Some? && Expanded(p, n.heritageSymbol.value, r.value)
    ensures Budget(p, w, fuel) && BypassFreeNode(n) ==> !Exhausted(r)
    ensures Accepts(p, w, fuel) && BypassFreeNode(n) && SupportedNode(n) ==> r.Success?
    decreases fuel, 1, n, 1
  {
    match n
    case TypeReference(_, _, _) => DoReference(p, n, w, fuel)
    case TypeLiteral(members) => DoMembers(p, members, true, w, fuel)
    case UnionType(_) => DoComposite(p, n, w, fuel)
    case IntersectionType(_) => DoComposite(p, n, w, fuel)
    case ArrayType(e) => DoType(p, e, w, fuel)
    case ExpressionWithTypeArguments(_, _, _) => DoExtends(p, n, w, fuel)
    case IndexedAccessType(_, _) => DoIndexedAccess(p, n, w, fuel)
    case TupleType(_) => DoComposite(p, n, w, fuel)
    case KeywordType(_) => DoLeaf(n, w)
    case LiteralType(_) => DoLeaf(n, w)
    case OtherTypeNode(_, _) => DoLeaf(n, w)
  }

  /** A union, intersection or tuple: its member types in order. */
  function DoComposite(p: Program, n: TypeNode, w: Walk, fuel: nat): (r: Result<Walk, WalkError>)
    requires n.UnionType? || n.IntersectionType? || n.TupleType?
    ensures r.Success? ==> Grows(w, r.value) && Collected(p, w, r.value) && NodeRefs(n) <= AddedSet(r.value)
    ensures Budget(p, w, fuel) && BypassFreeNode(n) ==> !Exhausted(r)
    ensures Accepts(p, w, fuel) && BypassFreeNode(n) && SupportedNode(n) ==> r.Success?
    decreases fuel, 1, n, 0
  {
    if n.TupleType? then DoTypes(p, n.elements, w, fuel) else DoTypes(p, n.types, w, fuel)
  }

  /** A leaf: `string` and `number` are ignored; any other kind is the `ParseError`. */
  function DoLeaf(n: TypeNode, w: Walk): (r: Result<Walk, WalkError>)
    requires n.KeywordType? || n.LiteralType? || n.OtherTypeNode?
    ensures r.Success? <==> n.KeywordType? && (n.keyword == StringKeyword || n.keyword == NumberKeyword)
    ensures r.Success? ==> r.value == w
    ensures r.Failure? ==> r.error == UnsupportedTypeNode(n)
  {
    if n.KeywordType? && (n.keyword == StringKeyword || n.keyword == NumberKeyword) then Success(w)
    else Failure(UnsupportedTypeNode(n))
  }

  /** A type in an `extends` clause: the declarations of its symbol, without consulting or recording `added`. */
  function DoExtends(p: Program, n: TypeNode, w: Walk, fuel: nat): (r: Result<Walk, WalkError>)
    requires n.ExpressionWithTypeArguments?
    ensures r.Success? ==> Grows(w, r.value) && Collected(p, w, r.value)
    ensures r.Success? ==> n.heritageSymbol.Some? && Expanded(p, n.heritageSymbol.value, r.value)
    ensures n.heritageSymbol.None? ==> r == Failure(UnresolvedHeritage(n.expression))
    decreases fuel, 1, n, 0
  {
    if n.heritageSymbol.None? then Failure(UnresolvedHeritage(n.expression))
    else Expand(p, n.heritageSymbol.value, false, w, fuel)
  }

  /** The object type, then the index type. */
  function DoIndexedAccess(p: Program, n: TypeNode, w: Walk, fuel: nat): (r: Result<Walk, WalkError>)
    requires n.IndexedAccessType?
    ensures r.Success? ==> Grows(w, r.value) && Collected(p, w, r.value) && NodeRefs(n) <= AddedSet(r.value)
    ensures Budget(p, w, fuel) && BypassFreeNode(n) ==> !Exhausted(r)
    ensures Accepts(p, w, fuel) && BypassFreeNode(n) && SupportedNode(n) ==> r.Success?
    decreases fuel, 1, n, 0
  {
    var w1 :- DoType(p, n.objectType, w, fuel);
    UnvisitedShrinks(p, w, w1);
    var w2 :- DoType(p, n.indexType, w1, fuel);
    Step(p, w, w1, w2);
    Success(w2)
  }

  /** `doType(undefined)` returns at once. */
  function DoOptType(p: Program, o: Option<TypeNode>, w: Walk, fuel: nat): (r: Result<Walk, WalkError>)
    ensures r.Success? ==> Grows(w, r.value) && Collected(p, w, r.value) && OptRefs(o) <= AddedSet(r.value)
    ensures Budget(p, w, fuel) && BypassFreeOpt(o) ==> !Exhausted(r)
    ensures Accepts(p, w, fuel) && BypassFreeOpt(o) && SupportedOpt(o) ==> r.Success?
    ensures o.None? ==> r == Success(w)
    decreases fuel, 1, o, 1
  {
    match o
    case None => Success(w)
    case Some(n) => DoType(p, n, w, fuel)
  }

  function DoTypes(p: Program, ns: seq<TypeNode>, w: Walk, fuel: nat): (r: Result<Walk, WalkError>)
    ensures r.Success? ==> Grows(w, r.value) && Collected(p, w, r.value) && NodesRefs(ns) <= AddedSet(r.value)
    ensures Budget(p, w, fuel) && (forall i :: 0 <= i < |ns| ==> BypassFreeNode(ns[i])) ==> !Exhausted(r)
    ensures Accepts(p, w, fuel) && (forall i :: 0 <= i < |ns| ==> BypassFreeNode(ns[i]) && SupportedNode(ns[i])) ==> r.Success?
    ensures r.Success? ==> forall s :: s in NodesExtends(ns) ==> Expanded(p, s, r.value)
    decreases fuel, 1, ns, 1
  {
    if |ns| == 0 then Success(w)
    else
      var w1 :- DoType(p, ns[0], w, fuel);
      UnvisitedShrinks(p, w, w1);
      var w2 :- DoTypes(p, ns[1..], w1, fuel);
      Step(p, w, w1, w2);
      ExtendsStep(p, ns, w1, w2);
      Success(w2)
  }

  /** What the first node extended stays expanded while the rest are walked. */
  lemma ExtendsStep(p: Program, ns: seq<TypeNode>, w1: Walk, w2: Walk)
    requires |ns| > 0 && Grows(w1, w2)
    requires ns[0].ExpressionWithTypeArguments? && ns[0].heritageSymbol.Some? ==> Expanded(p, ns[0].heritageSymbol.value, w1)
    requires forall s :: s in NodesExtends(ns[1..]) ==> Expanded(p, s, w2)
    ensures forall s :: s in NodesExtends(ns) ==> Expanded(p, s, w2)
  {
    if ns[0].ExpressionWithTypeArguments? && ns[0].heritageSymbol.Some? {
      ExpandedGrows(p, ns[0].heritageSymbol.value, w1, w2);
    }
  }

  /**
   * The members of a type literal (`withIndexSignatures`) or of an interface: property
   * signatures are walked, index signatures only in a type literal, methods never.
   */
  function DoMember(p: Program, m: TypeElement, withIndexSignatures: bool, w: Walk, fuel: nat): (r: Result<Walk, WalkError>)
    ensures r.Success? ==> Grows(w, r.value) && Collected(p, w, r.value) && ElementRefs(m, withIndexSignatures) <= AddedSet(r.value)
    ensures Budget(p, w, fuel) && BypassFreeElement(m) ==> !Exhausted(r)
    ensures Accepts(p, w, fuel) && BypassFreeElement(m) && SupportedElement(m, withIndexSignatures) ==> r.Success?
    ensures m.MethodSignature? || (m.IndexSignature? && !withIndexSignatures) ==> r == Success(w)
    decreases fuel, 1, m, 1
  {
    match m
    case PropertySignature(_, _, t) => DoOptType(p, t, w, fuel)
    case IndexSignature(t) => if withIndexSignatures then DoOptType(p, t, w, fuel) else Success(w)
    case MethodSignature(_) => Success(w)
  }

  function DoMembers(p: Program, ms: seq<TypeElement>, withIndexSignatures: bool, w: Walk, fuel: nat): (r: Result<Walk, WalkError>)
    ensures r.Success? ==> Grows(w, r.value) && Collected(p, w, r.value) && ElementsRefs(ms, withIndexSignatures) <= AddedSet(r.value)
    ensures Budget(p, w, fuel) && (forall i :: 0 <= i < |ms| ==> BypassFreeElement(ms[i])) ==> !Exhausted(r)
    ensures Accepts(p, w, fuel) && (forall i :: 0 <= i < |ms| ==> BypassFreeElement(ms[i]) && SupportedElement(ms[i], withIndexSignatures)) ==>
              r.Success?
    decreases fuel, 1, ms, 1
  {
    if |ms| == 0 then Success(w)
    else
      var w1 :- DoMember(p, ms[0], withIndexSignatures, w, fuel);
      UnvisitedShrinks(p, w, w1);
      var w2 :- DoMembers(p, ms[1..], withIndexSignatures, w1, fuel);
      Step(p, w, w1, w2);
      Success(w2)
  }

  /** Every type of every heritage clause, in order. */
  function DoHeritage(p: Program, hs: seq<HeritageClause>, w: Walk, fuel: nat): (r: Result<Walk, WalkError>)
    ensures r.Success? ==> Grows(w, r.value) && Collected(p, w, r.value) && HeritageRefs(hs) <= AddedSet(r.value)
    ensures Budget(p, w, fuel) && (forall i :: 0 <= i < |hs| ==> forall j :: 0 <= j < |hs[i].types| ==> BypassFreeNode(hs[i].types[j])) ==> !Exhausted(r)
    ensures Accepts(p, w, fuel) &&
            (forall i :: 0 <= i < |hs| ==> forall j :: 0 <= j < |hs[i].types| ==> BypassFreeNode(hs[i].types[j]) && SupportedNode(hs[i].types[j])) ==>
              r.Success?
    ensures r.Success? ==> forall s :: s in HeritageExtends(hs) ==> Expanded(p, s, r.value)
    decreases fuel, 1, hs, 1
  {
    if |hs| == 0 then Success(w)
    else
      var w1 :- DoTypes(p, hs[0].types, w, fuel);
      UnvisitedShrinks(p, w, w1);
      var w2 :- DoHeritage(p, hs[1..], w1, fuel);
      Step(p, w, w1, w2);
      ExpandedAllGrow(p, NodesExtends(hs[0].types), w1, w2);
      Success(w2)
  }

  /**
   * A type reference: its arguments first, even for a library reference, which is not
   * expanded; then, for a referenced type without a symbol, the declarations of the
   * name's symbol; then the declarations of `aliasSymbol ?? symbol`, unless visited.
   */
  function DoReference(p: Program, n: TypeNode, w: Walk, fuel: nat): (r: Result<Walk, WalkError>)
    requires n.TypeReference?
    ensures r.Success? ==> Grows(w, r.value) && Collected(p, w, r.value) && NodeRefs(n) <= AddedSet(r.value)
    ensures Budget(p, w, fuel) && BypassFreeNode(n) ==> !Exhausted(r)
    ensures Accepts(p, w, fuel) && BypassFreeNode(n) && SupportedNode(n) ==> r.Success?
    ensures !n.info.external && ResolvedSymbol(n.info).None? ==> r.Failure?
    decreases fuel, 1, n, 0
  {
    var w1 :- DoTypes(p, n.typeArguments, w, fuel);
    if n.info.external then Success(w1)
    else
      UnvisitedShrinks(p, w, w1);
      var w2 :- if n.info.symbol.None? && n.info.nameSymbol.Some?
                then Expand(p, n.info.nameSymbol.value, false, w1, fuel)
                else Success(w1);
      Step(p, w, w1, w2);
      UnvisitedShrinks(p, w, w2);
      var w3 :- DoResolved(p, n, w2, fuel);
      Step(p, w, w2, w3);
      Success(w3)
  }

  /** The end of a reference's walk: `aliasSymbol ?? symbol` is recorded and expanded, unless visited. */
  function DoResolved(p: Program, n: TypeNode, w: Walk, fuel: nat): (r: Result<Walk, WalkError>)
    requires n.TypeReference?
    ensures r.Success? ==> Grows(w, r.value) && Collected(p, w, r.value)
    ensures Budget(p, w, fuel) ==> !Exhausted(r)
    ensures Accepts(p, w, fuel) && ResolvedSymbol(n.info).Some? ==> r.Success?
    ensures ResolvedSymbol(n.info).None? ==> r.Failure?
    ensures ResolvedSymbol(n.info).Some? && ResolvedSymbol(n.info).value in w.added ==> r == Success(w)
    ensures r.Success? && ResolvedSymbol(n.info).Some? ==> ResolvedSymbol(n.info).value in r.value.added
    decreases fuel, 0, 0, 1
  {
    var resolved := ResolvedSymbol(n.info);
    if resolved.None? then Failure(UnresolvedSymbol(n.typeName))
    else if resolved.value in w.added then Success(w)
    else
      var s := resolved.value;
      var w1 := w.(added := w.added + [s]);
      RecordShrinks(p, w, s);
      var w2 :- Expand(p, s, true, w1, fuel);
      GrowsTrans(w, w1, w2);
      RecordStep(p, w, s, w2);
      Success(w2)
  }

  /** `doDeclaration`: a model declaration is appended after everything it depends on. */
  function DoDecl(p: Program, d: Decl, w: Walk, fuel: nat): (r: Result<Walk, WalkError>)
    ensures r.Success? ==> Grows(w, r.value) && Collected(p, w, r.value) && Walked(d, r.value)
    ensures Budget(p, w, fuel) && BypassFreeDecl(d) ==> !Exhausted(r)
    ensures r.Success? && IsModelDecl(d) ==> AppendedAfterDependencies(p, d, w, r.value)
    ensures Accepts(p, w, fuel) && BypassFreeDecl(d) && SupportedDecl(d) ==> r.Success?
    ensures d.OtherDeclaration? ==> r == Failure(UnsupportedDeclaration(d))
    decreases fuel, 1, d, 1
  {
    match d
    case InterfaceDeclaration(_, _, _, _) => DoInterface(p, d, w, fuel)
    case TypeAliasDeclaration(_, _, _) => DoAlias(p, d, w, fuel)
    case EnumDeclaration(_, _) =>
      AppendStep(p, w, w, d);
      Success(w.(models := w.models + [d]))
    case EnumMember(_, parent) => DoDecl(p, parent, w, fuel)
    case TypeParameterDeclaration(_, _, _) => DoTypeParameter(p, d, w, fuel)
    case ImportSpecifier(_) => Success(w)
    case OtherDeclaration(_, _) => Failure(UnsupportedDeclaration(d))
  }

  /** The aliased type, then the type parameters, then the alias itself. */
  function DoAlias(p: Program, d: Decl, w: Walk, fuel: nat): (r: Result<Walk, WalkError>)
    requires d.TypeAliasDeclaration?
    ensures r.Success? ==> Grows(w, r.value) && Collected(p, w, r.value) && Walked(d, r.value)
    ensures Budget(p, w, fuel) && BypassFreeDecl(d) ==> !Exhausted(r)
    ensures r.Success? ==> AppendedAfterDependencies(p, d, w, r.value)
    ensures Accepts(p, w, fuel) && BypassFreeDecl(d) && SupportedDecl(d) ==> r.Success?
    decreases fuel, 1, d, 0
  {
    var w1 :- DoType(p, d.aliasedType, w, fuel);
    UnvisitedShrinks(p, w, w1);
    var w2 :- DoDecls(p, d.typeParameters, false, w1, fuel);
    Step(p, w, w1, w2);
    AppendStep(p, w, w2, d);
    Success(w2.(models := w2.models + [d]))
  }

  /** The constraint, then the default. */
  function DoTypeParameter(p: Program, d: Decl, w: Walk, fuel: nat): (r: Result<Walk, WalkError>)
    requires d.TypeParameterDeclaration?
    ensures r.Success? ==> Grows(w, r.value) && Collected(p, w, r.value) && DeclRefs(d) <= AddedSet(r.value)
    ensures Budget(p, w, fuel) && BypassFreeDecl(d) ==> !Exhausted(r)
    ensures Accepts(p, w, fuel) && BypassFreeDecl(d) && SupportedDecl(d) ==> r.Success?
    decreases fuel, 1, d, 0
  {
    var w1 :- DoOptType(p, d.constraint, w, fuel);
    UnvisitedShrinks(p, w, w1);
    var w2 :- DoOptType(p, d.defaultType, w1, fuel);
    Step(p, w, w1, w2);
    Success(w2)
  }

  /** Property-signature types, then heritage types, then type parameters, then the interface itself. */
  function DoInterface(p: Program, d: Decl, w: Walk, fuel: nat): (r: Result<Walk, WalkError>)
    requires d.InterfaceDeclaration?
    ensures r.Success? ==> Grows(w, r.value) && Collected(p, w, r.value) && Walked(d, r.value)
    ensures Budget(p, w, fuel) && BypassFreeDecl(d) ==> !Exhausted(r)
    ensures r.Success? ==> AppendedAfterDependencies(p, d, w, r.value)
    ensures Accepts(p, w, fuel) && BypassFreeDecl(d) && SupportedDecl(d) ==> r.Success?
    decreases fuel, 1, d, 0
  {
    var w1 :- DoMembers(p, d.members, false, w, fuel);
    UnvisitedShrinks(p, w, w1);
    var w2 :- DoHeritage(p, d.heritageClauses, w1, fuel);
    Step(p, w, w1, w2);
    UnvisitedShrinks(p, w, w2);
    var w3 :- DoDecls(p, d.typeParameters, false, w2, fuel);
    Step(p, w, w2, w3);
    ExpandedAllGrow(p, DeclExtends(d), w2, w3);
    AppendStep(p, w, w3, d);
    Success(w3.(models := w3.models + [d]))
  }

  /** Declarations in order; with `skipExternal`, library declarations are passed over. */
  function DoDecls(p: Program, ds: seq<Decl>, skipExternal: bool, w: Walk, fuel: nat): (r: Result<Walk, WalkError>)
    ensures r.Success? ==> Grows(w, r.value) && Collected(p, w, r.value)
    ensures r.Success? ==> forall i :: 0 <= i < |ds| && !(skipExternal && ds[i] in p.externalDeclarations) ==> Walked(ds[i], r.value)
    ensures r.Success? && !skipExternal ==> DeclsRefs(ds) <= AddedSet(r.value)
    ensures Budget(p, w, fuel) && (forall i :: 0 <= i < |ds| ==> BypassFreeDecl(ds[i])) ==> !Exhausted(r)
    ensures Accepts(p, w, fuel) && (forall i :: 0 <= i < |ds| ==> BypassFreeDecl(ds[i]) && SupportedDecl(ds[i])) ==> r.Success?
    decreases fuel, 1, ds, 1
  {
    if |ds| == 0 then Success(w)
    else
      var w1 :- if skipExternal && ds[0] in p.externalDeclarations then Success(w) else DoDecl(p, ds[0], w, fuel);
      UnvisitedShrinks(p, w, w1);
      var w2 :- DoDecls(p, ds[1..], skipExternal, w1, fuel);
      Step(p, w, w1, w2);
      DeclsStep(p, ds, skipExternal, w1, w2);
      Success(w2)
  }

  /** The first declaration's walk survives the walk of the rest. */
  lemma DeclsStep(p: Program, ds: seq<Decl>, skipExternal: bool, w1: Walk, w2: Walk)
    requires |ds| > 0 && Grows(w1, w2)
    requires !(skipExternal && ds[0] in p.externalDeclarations) ==> Walked(ds[0], w1)
    requires forall i :: 0 <= i < |ds[1..]| && !(skipExternal && ds[1..][i] in p.externalDeclarations) ==> Walked(ds[1..][i], w2)
    ensures forall i :: 0 <= i < |ds| && !(skipExternal && ds[i] in p.externalDeclarations) ==> Walked(ds[i], w2)
  {
    GrowsKeeps(w1, w2);
    forall i | 0 <= i < |ds| && !(skipExternal && ds[i] in p.externalDeclarations)
      ensures Walked(ds[i], w2)
    {
      if i > 0 {
        assert ds[i] == ds[1..][i - 1];
      }
    }
  }

  /* ---- The entry point ---- */

  /** Top-level `doType` calls in order; each starts on an empty stack, with the full fuel. */
  function WalkAll(p: Program, ts: seq<Option<TypeNode>>, w: Walk, fuel: nat): (r: Result<Walk, WalkError>)
    ensures r.Success? ==> Grows(w, r.value) && Collected(p, w, r.value) && OptsRefs(ts) <= AddedSet(r.value)
    ensures AllBypassFree(p) && |p.declarations.Keys| < fuel && (forall i :: 0 <= i < |ts| ==> BypassFreeOpt(ts[i])) ==>
              !Exhausted(r)
    ensures AllBypassFree(p) && AllSupported(p) && |p.declarations.Keys| < fuel &&
            (forall i :: 0 <= i < |ts| ==> BypassFreeOpt(ts[i]) && SupportedOpt(ts[i])) ==>
              r.Success?
    decreases |ts|
  {
    if |ts| == 0 then Success(w)
    else
      SubsetCardinality(Unvisited(p, w), p.declarations.Keys);
      var w1 :- DoOptType(p, ts[0], w, fuel);
      var w2 :- WalkAll(p, ts[1..], w1, fuel);
      Step(p, w, w1, w2);
      Success(w2)
  }

  /** `funcs.flatMap((func) => func.parameters)`, as type annotations. */
  function ParameterTypes(funcs: seq<Signature>): seq<Option<TypeNode>> {
    if |funcs| == 0 then [] else funcs[0].parameterTypes + ParameterTypes(funcs[1..])
  }

  function ReturnTypes(funcs: seq<Signature>): seq<Option<TypeNode>> {
    seq(|funcs|, i requires 0 <= i < |funcs| => funcs[i].returnType)
  }

  predicate BypassFreeAll(ts: seq<Option<TypeNode>>) {
    forall i :: 0 <= i < |ts| ==> BypassFreeOpt(ts[i])
  }

  predicate SupportedAll(ts: seq<Option<TypeNode>>) {
    forall i :: 0 <= i < |ts| ==> SupportedOpt(ts[i])
  }

  /** A program and function types on which the walk is proved to succeed. */
  predicate Acceptable(p: Program, funcs: seq<Signature>, fuel: nat) {
    && AllBypassFree(p) && AllSupported(p) && |p.declarations.Keys| < fuel
    && BypassFreeAll(ParameterTypes(funcs)) && BypassFreeAll(ReturnTypes(funcs))
    && SupportedAll(ParameterTypes(funcs)) && SupportedAll(ReturnTypes(funcs))
  }

  /**
   * The walk behind `extractModels`: the parameter types of all functions, then their
   * return types, from an empty walk. On success every symbol the function types
   * reference is recorded, and the walk is closed, so the output holds the
   * non-library models of every symbol reachable from the function types through
   * references.
   */
  function ExtractWalk(p: Program, funcs: seq<Signature>, fuel: nat): (r: Result<Walk, WalkError>)
    ensures r.Success? ==> Closed(p, r.value) && NoDup(r.value.added)
    ensures r.Success? ==> OptsRefs(ParameterTypes(funcs)) + OptsRefs(ReturnTypes(funcs)) <= AddedSet(r.value)
    ensures r.Success? ==> forall i :: 0 <= i < |r.value.models| ==> IsModelDecl(r.value.models[i])
    ensures r.Success? ==> WalkAll(p, ParameterTypes(funcs), Walk([], []), fuel).Success? &&
                           WalkAll(p, ParameterTypes(funcs), Walk([], []), fuel).value.models <= r.value.models
    ensures AllBypassFree(p) && |p.declarations.Keys| < fuel &&
            BypassFreeAll(ParameterTypes(funcs)) && BypassFreeAll(ReturnTypes(funcs)) ==>
              !Exhausted(r)
    ensures Acceptable(p, funcs, fuel) ==> r.Success?
  {
    var w1 :- WalkAll(p, ParameterTypes(funcs), Walk([], []), fuel);
    var w2 :- WalkAll(p, ReturnTypes(funcs), w1, fuel);
    Step(p, Walk([], []), w1, w2);
    Success(w2)
  }

  /**
   * `extractModels`: the models found by the walk. In a program without heritage
   * clauses or symbol-less references, one stack level per declared symbol is
   * enough: the visited list makes recursive references terminate.
   */
  function ExtractModels(p: Program, funcs: seq<Signature>, fuel: nat): (r: Result<seq<Decl>, WalkError>)
    ensures r.Success? <==> ExtractWalk(p, funcs, fuel).Success?
    ensures r.Success? ==> r.value == ExtractWalk(p, funcs, fuel).value.models
    ensures AllBypassFree(p) && |p.declarations.Keys| < fuel &&
            BypassFreeAll(ParameterTypes(funcs)) && BypassFreeAll(ReturnTypes(funcs)) ==>
              !(r.Failure? && r.error.OutOfFuel?)
    ensures Acceptable(p, funcs, fuel) ==> r.Success?
  {
    var w :- ExtractWalk(p, funcs, fuel);
    Success(w.models)
  }

  /**
   * What the output holds: the non-library models of every referenced symbol, and of
   * every symbol referenced from one of those declarations in turn.
   */
  lemma ReferencedModelsAreExtracted(p: Program, funcs: seq<Signature>, fuel: nat, s: Sym, d: Decl, t: Sym, e: Decl)
    requires ExtractModels(p, funcs, fuel).Success?
    requires s in OptsRefs(ParameterTypes(funcs)) + OptsRefs(ReturnTypes(funcs))
    requires d in DeclarationsOf(p, s) && d !in p.externalDeclarations
    requires t in DeclRefs(d) && e in DeclarationsOf(p, t) && e !in p.externalDeclarations
    ensures IsModelDecl(d) ==> d in ExtractModels(p, funcs, fuel).value
    ensures IsModelDecl(e) ==> e in ExtractModels(p, funcs, fuel).value
  {
    var w := ExtractWalk(p, funcs, fuel).value;
    assert s in AddedSet(w);
    assert Walked(d, w);
    assert t in AddedSet(w);
    assert Walked(e, w);
  }

  /* ---- Properties of the walk ---- */

  /** A library reference walks its type arguments and nothing else. */
  lemma ExternalReferenceWalksOnlyArguments(p: Program, n: TypeNode, w: Walk, fuel: nat)
    requires n.TypeReference? && n.info.external
    ensures DoType(p, n, w, fuel) == DoTypes(p, n.typeArguments, w, fuel)
  {
  }

  /** A symbol already visited is not expanded again: only the type arguments are walked. */
  lemma VisitedSymbolIsNotExpanded(p: Program, n: TypeNode, w: Walk, fuel: nat)
    requires n.TypeReference? && !n.info.external && n.info.symbol.Some?
    requires ResolvedSymbol(n.info).Some? && ResolvedSymbol(n.info).value in w.added
    ensures DoType(p, n, w, fuel) == DoTypes(p, n.typeArguments, w, fuel)
  {
    var args := DoTypes(p, n.typeArguments, w, fuel);
    if args.Success? {
      var s := ResolvedSymbol(n.info).value;
      var i :| 0 <= i < |w.added| && w.added[i] == s;
      assert args.value.added[i] == s;
      assert DoResolved(p, n, args.value, fuel) == Success(args.value);
      assert DoReference(p, n, w, fuel) == args;
    }
  }

  /**
   * On its first visit, a symbol is recorded as visited before its declarations are
   * walked, with library declarations passed over.
   */
  lemma SymbolRecordedBeforeExpansion(p: Program, n: TypeNode, w: Walk, fuel: nat)
    requires n.TypeReference? && !n.info.external && n.info.symbol.Some?
    requires DoTypes(p, n.typeArguments, w, fuel).Success?
    requires ResolvedSymbol(n.info).value !in DoTypes(p, n.typeArguments, w, fuel).value.added
    ensures var w1 := DoTypes(p, n.typeArguments, w, fuel).value;
            var s := ResolvedSymbol(n.info).value;
            DoType(p, n, w, fuel) == Expand(p, s, true, w1.(added := w1.added + [s]), fuel)
  {
    var w1 := DoTypes(p, n.typeArguments, w, fuel).value;
    var s := ResolvedSymbol(n.info).value;
    var r := Expand(p, s, true, w1.(added := w1.added + [s]), fuel);
    assert DoResolved(p, n, w1, fuel) == r;
    assert DoReference(p, n, w, fuel) == r;
  }

  /** The declarations of a symbol that are not library declarations, in order. */
  function Internal(p: Program, ds: seq<Decl>): (r: seq<Decl>)
    ensures forall i :: 0 <= i < |r| ==> r[i] in ds && r[i] !in p.externalDeclarations
    ensures forall d :: d in ds && d !in p.externalDeclarations ==> d in r
  {
    if |ds| == 0 then []
    else if ds[0] in p.externalDeclarations then Internal(p, ds[1..])
    else [ds[0]] + Internal(p, ds[1..])
  }

  /** Passing over library declarations is walking the list with them filtered out. */
  lemma {:induction false} SkippingExternalIsFiltering(p: Program, ds: seq<Decl>, w: Walk, fuel: nat)
    ensures DoDecls(p, ds, true, w, fuel) == DoDecls(p, Internal(p, ds), false, w, fuel)
    decreases |ds|
  {
    if |ds| > 0 {
      var rest := Internal(p, ds[1..]);
      if ds[0] in p.externalDeclarations {
        SkippingExternalIsFiltering(p, ds[1..], w, fuel);
      } else {
        assert ([ds[0]] + rest)[1..] == rest;
        var first := DoDecl(p, ds[0], w, fuel);
        if first.Success? {
          SkippingExternalIsFiltering(p, ds[1..], first.value, fuel);
        }
      }
    }
  }

  /** The property signatures among an interface's members. */
  function PropertySignatures(ms: seq<TypeElement>): (r: seq<TypeElement>)
    ensures forall i :: 0 <= i < |r| ==> r[i].PropertySignature? && r[i] in ms
    ensures forall m :: m in ms && m.PropertySignature? ==> m in r
  {
    if |ms| == 0 then []
    else if ms[0].PropertySignature? then [ms[0]] + PropertySignatures(ms[1..])
    else PropertySignatures(ms[1..])
  }

  /** In an interface, only property signatures are walked: index and method signatures are not. */
  lemma {:induction false} InterfaceWalksOnlyProperties(p: Program, ms: seq<TypeElement>, w: Walk, fuel: nat)
    ensures DoMembers(p, ms, false, w, fuel) == DoMembers(p, PropertySignatures(ms), true, w, fuel)
    decreases |ms|
  {
    if |ms| > 0 {
      var rest := PropertySignatures(ms[1..]);
      if ms[0].PropertySignature? {
        assert ([ms[0]] + rest)[1..] == rest;
        var first := DoMember(p, ms[0], false, w, fuel);
        assert first == DoMember(p, ms[0], true, w, fuel);
        if first.Success? {
          InterfaceWalksOnlyProperties(p, ms[1..], first.value, fuel);
        }
      } else {
        InterfaceWalksOnlyProperties(p, ms[1..], w, fuel);
      }
    }
  }

  /**
   * Only string and number keywords are ignored; every other keyword, `boolean`
   * included, and every literal type node aborts the walk.
   */
  lemma KeywordsAndLiterals(p: Program, n: TypeNode, w: Walk, fuel: nat)
    requires n.KeywordType? || n.LiteralType?
    ensures DoType(p, n, w, fuel).Success? <==> n.KeywordType? && n.keyword in {StringKeyword, NumberKeyword}
    ensures DoType(p, n, w, fuel).Success? ==> DoType(p, n, w, fuel).value == w
    ensures DoType(p, n, w, fuel).Failure? ==> DoType(p, n, w, fuel).error == UnsupportedTypeNode(n)
  {
    assert DoType(p, n, w, fuel) == DoLeaf(n, w);
  }

  /**
   * The nodes the walk rejects wherever it meets them: any other node kind is the
   * `ParseError`, an unresolved `extends` type fails, and so does a non-library
   * reference whose type has neither alias symbol nor symbol.
   */
  lemma RejectedNodes(p: Program, n: TypeNode, w: Walk, fuel: nat)
    ensures n.OtherTypeNode? ==> DoType(p, n, w, fuel) == Failure(UnsupportedTypeNode(n))
    ensures n.ExpressionWithTypeArguments? && n.heritageSymbol.None? ==>
              DoType(p, n, w, fuel) == Failure(UnresolvedHeritage(n.expression))
    ensures n.TypeReference? && !n.info.external && ResolvedSymbol(n.info).None? ==> DoType(p, n, w, fuel).Failure?
  {
    if n.OtherTypeNode? {
      assert DoType(p, n, w, fuel) == DoLeaf(n, w);
    } else if n.ExpressionWithTypeArguments? {
      assert DoType(p, n, w, fuel) == DoExtends(p, n, w, fuel);
    } else if n.TypeReference? {
      assert DoType(p, n, w, fuel) == DoReference(p, n, w, fuel);
    }
  }

  /**
   * A parameter type the walk rejects at once makes `extractModels` fail with that
   * error, whatever the program: the first parameter type is walked first.
   */
  lemma RejectedFirstParameterFails(p: Program, funcs: seq<Signature>, fuel: nat, n: TypeNode)
    requires |ParameterTypes(funcs)| > 0 && ParameterTypes(funcs)[0] == Some(n)
    requires n.OtherTypeNode? || n.LiteralType? || (n.KeywordType? && n.keyword != StringKeyword && n.keyword != NumberKeyword)
    ensures ExtractModels(p, funcs, fuel) == Failure(UnsupportedTypeNode(n))
  {
    assert DoType(p, n, Walk([], []), fuel) == DoLeaf(n, Walk([], []));
    assert DoOptType(p, ParameterTypes(funcs)[0], Walk([], []), fuel) == Failure(UnsupportedTypeNode(n));
    assert WalkAll(p, ParameterTypes(funcs), Walk([], []), fuel) == Failure(UnsupportedTypeNode(n));
  }

  /** An enum member stands for its parent enum, which is appended without walking its members. */
  lemma EnumMemberIsItsEnum(p: Program, name: string, e: Decl, w: Walk, fuel: nat)
    requires e.EnumDeclaration?
    ensures DoDecl(p, EnumMember(name, e), w, fuel) == Success(Walk(w.models + [e], w.added))
  {
  }
}

=== FILE: function_definition.dfy ===
/**
 * `parseFunctionDefinition`: an element of a service's function list (a property,
 * a shorthand property or a variable) is followed through initializers, imports
 * and identifier bindings to the function it denotes, whose parameters are then
 * checked and filtered.
 */
module FunctionDefinition {
  import opened Wrappers
  import opened Syntax

  /** The name of an object-literal element, variable or parameter. */
  datatype PropertyName =
    | IdentifierName(text: string)
    | StringLiteralName(text: string)
    | NumericLiteralName(text: string)
    | ComputedPropertyName
    | PrivateIdentifier(text: string)
    | ObjectBindingPattern
    | ArrayBindingPattern

  /** A parameter declaration: `name` is the text of its name, `paramType` its annotation. */
  datatype Parameter = Parameter(name: string, questionToken: bool, paramType: Option<TypeNode>)

  /** A function-like node: its identity in the source, parameters and return-type annotation. */
  datatype FunctionLike = FunctionLike(id: nat, parameters: seq<Parameter>, returnType: Option<TypeNode>)

  /** The nodes the resolution passes through; identifiers carry the symbol the checker resolves them to. */
  datatype Node =
    | SpreadAssignment
    | ShorthandPropertyAssignment(name: PropertyName, valueSymbol: Option<Sym>)
    | PropertyAssignment(name: PropertyName, initializer: Node)
    | MethodDeclaration(name: PropertyName, body: FunctionLike)
    | VariableDeclaration(name: PropertyName, varInitializer: Option<Node>)
    | ImportSpecifier(importedName: Node)
    | FunctionExpression(fn: FunctionLike)
    | ArrowFunction(fn: FunctionLike)
    | FunctionDeclaration(fn: FunctionLike)
    | IdentifierNode(text: string, symbol: Option<Sym>)
    | PropertyAccessExpression(lastToken: Option<Node>)
    | OtherNode(kind: string)

  /** Each symbol's declaration nodes, as the checker reports them. */
  datatype Bindings = Bindings(declarations: map<Sym, seq<Node>>)

  function DeclarationNodes(b: Bindings, s: Sym): seq<Node> {
    if s in b.declarations then b.declarations[s] else []
  }

  datatype ParseError =
    | SpreadNotSupported               // S116
    | UnclearFunctionName(name: PropertyName)   // S117
    | ShorthandNotFound(node: Node)    // S118
    | IdentifierNotFound(node: Node)   // S119
    | UnsupportedSyntax(node: Node)    // S120
    | MissingParameterType(param: Parameter)
    | OutOfFuel                        // the stack is exhausted

  /** A parameter as the rest of the pipeline sees it; its type is known to be present. */
  datatype FunctionParameter = FunctionParameter(name: string, questionToken: bool, paramType: TypeNode)

  /** What `parseActualFunction` yields: the function node, its parameters raw and filtered, its return type. */
  datatype ActualFunction = ActualFunction(
    ref: Node, parameters: seq<Parameter>, parameters2: seq<FunctionParameter>, returnType: Option<TypeNode>)

  datatype PheroFunction = PheroFunction(
    name: string, ref: Node, parameters: seq<Parameter>, parameters2: seq<FunctionParameter>, returnType: Option<TypeNode>)

  /** The elements a service's function list may hold: `ObjectLiteralElementLike | VariableDeclaration`. */
  predicate IsDefinitionSite(node: Node) {
    node.SpreadAssignment? || node.ShorthandPropertyAssignment? || node.PropertyAssignment? ||
    node.MethodDeclaration? || node.VariableDeclaration?
  }

  /** The nodes at which resolution stops. */
  predicate IsFunctionNode(node: Node) {
    node.FunctionExpression? || node.ArrowFunction? || node.FunctionDeclaration?
  }

  /* ---- Parameters ---- */

  predicate Typed(p: Parameter) {
    p.paramType.Some?
  }

  function ToFunctionParameter(p: Parameter): FunctionParameter
    requires Typed(p)
  {
    FunctionParameter(p.name, p.questionToken, p.paramType.value)
  }

  /** A first parameter of type `PheroContext` is the context, not an argument. */
  predicate IsContextParameter(p: Parameter) {
    p.paramType.Some? && p.paramType.value.TypeReference? && NameText(p.paramType.value.typeName) == "PheroContext"
  }

  /** The parameters that stay: all of them, less a context parameter at index 0. */
  function Kept(params: seq<Parameter>): (r: seq<Parameter>)
    ensures |r| <= |params| && r == params[|params| - |r|..]
    ensures |params| - |r| <= 1
    ensures |r| < |params| <==> |params| > 0 && IsContextParameter(params[0])
  {
    if |params| > 0 && IsContextParameter(params[0]) then params[1..] else params
  }

  predicate AllTyped(ps: seq<Parameter>) {
    forall j :: 0 <= j < |ps| ==> Typed(ps[j])
  }

  function Converted(ps: seq<Parameter>): (r: seq<FunctionParameter>)
    requires AllTyped(ps)
    ensures |r| == |ps| && forall k :: 0 <= k < |ps| ==> r[k] == ToFunctionParameter(ps[k])
  {
    seq(|ps|, k requires 0 <= k < |ps| => ToFunctionParameter(ps[k]))
  }

  lemma ConvertedCons(ps: seq<Parameter>)
    requires |ps| > 0 && AllTyped(ps)
    ensures Converted(ps) == [ToFunctionParameter(ps[0])] + Converted(ps[1..])
  {
  }

  /** Where the kept parameters start, seen from index `i` of the fold. */
  function Start(params: seq<Parameter>, i: nat): nat {
    if i == 0 then |params| - |Kept(params)| else i
  }

  /** The `reduce` of `makeParams`, from index `i` with the result `acc` so far. */
  function MakeParamsFrom(params: seq<Parameter>, i: nat, acc: seq<FunctionParameter>): (r: Result<seq<FunctionParameter>, ParseError>)
    requires i <= |params|
    ensures r.Success? ==> acc <= r.value && |r.value| <= |acc| + |params| - i
    ensures r.Failure? ==> exists j :: i <= j < |params| && !Typed(params[j]) && r.error == MissingParameterType(params[j])
    decreases |params| - i
  {
    if i == |params| then Success(acc)
    else if !Typed(params[i]) then Failure(MissingParameterType(params[i]))
    else if i == 0 && IsContextParameter(params[i]) then MakeParamsFrom(params, i + 1, acc)
    else
      var acc' := acc + [ToFunctionParameter(params[i])];
      MakeParamsFrom(params, i + 1, acc')
  }

  /** A slice is typed exactly when its first parameter and the rest are. */
  lemma AllTypedCons(params: seq<Parameter>, i: nat, j: nat)
    requires i < j <= |params|
    ensures AllTyped(params[i..j]) <==> Typed(params[i]) && AllTyped(params[i + 1..j])
  {
    var a, b := params[i..j], params[i + 1..j];
    assert a[0] == params[i];
    assert forall k :: 1 <= k < |a| ==> a[k] == b[k - 1];
    assert forall k :: 0 <= k < |b| ==> b[k] == a[k + 1];
  }

  /** The fold succeeds exactly when every remaining parameter is typed. */
  lemma {:induction false} MakeParamsFromSucceeds(params: seq<Parameter>, i: nat, acc: seq<FunctionParameter>)
    requires i <= |params|
    ensures MakeParamsFrom(params, i, acc).Success? <==> AllTyped(params[i..])
    decreases |params| - i
  {
    if i < |params| {
      AllTypedCons(params, i, |params|);
      if Typed(params[i]) {
        var acc' := if i == 0 && IsContextParameter(params[i]) then acc else acc + [ToFunctionParameter(params[i])];
        assert MakeParamsFrom(params, i, acc) == MakeParamsFrom(params, i + 1, acc');
        MakeParamsFromSucceeds(params, i + 1, acc');
      }
    }
  }

  /** A failing fold fails on the first untyped parameter: every one before it is typed. */
  lemma {:induction false} MakeParamsFromFails(params: seq<Parameter>, i: nat, acc: seq<FunctionParameter>)
    requires i <= |params| && MakeParamsFrom(params, i, acc).Failure?
    ensures exists j :: i <= j < |params| && !Typed(params[j]) && AllTyped(params[i..j]) &&
                        MakeParamsFrom(params, i, acc).error == MissingParameterType(params[j])
    decreases |params| - i
  {
    var r := MakeParamsFrom(params, i, acc);
    if !Typed(params[i]) {
      assert AllTyped(params[i..i]);
    } else {
      var acc' := if i == 0 && IsContextParameter(params[i]) then acc else acc + [ToFunctionParameter(params[i])];
      assert r == MakeParamsFrom(params, i + 1, acc');
      MakeParamsFromFails(params, i + 1, acc');
      var j :| i + 1 <= j < |params| && !Typed(params[j]) && AllTyped(params[i + 1..j]) &&
               r.error == MissingParameterType(params[j]);
      AllTypedCons(params, i, j);
    }
  }

  /** The fold succeeds exactly when every remaining parameter is typed, and fails on the first that is not. */
  lemma MakeParamsFromOutcome(params: seq<Parameter>, i: nat, acc: seq<FunctionParameter>)
    requires i <= |params|
    ensures MakeParamsFrom(params, i, acc).Success? <==> AllTyped(params[i..])
    ensures MakeParamsFrom(params, i, acc).Failure? ==>
              exists j :: i <= j < |params| && !Typed(params[j]) && AllTyped(params[i..j]) &&
                          MakeParamsFrom(params, i, acc).error == MissingParameterType(params[j])
  {
    MakeParamsFromSucceeds(params, i, acc);
    if MakeParamsFrom(params, i, acc).Failure? {
      MakeParamsFromFails(params, i, acc);
    }
  }

  /** On success the fold has appended the kept parameters from index `i` on, converted, in order. */
  lemma {:induction false} MakeParamsFromValue(params: seq<Parameter>, i: nat, acc: seq<FunctionParameter>)
    requires i <= |params|
    requires MakeParamsFrom(params, i, acc).Success?
    ensures Start(params, i) <= |params| && AllTyped(params[Start(params, i)..])
    ensures MakeParamsFrom(params, i, acc).value == acc + Converted(params[Start(params, i)..])
    decreases |params| - i
  {
    if i < |params| {
      if i == 0 && IsContextParameter(params[i]) {
        assert MakeParamsFrom(params, i, acc) == MakeParamsFrom(params, i + 1, acc);
        MakeParamsFromValue(params, i + 1, acc);
        assert Start(params, i) == 1 == Start(params, i + 1);
      } else {
        var acc' := acc + [ToFunctionParameter(params[i])];
        assert MakeParamsFrom(params, i, acc) == MakeParamsFrom(params, i + 1, acc');
        MakeParamsFromValue(params, i + 1, acc');
        assert Start(params, i) == i && Start(params, i + 1) == i + 1;
        AllTypedCons(params, i, |params|);
        assert params[i..][0] == params[i] && params[i..][1..] == params[i + 1..];
        KeptStep(params[i..], acc, MakeParamsFrom(params, i + 1, acc').value);
      }
    }
  }

  /** Converting one more typed parameter in front of the rest. */
  lemma KeptStep(ps: seq<Parameter>, acc: seq<FunctionParameter>, value: seq<FunctionParameter>)
    requires |ps| > 0 && AllTyped(ps)
    requires value == acc + [ToFunctionParameter(ps[0])] + Converted(ps[1..])
    ensures value == acc + Converted(ps)
  {
  }

  /**
   * `makeParams`: every parameter must carry a type (the first untyped one is the
   * error, the context parameter included); the result is the kept parameters, in
   * order, with their names, optional markers and types.
   */
  function MakeParams(params: seq<Parameter>): (r: Result<seq<FunctionParameter>, ParseError>)
    ensures r.Success? <==> forall j :: 0 <= j < |params| ==> Typed(params[j])
    ensures r.Failure? ==> exists j :: 0 <= j < |params| && !Typed(params[j]) &&
                                      (forall k :: 0 <= k < j ==> Typed(params[k])) && r.error == MissingParameterType(params[j])
    ensures r.Success? ==> |r.value| == |Kept(params)| &&
                           forall k :: 0 <= k < |r.value| ==> r.value[k] == ToFunctionParameter(Kept(params)[k])
  {
    MakeParamsFromStartOutcome(params);
    if MakeParamsFrom(params, 0, []).Success? then
      MakeParamsFromStartValue(params);
      MakeParamsFrom(params, 0, [])
    else MakeParamsFrom(params, 0, [])
  }

  /** From the first parameter with nothing accumulated, the fold succeeds exactly when every parameter is typed. */
  lemma MakeParamsFromStartOutcome(params: seq<Parameter>)
    ensures MakeParamsFrom(params, 0, []).Success? <==> forall j :: 0 <= j < |params| ==> Typed(params[j])
    ensures MakeParamsFrom(params, 0, []).Failure? ==>
              exists j :: 0 <= j < |params| && !Typed(params[j]) && (forall k :: 0 <= k < j ==> Typed(params[k])) &&
                          MakeParamsFrom(params, 0, []).error == MissingParameterType(params[j])
  {
    assert params[0..] == params;
    MakeParamsFromOutcome(params, 0, []);
    var r := MakeParamsFrom(params, 0, []);
    if r.Failure? {
      var j :| 0 <= j < |params| && !Typed(params[j]) && AllTyped(params[0..j]) && r.error == MissingParameterType(params[j]);
      forall k | 0 <= k < j
        ensures Typed(params[k])
      {
        assert params[0..j][k] == params[k];
      }
    }
  }

  /** From the first parameter with nothing accumulated, a successful fold is the kept parameters, converted. */
  lemma MakeParamsFromStartValue(params: seq<Parameter>)
    requires MakeParamsFrom(params, 0, []).Success?
    ensures AllTyped(Kept(params)) && MakeParamsFrom(params, 0, []).value == Converted(Kept(params))
  {
    MakeParamsFromValue(params, 0, []);
    assert params[Start(params, 0)..] == Kept(params);
  }

  /* ---- Resolution ---- */

  /** `parseFunctionName`: only identifiers and string literals give a name. */
  function ParseFunctionName(n: PropertyName): (r: Result<string, ParseError>)
    ensures r.Success? <==> n.IdentifierName? || n.StringLiteralName?
    ensures r.Success? ==> r.value == n.text
    ensures r.Failure? ==> r.error == UnclearFunctionName(n)
  {
    match n
    case IdentifierName(text) => Success(text)
    case StringLiteralName(text) => Success(text)
    case _ => Failure(UnclearFunctionName(n))
  }

  /**
   * The function a function-like node denotes: it exists exactly when every
   * parameter is typed, and then holds the node, its parameters and return type,
   * and the kept parameters converted in order.
   */
  function FromFunction(ref: Node, f: FunctionLike): (r: Result<ActualFunction, ParseError>)
    ensures r.Success? <==> MakeParams(f.parameters).Success?
    ensures r.Success? ==> r.value == ActualFunction(ref, f.parameters, MakeParams(f.parameters).value, f.returnType)
    ensures r.Failure? ==> r.error == MakeParams(f.parameters).error
    ensures r.Success? <==> AllTyped(f.parameters)
    ensures r.Success? ==> r.value.ref == ref && r.value.parameters == f.parameters && r.value.returnType == f.returnType
    ensures r.Success? ==> |r.value.parameters2| == |Kept(f.parameters)| &&
                           forall k :: 0 <= k < |Kept(f.parameters)| ==> r.value.parameters2[k] == ToFunctionParameter(Kept(f.parameters)[k])
    ensures r.Failure? ==> exists j :: 0 <= j < |f.parameters| && !Typed(f.parameters[j]) &&
                                      (forall k :: 0 <= k < j ==> Typed(f.parameters[k])) && r.error == MissingParameterType(f.parameters[j])
  {
    var ps :- MakeParams(f.parameters);
    Success(ActualFunction(ref, f.parameters, ps, f.returnType))
  }

  /** `declarations?.[0]` of a symbol, one stack level down. */
  function FollowSymbol(b: Bindings, s: Option<Sym>, notFound: ParseError, fuel: nat): (r: Result<ActualFunction, ParseError>)
    ensures r.Success? ==> IsFunctionNode(r.value.ref) && r.value.parameters == r.value.ref.fn.parameters &&
                           r.value.returnType == r.value.ref.fn.returnType && MakeParams(r.value.parameters) == Success(r.value.parameters2)
    decreases fuel, 0
  {
    if s.None? || |DeclarationNodes(b, s.value)| == 0 then Failure(notFound)
    else if fuel == 0 then Failure(OutOfFuel)
    else ParseActualFunction(b, DeclarationNodes(b, s.value)[0], fuel - 1)
  }

  /** A function-like node resolves to itself, with `makeParams` of its own parameters. */
  function FromFunctionNode(node: Node): (r: Result<ActualFunction, ParseError>)
    requires IsFunctionNode(node)
    ensures r.Success? <==> MakeParams(node.fn.parameters).Success?
    ensures r.Success? ==> r.value == ActualFunction(node, node.fn.parameters, MakeParams(node.fn.parameters).value, node.fn.returnType)
    ensures r.Failure? ==> r.error == MakeParams(node.fn.parameters).error
  {
    FromFunction(node, node.fn)
  }

  /**
   * `parseActualFunction`: the function a node denotes. The result's node is a
   * function expression, arrow function or function declaration; its parameters are
   * that function's, unfiltered; the filtered list is `makeParams` of them.
   */
  function ParseActualFunction(b: Bindings, node: Node, fuel: nat): (r: Result<ActualFunction, ParseError>)
    ensures r.Success? ==> IsFunctionNode(r.value.ref) && r.value.parameters == r.value.ref.fn.parameters &&
                           r.value.returnType == r.value.ref.fn.returnType && MakeParams(r.value.parameters) == Success(r.value.parameters2)
    ensures IsFunctionNode(node) ==> (r.Success? <==> MakeParams(node.fn.parameters).Success?)
    ensures IsFunctionNode(node) && r.Success? ==> r.value.ref == node
    ensures IsFunctionNode(node) && r.Failure? ==> r.error == MakeParams(node.fn.parameters).error
    decreases fuel, 1, node
  {
    match node
    case ShorthandPropertyAssignment(_, valueSymbol) => FollowSymbol(b, valueSymbol, ShorthandNotFound(node), fuel)
    case ImportSpecifier(importedName) => ParseActualFunction(b, importedName, fuel)
    case PropertyAssignment(_, initializer) => ParseActualFunction(b, initializer, fuel)
    case FunctionExpression(_) => FromFunctionNode(node)
    case ArrowFunction(_) => FromFunctionNode(node)
    case FunctionDeclaration(_) => FromFunctionNode(node)
    case VariableDeclaration(_, init) =>
      if init.None? then Failure(UnsupportedSyntax(node))
      else if init.value.ArrowFunction? then FromFunctionNode(init.value)
      else ParseActualFunction(b, init.value, fuel)
    case IdentifierNode(_, symbol) => FollowSymbol(b, symbol, IdentifierNotFound(node), fuel)
    case PropertyAccessExpression(lastToken) =>
      if lastToken.Some? then ParseActualFunction(b, lastToken.value, fuel) else Failure(UnsupportedSyntax(node))
    case SpreadAssignment => Failure(UnsupportedSyntax(node))
    case MethodDeclaration(_, _) => Failure(UnsupportedSyntax(node))
    case OtherNode(_) => Failure(UnsupportedSyntax(node))
  }

  /**
   * `parseFunctionDefinition`: a spread element is rejected first, then the name is
   * parsed, and only then is the function resolved.
   */
  function ParseFunctionDefinition(b: Bindings, node: Node, fuel: nat): (r: Result<PheroFunction, ParseError>)
    requires IsDefinitionSite(node)
    ensures node.SpreadAssignment? ==> r == Failure(SpreadNotSupported)
    ensures !node.SpreadAssignment? && ParseFunctionName(node.name).Failure? ==> r == Failure(UnclearFunctionName(node.name))
    ensures r.Success? ==> !node.SpreadAssignment? && Success(r.value.name) == ParseFunctionName(node.name) &&
                           ParseActualFunction(b, node, fuel) ==
                             Success(ActualFunction(r.value.ref, r.value.parameters, r.value.parameters2, r.value.returnType))
    ensures !node.SpreadAssignment? && ParseFunctionName(node.name).Success? ==>
              (r.Success? <==> ParseActualFunction(b, node, fuel).Success?) &&
              (r.Failure? ==> r.error == ParseActualFunction(b, node, fuel).error)
  {
    if node.SpreadAssignment? then Failure(SpreadNotSupported)
    else
      var name :- ParseFunctionName(node.name);
      var f :- ParseActualFunction(b, node, fuel);
      Success(PheroFunction(name, f.ref, f.parameters, f.parameters2, f.returnType))
  }

  /* ---- Properties ---- */

  /**
   * Fuel only bounds the stack: a resolution that succeeds keeps its result with
   * any larger budget.
   */
  lemma {:induction false} ResolutionFuelMonotone(b: Bindings, node: Node, fuel: nat, more: nat)
    requires fuel <= more && ParseActualFunction(b, node, fuel).Success?
    ensures ParseActualFunction(b, node, more) == ParseActualFunction(b, node, fuel)
    decreases fuel, node
  {
    match node
    case ShorthandPropertyAssignment(_, s) =>
      var target := DeclarationNodes(b, s.value)[0];
      ResolutionFuelMonotone(b, target, fuel - 1, more - 1);
    case ImportSpecifier(n) => ResolutionFuelMonotone(b, n, fuel, more);
    case PropertyAssignment(_, n) => ResolutionFuelMonotone(b, n, fuel, more);
    case VariableDeclaration(_, init) =>
      if !init.value.ArrowFunction? {
        ResolutionFuelMonotone(b, init.value, fuel, more);
      }
    case IdentifierNode(_, s) =>
      var target := DeclarationNodes(b, s.value)[0];
      ResolutionFuelMonotone(b, target, fuel - 1, more - 1);
    case PropertyAccessExpression(last) => ResolutionFuelMonotone(b, last.value, fuel, more);
    case FunctionExpression(_) =>
    case ArrowFunction(_) =>
    case FunctionDeclaration(_) =>
  }

  /** An import specifier, a property assignment and a property access with a last token resolve as the node they lead to. */
  lemma RedirectsAreTransparent(b: Bindings, name: PropertyName, inner: Node, fuel: nat)
    ensures ParseActualFunction(b, Node.ImportSpecifier(inner), fuel) == ParseActualFunction(b, inner, fuel)
    ensures ParseActualFunction(b, PropertyAssignment(name, inner), fuel) == ParseActualFunction(b, inner, fuel)
    ensures ParseActualFunction(b, PropertyAccessExpression(Some(inner)), fuel) == ParseActualFunction(b, inner, fuel)
  {
    ImportIsTransparent(b, inner, fuel);
    AssignmentIsTransparent(b, name, inner, fuel);
    AccessIsTransparent(b, inner, fuel);
  }

  /** An import specifier resolves as the node it imports. */
  lemma ImportIsTransparent(b: Bindings, inner: Node, fuel: nat)
    ensures ParseActualFunction(b, Node.ImportSpecifier(inner), fuel) == ParseActualFunction(b, inner, fuel)
  {
  }

  /** A property assignment resolves as its initializer. */
  lemma AssignmentIsTransparent(b: Bindings, name: PropertyName, inner: Node, fuel: nat)
    ensures ParseActualFunction(b, PropertyAssignment(name, inner), fuel) == ParseActualFunction(b, inner, fuel)
  {
  }

  /** A property access with a last token resolves as that token. */
  lemma AccessIsTransparent(b: Bindings, inner: Node, fuel: nat)
    ensures ParseActualFunction(b, PropertyAccessExpression(Some(inner)), fuel) == ParseActualFunction(b, inner, fuel)
  {
  }

  /**
   * A shorthand property or an identifier without a symbol, or whose symbol has no
   * declaration, fails with S118 or S119; any symbol with a declaration is followed
   * to its first declaration, one stack level down.
   */
  lemma SymbolResolution(b: Bindings, name: PropertyName, text: string, s: Option<Sym>, fuel: nat)
    ensures var shorthand := ShorthandPropertyAssignment(name, s);
            var id := IdentifierNode(text, s);
            if s.None? || |DeclarationNodes(b, s.value)| == 0 then
              && ParseActualFunction(b, shorthand, fuel) == Failure(ShorthandNotFound(shorthand))
              && ParseActualFunction(b, id, fuel) == Failure(IdentifierNotFound(id))
            else if fuel == 0 then
              && ParseActualFunction(b, shorthand, fuel) == Failure(OutOfFuel)
              && ParseActualFunction(b, id, fuel) == Failure(OutOfFuel)
            else
              && ParseActualFunction(b, shorthand, fuel) == ParseActualFunction(b, DeclarationNodes(b, s.value)[0], fuel - 1)
              && ParseActualFunction(b, id, fuel) == ParseActualFunction(b, DeclarationNodes(b, s.value)[0], fuel - 1)
  {
  }

  /** A property access without a last token, a variable without an initializer, and any other node are S120. */
  lemma UnsupportedSyntaxCases(b: Bindings, name: PropertyName, kind: string, fuel: nat)
    ensures ParseActualFunction(b, PropertyAccessExpression(None), fuel) == Failure(UnsupportedSyntax(PropertyAccessExpression(None)))
    ensures ParseActualFunction(b, VariableDeclaration(name, None), fuel) == Failure(UnsupportedSyntax(VariableDeclaration(name, None)))
    ensures ParseActualFunction(b, OtherNode(kind), fuel) == Failure(UnsupportedSyntax(OtherNode(kind)))
  {
  }

  /** A variable initialised with an arrow function resolves exactly as the arrow function does. */
  lemma VariableWithArrowIsTheArrow(b: Bindings, name: PropertyName, f: FunctionLike, fuel: nat)
    ensures ParseActualFunction(b, VariableDeclaration(name, Some(ArrowFunction(f))), fuel) ==
            ParseActualFunction(b, ArrowFunction(f), fuel)
  {
  }

  /** An object-literal method is not followed: it is unsupported syntax, even with a clear name. */
  lemma MethodIsUnsupported(b: Bindings, name: string, f: FunctionLike, fuel: nat)
    ensures ParseFunctionDefinition(b, MethodDeclaration(IdentifierName(name), f), fuel) ==
            Failure(UnsupportedSyntax(MethodDeclaration(IdentifierName(name), f)))
  {
  }

  /** `const x = x`: an identifier whose first declaration is initialised with that same identifier. */
  predicate SelfBinding(b: Bindings, id: Node) {
    && id.IdentifierNode? && id.symbol.Some?
    && |DeclarationNodes(b, id.symbol.value)| > 0
    && DeclarationNodes(b, id.symbol.value)[0].VariableDeclaration?
    && DeclarationNodes(b, id.symbol.value)[0].varInitializer == Some(id)
  }

  /** Identifier resolution has no visited set: a binding to itself exhausts any stack. */
  lemma {:induction false} SelfBindingNeverResolves(b: Bindings, id: Node, fuel: nat)
    requires SelfBinding(b, id)
    ensures ParseActualFunction(b, id, fuel) == Failure(OutOfFuel)
    decreases fuel
  {
    var decl := DeclarationNodes(b, id.symbol.value)[0];
    if fuel > 0 {
      SelfBindingNeverResolves(b, id, fuel - 1);
      assert ParseActualFunction(b, decl, fuel - 1) == Failure(OutOfFuel);
    }
    assert FollowSymbol(b, id.symbol, IdentifierNotFound(id), fuel) == Failure(OutOfFuel);
  }

  /** Only the first parameter can be the context: a second `PheroContext` parameter is kept. */
  lemma OnlyFirstContextDropped(ctx: Parameter)
    requires IsContextParameter(ctx)
    ensures MakeParams([ctx, ctx]) == Success([ToFunctionParameter(ctx)])
  {
    assert Kept([ctx, ctx]) == [ctx];
    assert forall j :: 0 <= j < 2 ==> Typed([ctx, ctx][j]);
    var r := MakeParams([ctx, ctx]);
    assert r.Success? && |r.value| == 1 && r.value[0] == ToFunctionParameter(ctx);
    assert r.value == [ToFunctionParameter(ctx)];
  }
}

=== FILE: generator_properties.dfy ===
/**
 * Properties of parser-model synthesis: the first-match classification order, the
 * memo behaviour of named types (including the re-synthesis of aliases and the
 * unbounded recursion on a self-referencing interface), and the shape of arrays,
 * unions and objects.
 */
module GeneratorProperties {
  import opened Wrappers
  import opened TypeGraph
  import opened ModelGenerator
  import PM = ParserModels
  import Assoc
  import Syntax

  /** Neither a primitive nor a memo hit: the named and structural cases decide. */
  predicate ReachesNamedCases(g: Graph, t: TypeId, memo: Memo)
    requires t in g
  {
    Primitive(g[t]).None? && !(g[t].symbol.Some? && MemoHas(memo, g[t].symbol.value))
  }

  /** Past the alias case: no alias symbol, or already resolving one. */
  predicate PastAlias(g: Graph, t: TypeId, resolveReference: bool)
    requires t in g
  {
    g[t].aliasSymbol.None? || resolveReference
  }

  predicate IsArrayShaped(info: TypeInfo) {
    (info.symbol.Some? && info.symbol.value.name == "Array") || (ObjectFlag in info.flags && info.typeNode.ArrayTypeNode?)
  }

  /**
   * The type's own flags and node are consulted before the memo, the alias and the
   * union case: whatever symbols the type carries, the answer does not touch the memo.
   */
  lemma PrimitiveCasesComeFirst(g: Graph, t: TypeId, resolveReference: bool, memo: Memo, fuel: nat)
    requires WellFormed(g) && t in g && fuel > 0
    requires Primitive(g[t]).Some?
    ensures var res := Primitive(g[t]).value;
            Generate(g, t, resolveReference, memo, fuel) ==
              if res.Failure? then Failure(res.error) else Success(Gen(res.value, memo))
  {
  }

  /** The `boolean` type, itself a union of its two literals, yields `Boolean` and not a union. */
  lemma BooleanTypeIsBoolean(g: Graph, t: TypeId, resolveReference: bool, memo: Memo, fuel: nat)
    requires WellFormed(g) && t in g && fuel > 0
    requires g[t].flags == {BooleanFlag, UnionFlag} && g[t].typeNode == OtherShape
    ensures Generate(g, t, resolveReference, memo, fuel) == Success(Gen(PM.Boolean, memo))
  {
    assert StringLiteralFlag !in g[t].flags && NumberLiteralFlag !in g[t].flags;
    assert g[t].flags != {BooleanLiteralFlag} && g[t].flags != {StringFlag} && g[t].flags != {NumberFlag};
  }

  /** A type whose symbol is already stored is answered by a reference, with no new synthesis. */
  lemma StoredSymbolIsReference(g: Graph, t: TypeId, resolveReference: bool, memo: Memo, fuel: nat)
    requires WellFormed(g) && t in g && fuel > 0
    requires Primitive(g[t]).None? && g[t].symbol.Some? && MemoHas(memo, g[t].symbol.value)
    ensures Generate(g, t, resolveReference, memo, fuel) == Success(Gen(PM.Reference(g[t].symbol.value.name), memo))
  {
  }

  /**
   * An aliased type outside alias resolution is synthesised once more with the
   * resolving flag, stored under its alias symbol and answered by a reference. The
   * memo is consulted with the type's own symbol, not the alias symbol, so this
   * happens on every use of the alias, even when the alias is already stored.
   */
  lemma AliasIsSynthesisedAndStored(g: Graph, t: TypeId, memo: Memo, fuel: nat)
    requires WellFormed(g) && t in g && fuel > 0
    requires ReachesNamedCases(g, t, memo) && g[t].aliasSymbol.Some?
    ensures var a := g[t].aliasSymbol.value;
            Generate(g, t, false, memo, fuel) ==
              match Generate(g, t, true, memo, fuel - 1)
              case Failure(e) => Failure(e)
              case Success(inner) => Success(Gen(PM.Reference(a.name), Assoc.Put(inner.memo, a, inner.model)))
  {
  }

  /**
   * A class or interface is synthesised with the resolving flag, stored under its own
   * symbol and answered by a reference; any later request for it, resolving or not,
   * is a reference with the memo unchanged.
   */
  lemma ClassIsStoredThenReferenced(g: Graph, t: TypeId, memo: Memo, fuel: nat, later: nat, resolveLater: bool)
    requires WellFormed(g) && t in g && fuel > 0 && later > 0
    requires ReachesNamedCases(g, t, memo) && g[t].aliasSymbol.None?
    requires UnionFlag !in g[t].flags && !IsArrayShaped(g[t]) && g[t].isClassOrInterface
    requires Generate(g, t, false, memo, fuel).Success?
    ensures var s := g[t].symbol.value;
            var r := Generate(g, t, false, memo, fuel).value;
            && r.model == PM.Reference(s.name)
            && Generate(g, t, true, memo, fuel - 1).Success?
            && Assoc.Lookup(r.memo, s) == Some(Generate(g, t, true, memo, fuel - 1).value.model)
            && Generate(g, t, resolveLater, r.memo, later) == Success(Gen(PM.Reference(s.name), r.memo))
  {
    var s := g[t].symbol.value;
    var inner := Generate(g, t, true, memo, fuel - 1);
    assert inner.Success?;
    var r := Generate(g, t, false, memo, fuel).value;
    assert r == Store(inner.value, s, memo).value;
    assert MemoHas(r.memo, s);
  }

  /**
   * A union is synthesised from its members as written (`origin` when the checker kept
   * it), in order, and then passed through the boolean-literal normaliser.
   */
  lemma UnionUsesMembersAsWritten(g: Graph, t: TypeId, resolveReference: bool, memo: Memo, fuel: nat)
    requires WellFormed(g) && t in g && fuel > 0
    requires ReachesNamedCases(g, t, memo) && PastAlias(g, t, resolveReference) && UnionFlag in g[t].flags
    ensures var members := g[t].origin.GetOr(g[t].types);
            (forall i :: 0 <= i < |members| ==> members[i] in g) &&
            Generate(g, t, resolveReference, memo, fuel) ==
              match GenerateList(g, members, memo, fuel - 1)
              case Failure(e) => Failure(e)
              case Success(all) => Success(Gen(PM.ReplaceBooleanLiterals(all.models), all.memo))
  {
  }

  /**
   * An array type (named `Array`, or an object type printed as an array node) becomes
   * `Array{ArrayElement{element}}`; without a type argument it is an error.
   */
  lemma ArrayOfElement(g: Graph, t: TypeId, resolveReference: bool, memo: Memo, fuel: nat)
    requires WellFormed(g) && t in g && fuel > 0
    requires ReachesNamedCases(g, t, memo) && PastAlias(g, t, resolveReference)
    requires UnionFlag !in g[t].flags && IsArrayShaped(g[t])
    ensures |g[t].typeArguments| == 0 ==> Generate(g, t, resolveReference, memo, fuel) == Failure(ArrayWithoutElement)
    ensures |g[t].typeArguments| > 0 ==>
              Generate(g, t, resolveReference, memo, fuel) ==
                match Generate(g, g[t].typeArguments[0], false, memo, fuel - 1)
                case Failure(e) => Failure(e)
                case Success(e) => Success(Gen(PM.Array(PM.ArrayElement(e.model)), e.memo))
  {
  }

  /** An object type yields one member per property, in order, with the property's name and Optional flag. */
  lemma ObjectHasOneMemberPerProperty(g: Graph, t: TypeId, resolveReference: bool, memo: Memo, fuel: nat)
    requires WellFormed(g) && t in g && fuel > 0
    requires ReachesNamedCases(g, t, memo) && PastAlias(g, t, resolveReference)
    requires UnionFlag !in g[t].flags && !IsArrayShaped(g[t])
    requires !g[t].isClassOrInterface || resolveReference
    requires ObjectFlag in g[t].flags
    requires Generate(g, t, resolveReference, memo, fuel).Success?
    ensures var m := Generate(g, t, resolveReference, memo, fuel).value.model;
            var props := g[t].properties;
            && m.Object? && |m.members| == |props|
            && forall i :: 0 <= i < |props| ==>
                 m.members[i].name == props[i].name && m.members[i].optional == props[i].isOptional
  {
  }

  /** The memo in force before each property's synthesis in `GenerateMembers`, while they succeed. */
  function MembersMemos(g: Graph, props: seq<Property>, memo: Memo, fuel: nat): (r: seq<Memo>)
    requires WellFormed(g) && forall i :: 0 <= i < |props| ==> props[i].propType in g
    ensures |r| <= |props|
    decreases |props|
  {
    if |props| == 0 then []
    else match Generate(g, props[0].propType, false, memo, fuel)
      case Failure(_) => []
      case Success(gen) => [memo] + MembersMemos(g, props[1..], gen.memo, fuel)
  }

  /**
   * `member` is property `prop` synthesised in memo `m`, leaving memo `next`: same
   * name and Optional flag, and the model unwrapped exactly when the property is optional.
   */
  predicate MemberStep(g: Graph, prop: Property, m: Memo, member: PM.Member, next: Memo, fuel: nat)
    requires WellFormed(g) && prop.propType in g
  {
    var gen := Generate(g, prop.propType, false, m, fuel);
    && gen.Success? && gen.value.memo == next
    && member == PM.Member(prop.name, prop.isOptional,
                           if prop.isOptional then PM.RemoveUndefinedFromUnion(gen.value.model) else gen.value.model)
  }

  predicate MembersTrace(g: Graph, props: seq<Property>, memos: seq<Memo>, members: seq<PM.Member>, final: Memo, fuel: nat)
    requires WellFormed(g) && forall i :: 0 <= i < |props| ==> props[i].propType in g
  {
    && |memos| == |props| && |members| == |props|
    && forall i {:trigger members[i]} :: 0 <= i < |props| ==>
         MemberStep(g, props[i], memos[i], members[i], if i + 1 < |props| then memos[i + 1] else final, fuel)
  }

  lemma MembersTraceCons(g: Graph, props: seq<Property>, m: Memo, memos: seq<Memo>, member: PM.Member,
                         members: seq<PM.Member>, final: Memo, fuel: nat)
    requires WellFormed(g) && |props| > 0 && forall i :: 0 <= i < |props| ==> props[i].propType in g
    requires MembersTrace(g, props[1..], memos, members, final, fuel)
    requires MemberStep(g, props[0], m, member, if |props| > 1 then memos[0] else final, fuel)
    ensures MembersTrace(g, props, [m] + memos, [member] + members, final, fuel)
  {
    var ms, mems := [m] + memos, [member] + members;
    forall i | 1 <= i < |props|
      ensures MemberStep(g, props[i], ms[i], mems[i], if i + 1 < |props| then ms[i + 1] else final, fuel)
    {
      var j := i - 1;
      assert MemberStep(g, props[1..][j], memos[j], members[j], if j + 1 < |props[1..]| then memos[j + 1] else final, fuel);
    }
  }

  /**
   * Member `i` is the synthesis of property `i` in the memo left by the properties
   * before it, unwrapped exactly when the property is optional.
   */
  lemma {:induction false} MemberUnwrappedIffOptional(g: Graph, props: seq<Property>, memo: Memo, fuel: nat)
    requires WellFormed(g) && forall i :: 0 <= i < |props| ==> props[i].propType in g
    requires GenerateMembers(g, props, memo, fuel).Success?
    ensures var r := GenerateMembers(g, props, memo, fuel).value;
            && MembersTrace(g, props, MembersMemos(g, props, memo, fuel), r.members, r.memo, fuel)
            && (|props| == 0 ==> r.memo == memo)
            && (|props| > 0 ==> MembersMemos(g, props, memo, fuel)[0] == memo)
    decreases |props|
  {
    if |props| > 0 {
      var gen := Generate(g, props[0].propType, false, memo, fuel).value;
      var rest := GenerateMembers(g, props[1..], gen.memo, fuel).value;
      var r := GenerateMembers(g, props, memo, fuel).value;
      var parser := if props[0].isOptional then PM.RemoveUndefinedFromUnion(gen.model) else gen.model;
      assert r == GenMembers([PM.Member(props[0].name, props[0].isOptional, parser)] + rest.members, rest.memo);
      MemberUnwrappedIffOptional(g, props[1..], gen.memo, fuel);
      var ms' := MembersMemos(g, props[1..], gen.memo, fuel);
      assert MembersMemos(g, props, memo, fuel) == [memo] + ms';
      MembersTraceCons(g, props, memo, ms', r.members[0], rest.members, rest.memo, fuel);
    }
  }

  /** An interface one of whose properties has the interface itself as its type. */
  predicate SelfReferencingInterface(g: Graph, t: TypeId) {
    && t in g
    && g[t].flags == {ObjectFlag} && g[t].typeNode == OtherShape
    && g[t].isClassOrInterface && g[t].symbol.Some? && g[t].aliasSymbol.None?
    && g[t].symbol.value.name != "Array"
    && |g[t].properties| > 0 && g[t].properties[0].propType == t
  }

  /**
   * Because a named model is stored only after its synthesis, a self-referencing
   * interface never reaches the memo: every stack depth is exhausted.
   */
  lemma {:induction false} SelfReferencingInterfaceOverflows(g: Graph, t: TypeId, memo: Memo, fuel: nat)
    requires WellFormed(g) && SelfReferencingInterface(g, t)
    requires !MemoHas(memo, g[t].symbol.value)
    ensures Generate(g, t, false, memo, fuel) == Failure(StackOverflow)
    decreases fuel
  {
    var info := g[t];
    assert Primitive(info).None? by {
      assert info.flags != {StringFlag} && info.flags != {NumberFlag} && info.flags != {BooleanLiteralFlag};
    }
    if fuel > 1 {
      SelfReferencingInterfaceOverflows(g, t, memo, fuel - 2);
      assert GenerateMembers(g, info.properties, memo, fuel - 2) == Failure(StackOverflow);
      assert Generate(g, t, true, memo, fuel - 1) == Failure(StackOverflow);
    }
  }

  /**
   * `deps` is keyed by the bare name, so two distinct symbols with one name share an
   * entry: the lookup of a name yields the model stored last under that name.
   */
  lemma DepsKeepLastModelPerName(memo: Memo, n: string)
    ensures Assoc.Lookup(Deps(memo), n) == LastNamed(memo, n)
  {
    DepsFromLookup([], memo, n);
  }

  /** Two distinct symbols sharing a name leave a single entry, holding the later model. */
  lemma SameNameSymbolsCollide(a: Syntax.Sym, b: Syntax.Sym, x: PM.ParserModel, y: PM.ParserModel)
    requires a != b && a.name == b.name
    ensures Deps([(a, x), (b, y)]) == [(a.name, y)]
  {
    var first := Assoc.Put([], a.name, x);
    assert first == [(a.name, x)];
    assert Deps([(a, x), (b, y)]) == DepsFrom(first, [(b, y)]);
    var second := Assoc.Put(first, b.name, y);
    assert second == [(a.name, y)] + first[1..];
    assert DepsFrom(first, [(b, y)]) == DepsFrom(second, [(b, y)][1..]);
    assert [(b, y)][1..] == [];
  }
}

=== FILE: model_generator.dfy ===
/**
 * Parser-model synthesis: `ModelGenerator.generate` and `generateParserModel`.
 *
 * The generator classifies a checker type by a fixed first-match order and threads
 * its symbol memo (`symbolParsers`) explicitly. A named model is stored only after
 * it has been synthesised, as `generate` does, so a self-recursive named type
 * recurses without bound; `fuel` stands for the call stack and running out of it is
 * the `StackOverflow` error.
 */
module ModelGenerator {
  import opened Wrappers
  import Syntax
  import opened TypeGraph
  import PM = ParserModels
  import Assoc
  import Seqs

  datatype GenError =
    | MissingTypeNode                 // "TypeNode expected"
    | BooleanLiteralWithoutLiteralNode
    | ArrayWithoutElement             // "Array has no TypeElement"
    | UnsupportedType(flags: set<TypeFlag>)
    | StackOverflow

  /** `symbolParsers`: symbol to synthesised model, in insertion order. */
  type Memo = seq<(Syntax.Sym, PM.ParserModel)>

  datatype Gen = Gen(model: PM.ParserModel, memo: Memo)
  datatype GenList = GenList(models: seq<PM.ParserModel>, memo: Memo)
  datatype GenMembers = GenMembers(members: seq<PM.Member>, memo: Memo)

  /** `{ root, deps }`: deps is keyed by symbol name. */
  datatype ParserModelMap = ParserModelMap(root: PM.ParserModel, deps: seq<(string, PM.ParserModel)>)

  function MemoNames(memo: Memo): set<string> {
    set s | s in Assoc.Keys(memo) :: s.name
  }

  predicate MemoHas(memo: Memo, s: Syntax.Sym) {
    s in Assoc.Keys(memo)
  }

  /** Every reference inside a stored model names a stored symbol. */
  predicate Closed(memo: Memo) {
    forall i :: 0 <= i < |memo| ==> PM.Refs(memo[i].1) <= MemoNames(memo)
  }

  /**
   * The cases answered from the type's own flags and node before any symbol is
   * consulted: the missing node, the literals, `undefined`/`null` literal nodes and
   * the string, number, boolean and undefined flags.
   */
  function Primitive(info: TypeInfo): (r: Option<Result<PM.ParserModel, GenError>>)
    ensures r.Some? && r.value.Success? ==> PM.Refs(r.value.value) == {}
  {
    if info.typeNode.NoTypeNode? then Some(Failure(MissingTypeNode))
    else if StringLiteralFlag in info.flags then Some(Success(PM.StringLiteral(info.stringValue)))
    else if NumberLiteralFlag in info.flags then Some(Success(PM.NumberLiteral(info.numberValue)))
    else if info.flags == {BooleanLiteralFlag} then
      if info.typeNode.LiteralTypeNode? then Some(Success(PM.BooleanLiteral(info.typeNode.literal == TrueKeyword)))
      else Some(Failure(BooleanLiteralWithoutLiteralNode))
    else if info.typeNode == LiteralTypeNode(UndefinedKeyword) then Some(Success(PM.Undefined))
    else if info.typeNode == LiteralTypeNode(NullKeyword) then Some(Success(PM.Null))
    else if info.flags == {StringFlag} then Some(Success(PM.String))
    else if info.flags == {NumberFlag} then Some(Success(PM.Number))
    else if BooleanFlag in info.flags then Some(Success(PM.Boolean))  // boolean is also a true|false union
    else if UndefinedFlag in info.flags then Some(Success(PM.Undefined))
    else None
  }

  /** Storing a model whose references are already stored keeps the memo closed. */
  lemma StoreKeepsClosed(memo: Memo, s: Syntax.Sym, v: PM.ParserModel)
    requires Closed(memo) && PM.Refs(v) <= MemoNames(memo)
    ensures MemoNames(Assoc.Put(memo, s, v)) == MemoNames(memo) + {s.name}
    ensures Closed(Assoc.Put(memo, s, v))
  {
    var r := Assoc.Put(memo, s, v);
    assert MemoNames(r) == MemoNames(memo) + {s.name};
    forall i | 0 <= i < |r|
      ensures PM.Refs(r[i].1) <= MemoNames(r)
    {
      if r[i] != (s, v) {
        var j :| 0 <= j < |memo| && memo[j] == r[i];
      }
    }
  }

  lemma NamesGrow(a: Memo, b: Memo)
    requires Assoc.Keys(a) <= Assoc.Keys(b)
    ensures MemoNames(a) <= MemoNames(b)
  {
  }

  /** `generate(type, resolveReference)`. */
  function Generate(g: Graph, t: TypeId, resolveReference: bool, memo: Memo, fuel: nat): (r: Result<Gen, GenError>)
    requires WellFormed(g) && t in g
    ensures r.Success? ==> Assoc.Keys(memo) <= Assoc.Keys(r.value.memo)
    ensures r.Success? && Closed(memo) ==>
              Closed(r.value.memo) && PM.Refs(r.value.model) <= MemoNames(r.value.memo)
    ensures r.Success? && Assoc.UniqueKeys(memo) ==> Assoc.UniqueKeys(r.value.memo)
    decreases fuel, 0, 0
  {
    if fuel == 0 then Failure(StackOverflow)
    else
      var info := g[t];
      match Primitive(info)
      case Some(res) =>
        if res.Failure? then Failure(res.error) else Success(Gen(res.value, memo))
      case None =>
        if info.symbol.Some? && MemoHas(memo, info.symbol.value) then
          Success(Gen(PM.Reference(info.symbol.value.name), memo))
        else if info.aliasSymbol.Some? && !resolveReference then
          var inner :- Generate(g, t, true, memo, fuel - 1);
          Store(inner, info.aliasSymbol.value, memo)
        else if UnionFlag in info.flags then
          // the members as written (`origin`), so a named nested union stays a reference
          var members := info.origin.GetOr(info.types);
          var all :- GenerateList(g, members, memo, fuel - 1);
          PM.ReplaceBooleanLiteralsRefs(all.models);
          NamesGrow(memo, all.memo);
          Success(Gen(PM.ReplaceBooleanLiterals(all.models), all.memo))
        else if info.symbol.Some? && info.symbol.value.name == "Array" then
          GenerateArray(g, info, memo, fuel - 1)
        else if ObjectFlag in info.flags && info.typeNode.ArrayTypeNode? then
          GenerateArray(g, info, memo, fuel - 1)
        else if info.isClassOrInterface && !resolveReference then
          var inner :- Generate(g, t, true, memo, fuel - 1);
          Store(inner, info.symbol.value, memo)
        else if ObjectFlag in info.flags then
          var ms :- GenerateMembers(g, info.properties, memo, fuel - 1);
          Success(Gen(PM.Object(ms.members), ms.memo))
        else
          Failure(UnsupportedType(info.flags))
  }

  /** Store a synthesised named model under `s` and answer a reference to it. */
  function Store(inner: Gen, s: Syntax.Sym, memo: Memo): (r: Result<Gen, GenError>)
    requires Assoc.Keys(memo) <= Assoc.Keys(inner.memo)
    requires Closed(memo) ==> Closed(inner.memo) && PM.Refs(inner.model) <= MemoNames(inner.memo)
    requires Assoc.UniqueKeys(memo) ==> Assoc.UniqueKeys(inner.memo)
    ensures r.Success? && r.value.model == PM.Reference(s.name)
    ensures Assoc.Lookup(r.value.memo, s) == Some(inner.model)
    ensures Assoc.Keys(r.value.memo) == Assoc.Keys(inner.memo) + {s}
    ensures Closed(memo) ==> Closed(r.value.memo) && PM.Refs(r.value.model) <= MemoNames(r.value.memo)
    ensures Assoc.UniqueKeys(memo) ==> Assoc.UniqueKeys(r.value.memo)
  {
    StoreFacts(inner, s, memo);
    Success(Gen(PM.Reference(s.name), Assoc.Put(inner.memo, s, inner.model)))
  }

  lemma StoreFacts(inner: Gen, s: Syntax.Sym, memo: Memo)
    requires Closed(memo) ==> Closed(inner.memo) && PM.Refs(inner.model) <= MemoNames(inner.memo)
    requires Assoc.UniqueKeys(memo) ==> Assoc.UniqueKeys(inner.memo)
    ensures var stored := Assoc.Put(inner.memo, s, inner.model);
            && Assoc.Lookup(stored, s) == Some(inner.model)
            && (Closed(memo) ==> Closed(stored) && PM.Refs(PM.Reference(s.name)) <= MemoNames(stored))
            && (Assoc.UniqueKeys(memo) ==> Assoc.UniqueKeys(stored))
  {
    Assoc.PutLookup(inner.memo, s, inner.model, s);
    if Closed(memo) {
      StoreKeepsClosed(inner.memo, s, inner.model);
      PM.RefsOfReference(s.name);
    }
    if Assoc.UniqueKeys(memo) {
      Assoc.PutUnique(inner.memo, s, inner.model);
    }
  }

  /** An array type: its first type argument is the element; a missing one is an error. */
  function GenerateArray(g: Graph, info: TypeInfo, memo: Memo, fuel: nat): (r: Result<Gen, GenError>)
    requires WellFormed(g) && ChildrenIn(g, info)
    ensures r.Success? ==> r.value.model.Array? && Assoc.Keys(memo) <= Assoc.Keys(r.value.memo)
    ensures |info.typeArguments| == 0 ==> r == Failure(ArrayWithoutElement)
    ensures r.Success? && Closed(memo) ==>
              Closed(r.value.memo) && PM.Refs(r.value.model) <= MemoNames(r.value.memo)
    ensures r.Success? && Assoc.UniqueKeys(memo) ==> Assoc.UniqueKeys(r.value.memo)
    decreases fuel, 1, 0
  {
    if |info.typeArguments| == 0 then Failure(ArrayWithoutElement)
    else
      var element :- Generate(g, info.typeArguments[0], false, memo, fuel);
      Success(Gen(PM.Array(PM.ArrayElement(element.model)), element.memo))
  }

  /** `types.map(t => this.generate(t))`, threading the memo left to right. */
  function GenerateList(g: Graph, ids: seq<TypeId>, memo: Memo, fuel: nat): (r: Result<GenList, GenError>)
    requires WellFormed(g) && forall i :: 0 <= i < |ids| ==> ids[i] in g
    ensures r.Success? ==> |r.value.models| == |ids| && Assoc.Keys(memo) <= Assoc.Keys(r.value.memo)
    ensures r.Success? && Closed(memo) ==>
              Closed(r.value.memo) && PM.RefsSeq(r.value.models) <= MemoNames(r.value.memo)
    ensures r.Success? && Assoc.UniqueKeys(memo) ==> Assoc.UniqueKeys(r.value.memo)
    decreases fuel, 1, |ids|
  {
    if |ids| == 0 then Success(GenList([], memo))
    else
      var head :- Generate(g, ids[0], false, memo, fuel);
      var rest :- GenerateList(g, ids[1..], head.memo, fuel);
      NamesGrow(head.memo, rest.memo);
      assert ([head.model] + rest.models)[1..] == rest.models;
      Success(GenList([head.model] + rest.models, rest.memo))
  }

  /** The memo in force before each element's synthesis in `GenerateList`, while they succeed. */
  function ListMemos(g: Graph, ids: seq<TypeId>, memo: Memo, fuel: nat): (r: seq<Memo>)
    requires WellFormed(g) && forall i :: 0 <= i < |ids| ==> ids[i] in g
    ensures |r| <= |ids|
    decreases |ids|
  {
    if |ids| == 0 then []
    else match Generate(g, ids[0], false, memo, fuel)
      case Failure(_) => []
      case Success(head) => [memo] + ListMemos(g, ids[1..], head.memo, fuel)
  }

  /** `id` synthesised in memo `m` gives `model` and leaves memo `next`. */
  predicate SynthesisStep(g: Graph, id: TypeId, m: Memo, model: PM.ParserModel, next: Memo, fuel: nat)
    requires WellFormed(g) && id in g
  {
    Generate(g, id, false, m, fuel) == Success(Gen(model, next))
  }

  /**
   * `models` is the synthesis of `ids` in order: element `i` is synthesised in memo
   * `memos[i]`, which is the memo left by element `i - 1`; `final` is the memo left
   * by the last element.
   */
  predicate ListTrace(g: Graph, ids: seq<TypeId>, memos: seq<Memo>, models: seq<PM.ParserModel>, final: Memo, fuel: nat)
    requires WellFormed(g) && forall i :: 0 <= i < |ids| ==> ids[i] in g
  {
    && |memos| == |ids| && |models| == |ids|
    && forall i {:trigger models[i]} :: 0 <= i < |ids| ==>
         SynthesisStep(g, ids[i], memos[i], models[i], if i + 1 < |ids| then memos[i + 1] else final, fuel)
  }

  lemma ListTraceCons(g: Graph, ids: seq<TypeId>, m: Memo, memos: seq<Memo>, model: PM.ParserModel,
                      models: seq<PM.ParserModel>, final: Memo, fuel: nat)
    requires WellFormed(g) && |ids| > 0 && forall i :: 0 <= i < |ids| ==> ids[i] in g
    requires ListTrace(g, ids[1..], memos, models, final, fuel)
    requires SynthesisStep(g, ids[0], m, model, if |ids| > 1 then memos[0] else final, fuel)
    ensures ListTrace(g, ids, [m] + memos, [model] + models, final, fuel)
  {
    var ms, mods := [m] + memos, [model] + models;
    forall i | 1 <= i < |ids|
      ensures SynthesisStep(g, ids[i], ms[i], mods[i], if i + 1 < |ids| then ms[i + 1] else final, fuel)
    {
      var j := i - 1;
      assert ids[i] == ids[1..][j] && ms[i] == memos[j] && mods[i] == models[j];
      assert (if i + 1 < |ids| then ms[i + 1] else final) == (if j + 1 < |ids[1..]| then memos[j + 1] else final);
      assert SynthesisStep(g, ids[1..][j], memos[j], models[j], if j + 1 < |ids[1..]| then memos[j + 1] else final, fuel);
    }
  }

  /**
   * Model `i` of a list is the synthesis of element `i` in the memo left by the
   * elements before it; the list's memo is the one left by the last element.
   */
  lemma {:induction false} GenerateListElementwise(g: Graph, ids: seq<TypeId>, memo: Memo, fuel: nat)
    requires WellFormed(g) && forall i :: 0 <= i < |ids| ==> ids[i] in g
    requires GenerateList(g, ids, memo, fuel).Success?
    ensures var r := GenerateList(g, ids, memo, fuel).value;
            && ListTrace(g, ids, ListMemos(g, ids, memo, fuel), r.models, r.memo, fuel)
            && (|ids| == 0 ==> r.memo == memo)
            && (|ids| > 0 ==> ListMemos(g, ids, memo, fuel)[0] == memo)
    decreases |ids|
  {
    if |ids| > 0 {
      var head := Generate(g, ids[0], false, memo, fuel).value;
      var rest := GenerateList(g, ids[1..], head.memo, fuel).value;
      var r := GenerateList(g, ids, memo, fuel).value;
      assert r == GenList([head.model] + rest.models, rest.memo);
      GenerateListElementwise(g, ids[1..], head.memo, fuel);
      var ms' := ListMemos(g, ids[1..], head.memo, fuel);
      assert ListMemos(g, ids, memo, fuel) == [memo] + ms';
      ListTraceCons(g, ids, memo, ms', head.model, rest.models, rest.memo, fuel);
    }
  }

  /**
   * The members of an object type: one per property, in property order, carrying the
   * property's name and Optional flag; an optional member's model is unwrapped.
   */
  function GenerateMembers(g: Graph, props: seq<Property>, memo: Memo, fuel: nat): (r: Result<GenMembers, GenError>)
    requires WellFormed(g) && forall i :: 0 <= i < |props| ==> props[i].propType in g
    ensures r.Success? ==> |r.value.members| == |props| && Assoc.Keys(memo) <= Assoc.Keys(r.value.memo)
    ensures r.Success? ==> forall i :: 0 <= i < |props| ==>
              r.value.members[i].name == props[i].name && r.value.members[i].optional == props[i].isOptional
    ensures r.Success? && Closed(memo) ==>
              Closed(r.value.memo) && PM.MemberRefs(r.value.members) <= MemoNames(r.value.memo)
    ensures r.Success? && Assoc.UniqueKeys(memo) ==> Assoc.UniqueKeys(r.value.memo)
    decreases fuel, 1, |props|
  {
    if |props| == 0 then Success(GenMembers([], memo))
    else
      var p := props[0];
      var gen :- Generate(g, p.propType, false, memo, fuel);
      var parser := if p.isOptional then PM.RemoveUndefinedFromUnion(gen.model) else gen.model;
      var rest :- GenerateMembers(g, props[1..], gen.memo, fuel);
      PM.RemoveUndefinedRefs(gen.model);
      NamesGrow(gen.memo, rest.memo);
      var members := [PM.Member(p.name, p.isOptional, parser)] + rest.members;
      assert members[1..] == rest.members;
      Success(GenMembers(members, rest.memo))
  }

  /**
   * `generateParserModel`: synthesise the root model of the (already inferred) return
   * type with a fresh memo, then key every stored model by its symbol's name.
   * Every reference in the result resolves within `deps`, and `deps` has one entry per name.
   */
  function GenerateParserModel(g: Graph, returnType: TypeId, fuel: nat): (r: Result<ParserModelMap, GenError>)
    requires WellFormed(g) && returnType in g
    ensures r.Success? <==> Generate(g, returnType, false, [], fuel).Success?
    ensures r.Success? ==> r.value.root == Generate(g, returnType, false, [], fuel).value.model
    ensures r.Success? ==> forall n :: Assoc.Lookup(r.value.deps, n) == LastNamed(Generate(g, returnType, false, [], fuel).value.memo, n)
    ensures r.Success? ==> PM.Refs(r.value.root) <= Assoc.Keys(r.value.deps)
    ensures r.Success? ==> forall i :: 0 <= i < |r.value.deps| ==> PM.Refs(r.value.deps[i].1) <= Assoc.Keys(r.value.deps)
    ensures r.Success? ==> Assoc.UniqueKeys(r.value.deps)
  {
    var gen :- Generate(g, returnType, false, [], fuel);
    var deps := Deps(gen.memo);
    DepsKeys([], gen.memo);
    DepsValuesClosed([], gen.memo, MemoNames(gen.memo));
    DepsUnique([], gen.memo);
    DepsLookupIsLastNamed(gen.memo);
    Success(ParserModelMap(gen.model, deps))
  }

  /** The left fold of `reduce`: each entry is spread into the record under its symbol's name. */
  function DepsFrom(acc: seq<(string, PM.ParserModel)>, entries: Memo): seq<(string, PM.ParserModel)>
    decreases |entries|
  {
    if |entries| == 0 then acc
    else DepsFrom(Assoc.Put(acc, entries[0].0.name, entries[0].1), entries[1..])
  }

  /** `deps`: one entry per stored name, the names of the stored symbols and no others. */
  function Deps(memo: Memo): (r: seq<(string, PM.ParserModel)>)
    ensures Assoc.Keys(r) == MemoNames(memo)
    ensures Assoc.UniqueKeys(r)
  {
    DepsKeys([], memo);
    DepsUnique([], memo);
    assert Assoc.Keys<string, PM.ParserModel>([]) == {};
    DepsFrom([], memo)
  }

  lemma MemoNamesSplit(entries: Memo)
    requires |entries| > 0
    ensures MemoNames(entries) == {entries[0].0.name} + MemoNames(entries[1..])
  {
    Assoc.KeysSplit(entries);
  }

  /** The keys of `deps` are exactly the names of the stored symbols. */
  lemma {:induction false} DepsKeys(acc: seq<(string, PM.ParserModel)>, entries: Memo)
    ensures Assoc.Keys(DepsFrom(acc, entries)) == Assoc.Keys(acc) + MemoNames(entries)
    decreases |entries|
  {
    if |entries| > 0 {
      MemoNamesSplit(entries);
      DepsKeys(Assoc.Put(acc, entries[0].0.name, entries[0].1), entries[1..]);
    }
  }

  /** Every value of `deps` is a stored model, so it references only what stored models reference. */
  lemma {:induction false} DepsValuesClosed(acc: seq<(string, PM.ParserModel)>, entries: Memo, names: set<string>)
    requires forall i :: 0 <= i < |acc| ==> PM.Refs(acc[i].1) <= names
    requires forall i :: 0 <= i < |entries| ==> PM.Refs(entries[i].1) <= names
    ensures forall i :: 0 <= i < |DepsFrom(acc, entries)| ==> PM.Refs(DepsFrom(acc, entries)[i].1) <= names
    decreases |entries|
  {
    if |entries| > 0 {
      var next := Assoc.Put(acc, entries[0].0.name, entries[0].1);
      forall i | 0 <= i < |next|
        ensures PM.Refs(next[i].1) <= names
      {
        if next[i] != (entries[0].0.name, entries[0].1) {
          var j :| 0 <= j < |acc| && acc[j] == next[i];
        }
      }
      DepsValuesClosed(next, entries[1..], names);
    }
  }

  lemma {:induction false} DepsUnique(acc: seq<(string, PM.ParserModel)>, entries: Memo)
    requires Assoc.UniqueKeys(acc)
    ensures Assoc.UniqueKeys(DepsFrom(acc, entries))
    decreases |entries|
  {
    if |entries| > 0 {
      Assoc.PutUnique(acc, entries[0].0.name, entries[0].1);
      DepsUnique(Assoc.Put(acc, entries[0].0.name, entries[0].1), entries[1..]);
    }
  }

  /**
   * The value stored last under a symbol named `n`, in the memo's insertion order:
   * the reference definition for the lookup of `n` in `deps`.
   */
  function LastNamed(entries: Memo, n: string): (r: Option<PM.ParserModel>)
    ensures r.Some? <==> n in MemoNames(entries)
    ensures r.Some? ==> exists i :: 0 <= i < |entries| && entries[i].0.name == n && entries[i].1 == r.value &&
                                   forall j :: i < j < |entries| ==> entries[j].0.name != n
    decreases |entries|
  {
    if |entries| == 0 then None
    else
      var rest := LastNamed(entries[1..], n);
      MemoNamesSplit(entries);
      if rest.Some? then
        var i :| 0 <= i < |entries[1..]| && entries[1..][i].0.name == n && entries[1..][i].1 == rest.value &&
                 forall j :: i < j < |entries[1..]| ==> entries[1..][j].0.name != n;
        assert entries[i + 1] == entries[1..][i];
        assert forall j :: i + 1 < j < |entries| ==> entries[j] == entries[1..][j - 1];
        rest
      else if entries[0].0.name == n then
        assert forall j :: 0 < j < |entries| ==> entries[j] == entries[1..][j - 1];
        Some(entries[0].1)
      else None
  }

  lemma {:induction false} DepsFromLookup(acc: seq<(string, PM.ParserModel)>, entries: Memo, n: string)
    ensures Assoc.Lookup(DepsFrom(acc, entries), n) ==
              match LastNamed(entries, n)
              case Some(v) => Some(v)
              case None => Assoc.Lookup(acc, n)
    decreases |entries|
  {
    if |entries| > 0 {
      Assoc.PutLookup(acc, entries[0].0.name, entries[0].1, n);
      DepsFromLookup(Assoc.Put(acc, entries[0].0.name, entries[0].1), entries[1..], n);
    }
  }

  /** Looking a name up in `deps` finds the model stored last under that name. */
  lemma DepsLookupIsLastNamed(memo: Memo)
    ensures forall n :: Assoc.Lookup(Deps(memo), n) == LastNamed(memo, n)
  {
    forall n
      ensures Assoc.Lookup(Deps(memo), n) == LastNamed(memo, n)
    {
      DepsFromLookup([], memo, n);
    }
  }
}

=== FILE: parser_model.dfy ===
/**
 * The parser model: a closed description of how to validate a runtime value
 * against a type, together with the two pure rewrites the generator applies to it —
 * the boolean-literal union normaliser and the optional-member unwrap.
 */
module ParserModels {
  import opened Wrappers
  import Seqs

  datatype ParserModel =
    | String
    | Number
    | Boolean
    | StringLiteral(stringValue: string)
    | NumberLiteral(numberValue: int)   // a JavaScript number; modelled as an integer payload
    | BooleanLiteral(booleanValue: bool)
    | Undefined
    | Null
    | Array(element: ArrayElement)
    | Object(members: seq<Member>)
    | Union(oneOf: seq<ParserModel>)
    | Reference(typeName: string)

  datatype ArrayElement = ArrayElement(parser: ParserModel)

  datatype Member = Member(name: string, optional: bool, parser: ParserModel)

  predicate IsTrueLiteral(p: ParserModel) {
    p.BooleanLiteral? && p.booleanValue
  }

  predicate IsFalseLiteral(p: ParserModel) {
    p.BooleanLiteral? && !p.booleanValue
  }

  predicate IsUndefined(p: ParserModel) {
    p.Undefined?
  }

  predicate HasTrueLiteral(oneOf: seq<ParserModel>) {
    exists i :: 0 <= i < |oneOf| && IsTrueLiteral(oneOf[i])
  }

  predicate HasFalseLiteral(oneOf: seq<ParserModel>) {
    exists i :: 0 <= i < |oneOf| && IsFalseLiteral(oneOf[i])
  }

  predicate HasUndefined(oneOf: seq<ParserModel>) {
    exists i :: 0 <= i < |oneOf| && IsUndefined(oneOf[i])
  }

  /** The union members other than the first `true` and the first `false` literal, in order. */
  function WithoutBooleanPair(oneOf: seq<ParserModel>): seq<ParserModel> {
    Seqs.DropFirst(Seqs.DropFirst(oneOf, IsTrueLiteral), IsFalseLiteral)
  }

  /**
   * The union normaliser: a union holding both boolean literals becomes `Boolean`
   * (when they are its only members) or a union of the other members followed by one
   * `Boolean`. The literals are located with `find` and removed by identity, which
   * here is removal at the index of the first match.
   */
  function ReplaceBooleanLiterals(oneOf: seq<ParserModel>): (r: ParserModel)
    ensures !(HasTrueLiteral(oneOf) && HasFalseLiteral(oneOf)) ==> r == Union(oneOf)
    ensures HasTrueLiteral(oneOf) && HasFalseLiteral(oneOf) && |oneOf| == 2 ==> r == Boolean
    ensures HasTrueLiteral(oneOf) && HasFalseLiteral(oneOf) && |oneOf| != 2 ==>
              r == Union(WithoutBooleanPair(oneOf) + [Boolean])
  {
    match (Seqs.FirstMatch(oneOf, IsTrueLiteral), Seqs.FirstMatch(oneOf, IsFalseLiteral))
    case (Some(t), Some(f)) =>
      if |oneOf| == 2 then Boolean
      else
        RemovePairIsWithoutBooleanPair(oneOf, t, f);
        var hi := if t < f then f else t;
        var lo := if t < f then t else f;
        Union(Seqs.RemoveAt(Seqs.RemoveAt(oneOf, hi), lo) + [Boolean])
    case _ => Union(oneOf)
  }

  lemma RemovePairIsWithoutBooleanPair(oneOf: seq<ParserModel>, t: nat, f: nat)
    requires Seqs.FirstMatch(oneOf, IsTrueLiteral) == Some(t)
    requires Seqs.FirstMatch(oneOf, IsFalseLiteral) == Some(f)
    ensures t != f
    ensures var hi := if t < f then f else t;
            var lo := if t < f then t else f;
            Seqs.RemoveAt(Seqs.RemoveAt(oneOf, hi), lo) == WithoutBooleanPair(oneOf)
  {
    Seqs.DropFirstTwice(oneOf, IsTrueLiteral, IsFalseLiteral, t, f);
  }

  /**
   * The optional-member unwrap: only a top-level union is touched; its first
   * `Undefined` member is removed, and a single survivor is returned bare.
   */
  function RemoveUndefinedFromUnion(parser: ParserModel): (r: ParserModel)
    ensures !parser.Union? ==> r == parser
    ensures parser.Union? && !HasUndefined(parser.oneOf) ==> r == parser
    ensures parser.Union? && HasUndefined(parser.oneOf) ==>
              var others := Seqs.DropFirst(parser.oneOf, IsUndefined);
              r == if |others| == 1 then others[0] else Union(others)
  {
    if parser.Union? then
      match Seqs.FirstMatch(parser.oneOf, IsUndefined)
      case Some(u) =>
        Seqs.RemoveFirstMatchIsDropFirst(parser.oneOf, IsUndefined);
        var otherParsers := Seqs.RemoveAt(parser.oneOf, u);
        if |otherParsers| == 1 then otherParsers[0] else Union(otherParsers)
      case None => parser
    else parser
  }

  /** The union normaliser applied to any model: non-unions are left alone. */
  function Normalize(m: ParserModel): ParserModel {
    if m.Union? then ReplaceBooleanLiterals(m.oneOf) else m
  }

  /** Names referenced anywhere inside a model. */
  function Refs(m: ParserModel): set<string> {
    match m
    case Array(e) => ElementRefs(e)
    case Object(ms) => MemberRefs(ms)
    case Union(ps) => RefsSeq(ps)
    case Reference(n) => {n}
    case _ => {}
  }

  function ElementRefs(e: ArrayElement): set<string> {
    Refs(e.parser)
  }

  function RefsSeq(ps: seq<ParserModel>): set<string> {
    if |ps| == 0 then {} else Refs(ps[0]) + RefsSeq(ps[1..])
  }

  function MemberRefs(ms: seq<Member>): set<string> {
    if |ms| == 0 then {} else MemberRef(ms[0]) + MemberRefs(ms[1..])
  }

  function MemberRef(m: Member): set<string> {
    Refs(m.parser)
  }

  /**
   * The normaliser is idempotent on unions that hold at most one `true` and at most
   * one `false` literal (the shape the type checker produces).
   */
  lemma NormalizeIdempotent(oneOf: seq<ParserModel>)
    requires Seqs.Count(oneOf, IsTrueLiteral) <= 1 && Seqs.Count(oneOf, IsFalseLiteral) <= 1
    ensures Normalize(Normalize(Union(oneOf))) == Normalize(Union(oneOf))
  {
    if HasTrueLiteral(oneOf) && HasFalseLiteral(oneOf) && |oneOf| != 2 {
      var once := Seqs.DropFirst(oneOf, IsTrueLiteral);
      var w := WithoutBooleanPair(oneOf);
      Seqs.DropFirstCount(oneOf, IsTrueLiteral, IsFalseLiteral);
      Seqs.CountPositive(oneOf, IsFalseLiteral);
      Seqs.CountPositive(oneOf, IsTrueLiteral);
      Seqs.CountPositive(once, IsFalseLiteral);
      assert Seqs.Count(once, IsFalseLiteral) > 0 by {
        Seqs.DropFirstCount(oneOf, IsTrueLiteral, IsFalseLiteral);
        CountFalseAfterDroppingTrue(oneOf);
      }
      Seqs.DropFirstCount(once, IsFalseLiteral, IsTrueLiteral);
      Seqs.CountAppend(w, [Boolean], IsTrueLiteral);
      Seqs.CountPositive(w + [Boolean], IsTrueLiteral);
      assert !HasTrueLiteral(w + [Boolean]);
    }
  }

  lemma {:induction false} CountFalseAfterDroppingTrue(s: seq<ParserModel>)
    ensures Seqs.Count(Seqs.DropFirst(s, IsTrueLiteral), IsFalseLiteral) == Seqs.Count(s, IsFalseLiteral)
  {
    if |s| > 0 && !IsTrueLiteral(s[0]) {
      CountFalseAfterDroppingTrue(s[1..]);
      assert Seqs.DropFirst(s, IsTrueLiteral)[1..] == Seqs.DropFirst(s[1..], IsTrueLiteral);
    }
  }

  /**
   * Without that shape idempotence fails: a union repeating both literals keeps a
   * pair after the first pass, and the second pass turns it into a second `Boolean`.
   */
  lemma NormalizeNotIdempotentOnRepeatedLiterals()
    ensures var u := [BooleanLiteral(true), BooleanLiteral(false), BooleanLiteral(true), BooleanLiteral(false)];
            Normalize(Union(u)) == Union([BooleanLiteral(true), BooleanLiteral(false), Boolean])
            && Normalize(Normalize(Union(u))) == Union([Boolean, Boolean])
  {
    NormalizeRepeatedFirstPass();
    NormalizeRepeatedSecondPass();
  }

  lemma NormalizeRepeatedFirstPass()
    ensures var t, f := BooleanLiteral(true), BooleanLiteral(false);
            ReplaceBooleanLiterals([t, f, t, f]) == Union([t, f, Boolean])
  {
    var t, f := BooleanLiteral(true), BooleanLiteral(false);
    var u := [t, f, t, f];
    assert IsTrueLiteral(u[0]) && IsFalseLiteral(u[1]);
    assert Seqs.DropFirst(u, IsTrueLiteral) == [f, t, f];
    assert Seqs.DropFirst([f, t, f], IsFalseLiteral) == [t, f];
    assert WithoutBooleanPair(u) == [t, f];
    assert [t, f] + [Boolean] == [t, f, Boolean];
  }

  lemma NormalizeRepeatedSecondPass()
    ensures ReplaceBooleanLiterals([BooleanLiteral(true), BooleanLiteral(false), Boolean]) == Union([Boolean, Boolean])
  {
    var t, f := BooleanLiteral(true), BooleanLiteral(false);
    var v := [t, f, Boolean];
    assert IsTrueLiteral(v[0]) && IsFalseLiteral(v[1]);
    assert Seqs.DropFirst(v, IsTrueLiteral) == [f, Boolean];
    assert Seqs.DropFirst([f, Boolean], IsFalseLiteral) == [Boolean];
    assert WithoutBooleanPair(v) == [Boolean];
    assert [Boolean] + [Boolean] == [Boolean, Boolean];
  }

  /** The unwrap removes exactly one `Undefined` member of a union and keeps all others. */
  lemma RemoveUndefinedRemovesExactlyOne(oneOf: seq<ParserModel>)
    requires HasUndefined(oneOf)
    ensures var others := Seqs.DropFirst(oneOf, IsUndefined);
            |others| == |oneOf| - 1
            && Seqs.Count(others, IsUndefined) == Seqs.Count(oneOf, IsUndefined) - 1
            && (|others| == 1 ==> RemoveUndefinedFromUnion(Union(oneOf)) == others[0])
            && (|others| != 1 ==> RemoveUndefinedFromUnion(Union(oneOf)) == Union(others))
  {
    Seqs.DropFirstCount(oneOf, IsUndefined, IsUndefined);
  }

  lemma {:induction false} RefsSeqAppend(a: seq<ParserModel>, b: seq<ParserModel>)
    ensures RefsSeq(a + b) == RefsSeq(a) + RefsSeq(b)
  {
    if |a| > 0 {
      assert (a + b)[1..] == a[1..] + b;
      RefsSeqAppend(a[1..], b);
    } else {
      assert a + b == b;
    }
  }

  lemma {:induction false} RefsDropFirst(s: seq<ParserModel>, p: ParserModel -> bool)
    ensures RefsSeq(Seqs.DropFirst(s, p)) <= RefsSeq(s)
  {
    if |s| > 0 && !p(s[0]) {
      RefsDropFirst(s[1..], p);
      assert Seqs.DropFirst(s, p)[1..] == Seqs.DropFirst(s[1..], p);
    }
  }

  lemma RefsSeqMember(s: seq<ParserModel>, i: nat)
    requires i < |s|
    ensures Refs(s[i]) <= RefsSeq(s)
  {
    if i > 0 {
      RefsSeqMember(s[1..], i - 1);
    }
  }

  /** The normaliser introduces no reference that its input union did not hold. */
  lemma ReplaceBooleanLiteralsRefs(oneOf: seq<ParserModel>)
    ensures Refs(ReplaceBooleanLiterals(oneOf)) <= RefsSeq(oneOf)
  {
    var w := WithoutBooleanPair(oneOf);
    RefsDropFirst(oneOf, IsTrueLiteral);
    RefsDropFirst(Seqs.DropFirst(oneOf, IsTrueLiteral), IsFalseLiteral);
    RefsSeqAppend(w, [Boolean]);
  }

  /** The unwrap introduces no reference that its input did not hold. */
  lemma RemoveUndefinedRefs(p: ParserModel)
    ensures Refs(RemoveUndefinedFromUnion(p)) <= Refs(p)
  {
    if p.Union? && HasUndefined(p.oneOf) {
      var others := Seqs.DropFirst(p.oneOf, IsUndefined);
      RefsDropFirst(p.oneOf, IsUndefined);
      if |others| == 1 {
        RefsSeqMember(others, 0);
      }
    }
  }

  lemma RefsOfReference(n: string)
    ensures Refs(Reference(n)) == {n}
  {
  }
}

=== FILE: seqs.dfy ===
/**
 * Sequence helpers. `Array.prototype.find` followed by removal of the found element
 * by identity, as `replaceBooleanLiteralsWithBooleanType` and
 * `removeUndefinedFromUnionParser` do it with union members, is "remove the element
 * at the index of the first match"; `Array.prototype.map` is `Map`.
 */
module Seqs {
  import opened Wrappers

  /** `Array.prototype.map`. */
  function Map<T, U>(s: seq<T>, f: T -> U): (r: seq<U>)
    ensures |r| == |s| && forall i :: 0 <= i < |s| ==> r[i] == f(s[i])
  {
    seq(|s|, i requires 0 <= i < |s| => f(s[i]))
  }

  /** Index of the first element satisfying `p` (JavaScript `findIndex`, `None` for -1). */
  function FirstMatch<T>(s: seq<T>, p: T -> bool): (r: Option<nat>)
    ensures r.Some? ==> r.value < |s| && p(s[r.value])
    ensures r.Some? ==> forall j :: 0 <= j < r.value ==> !p(s[j])
    ensures r.None? <==> forall j :: 0 <= j < |s| ==> !p(s[j])
  {
    if |s| == 0 then None
    else if p(s[0]) then Some(0)
    else match FirstMatch(s[1..], p)
      case None => None
      case Some(k) => Some(k + 1)
  }

  /** The sequence without the element at index `i`, others in order. */
  function RemoveAt<T>(s: seq<T>, i: nat): (r: seq<T>)
    requires i < |s|
    ensures |r| == |s| - 1
    ensures forall j :: 0 <= j < i ==> r[j] == s[j]
    ensures forall j :: i <= j < |r| ==> r[j] == s[j + 1]
  {
    s[..i] + s[i + 1..]
  }

  /** Reference definition: drop the first element satisfying `p`, keep everything else in order. */
  function DropFirst<T>(s: seq<T>, p: T -> bool): seq<T>
  {
    if |s| == 0 then []
    else if p(s[0]) then s[1..]
    else [s[0]] + DropFirst(s[1..], p)
  }

  /** Number of elements satisfying `p`. */
  function Count<T>(s: seq<T>, p: T -> bool): nat
  {
    if |s| == 0 then 0
    else (if p(s[0]) then 1 else 0) + Count(s[1..], p)
  }

  /** Removing at the first match's index is the reference `DropFirst`; no match leaves the sequence as it is. */
  lemma {:induction false} RemoveFirstMatchIsDropFirst<T>(s: seq<T>, p: T -> bool)
    ensures FirstMatch(s, p).Some? ==> RemoveAt(s, FirstMatch(s, p).value) == DropFirst(s, p)
    ensures FirstMatch(s, p).None? ==> DropFirst(s, p) == s
  {
    if |s| > 0 {
      var tail := s[1..];
      if p(s[0]) {
        assert RemoveAt(s, 0) == tail;
      } else {
        RemoveFirstMatchIsDropFirst(tail, p);
        assert DropFirst(s, p) == [s[0]] + DropFirst(tail, p);
        var m := FirstMatch(tail, p);
        if m.Some? {
          var k := m.value;
          assert FirstMatch(s, p) == Some(k + 1);
          RemoveAtCons(s, k);
        } else {
          assert FirstMatch(s, p).None?;
          assert s == [s[0]] + tail;
        }
      }
    }
  }

  lemma RemoveAtCons<T>(s: seq<T>, k: nat)
    requires k + 1 < |s|
    ensures RemoveAt(s, k + 1) == [s[0]] + RemoveAt(s[1..], k)
  {
    var a := RemoveAt(s, k + 1);
    var b := [s[0]] + RemoveAt(s[1..], k);
    assert |a| == |b|;
    forall j | 0 <= j < |a|
      ensures a[j] == b[j]
    {
      if j > 0 {
        assert b[j] == RemoveAt(s[1..], k)[j - 1];
      }
    }
  }

  /** `FirstMatch` is determined by its characterisation. */
  lemma FirstMatchAt<T>(s: seq<T>, p: T -> bool, k: nat)
    requires k < |s| && p(s[k])
    requires forall j :: 0 <= j < k ==> !p(s[j])
    ensures FirstMatch(s, p) == Some(k)
  {
  }

  /** Dropping the first match removes exactly one matching element and nothing else. */
  lemma {:induction false} DropFirstCount<T>(s: seq<T>, p: T -> bool, q: T -> bool)
    requires exists i :: 0 <= i < |s| && p(s[i])
    ensures |DropFirst(s, p)| == |s| - 1
    ensures Count(DropFirst(s, p), p) == Count(s, p) - 1
    ensures Count(DropFirst(s, p), q) <= Count(s, q)
  {
    if !p(s[0]) {
      var i :| 0 <= i < |s| && p(s[i]);
      assert s[1..][i - 1] == s[i];
      DropFirstCount(s[1..], p, q);
      assert DropFirst(s, p)[1..] == DropFirst(s[1..], p);
    }
  }

  /** `Count` is positive exactly when some element matches. */
  lemma {:induction false} CountPositive<T>(s: seq<T>, p: T -> bool)
    ensures Count(s, p) > 0 <==> exists i :: 0 <= i < |s| && p(s[i])
  {
    if |s| > 0 {
      CountPositive(s[1..], p);
      if Count(s[1..], p) > 0 {
        var i :| 0 <= i < |s| - 1 && p(s[1..][i]);
        assert p(s[i + 1]);
      }
      if !p(s[0]) && (exists i :: 0 <= i < |s| && p(s[i])) {
        var i :| 0 <= i < |s| && p(s[i]);
        assert s[1..][i - 1] == s[i];
      }
    }
  }

  /** Counting over a concatenation. */
  lemma {:induction false} CountAppend<T>(s: seq<T>, t: seq<T>, p: T -> bool)
    ensures Count(s + t, p) == Count(s, p) + Count(t, p)
  {
    if |s| > 0 {
      assert (s + t)[1..] == s[1..] + t;
      CountAppend(s[1..], t, p);
    } else {
      assert s + t == t;
    }
  }

  /** Removing two positions in either order gives the same sequence. */
  lemma RemoveTwoCommutes<T>(s: seq<T>, i: nat, k: nat)
    requires i < k < |s|
    ensures RemoveAt(RemoveAt(s, k), i) == RemoveAt(RemoveAt(s, i), k - 1)
  {
    var a := RemoveAt(RemoveAt(s, k), i);
    var b := RemoveAt(RemoveAt(s, i), k - 1);
    forall j | 0 <= j < |a|
      ensures a[j] == b[j]
    {
    }
  }

  /** The first match survives the removal of another position, shifted left when it lay after it. */
  lemma FirstMatchAfterRemove<T>(s: seq<T>, q: T -> bool, i: nat, k: nat)
    requires i < |s|
    requires FirstMatch(s, q) == Some(k)
    requires i != k
    ensures FirstMatch(RemoveAt(s, i), q) == Some(if k < i then k else k - 1)
  {
    var once := RemoveAt(s, i);
    var k' := if k < i then k else k - 1;
    assert once[k'] == s[k];
    forall j | 0 <= j < k'
      ensures !q(once[j])
    {
      if j < i {
        assert once[j] == s[j];
      } else {
        assert once[j] == s[j + 1];
      }
    }
    FirstMatchAt(once, q, k');
  }

  /** Dropping the first `p` and then the first `q` removes exactly their two first-match positions. */
  lemma DropFirstTwice<T>(s: seq<T>, p: T -> bool, q: T -> bool, i: nat, k: nat)
    requires FirstMatch(s, p) == Some(i)
    requires FirstMatch(s, q) == Some(k)
    requires i != k
    ensures var hi := if i < k then k else i;
            var lo := if i < k then i else k;
            DropFirst(DropFirst(s, p), q) == RemoveAt(RemoveAt(s, hi), lo)
  {
    RemoveFirstMatchIsDropFirst(s, p);
    var once := RemoveAt(s, i);
    FirstMatchAfterRemove(s, q, i, k);
    RemoveFirstMatchIsDropFirst(once, q);
    if i < k {
      RemoveTwoCommutes(s, i, k);
    }
  }
}

=== FILE: syntax.dfy ===
/**
 * The parts of the TypeScript syntax tree and checker answers that the core reads.
 * Checker queries (`getTypeFromTypeNode`, `getSymbolAtLocation`, `isExternalTypeNode`)
 * are recorded on the nodes they are asked about; declarations of a symbol are looked
 * up in a `Program`.
 */
module Syntax {
  import opened Wrappers

  /** A checker symbol: `id` is its identity, `name` its (not necessarily unique) name. */
  datatype Sym = Sym(id: nat, name: string)

  /** `A` or the left-nested `A.B.C`. */
  datatype EntityName = Identifier(text: string) | QualifiedName(left: EntityName, right: string)

  /** What the checker answers about a type-reference node. */
  datatype RefInfo = RefInfo(
    external: bool,           // isExternalTypeNode: a reference into a library
    aliasSymbol: Option<Sym>, // aliasSymbol of the referenced type
    symbol: Option<Sym>,      // symbol of the referenced type
    nameSymbol: Option<Sym>)  // symbol bound to the reference's type name

  datatype KeywordKind =
    | StringKeyword | NumberKeyword | BooleanKeyword | AnyKeyword | UnknownKeyword
    | UndefinedKeyword | VoidKeyword | NeverKeyword | ObjectKeyword | OtherKeyword

  datatype LiteralKind = TrueLiteral | FalseLiteral | NullLiteral | StringLiteral(value: string) | NumericLiteral(n: int)

  datatype TypeNode =
    | TypeReference(typeName: EntityName, typeArguments: seq<TypeNode>, info: RefInfo)
    | TypeLiteral(members: seq<TypeElement>)
    | UnionType(types: seq<TypeNode>)
    | IntersectionType(types: seq<TypeNode>)
    | ArrayType(elementType: TypeNode)
      /** A type in an `extends` clause; `heritageSymbol` is the symbol of the type it denotes. */
    | ExpressionWithTypeArguments(expression: EntityName, typeArguments: seq<TypeNode>, heritageSymbol: Option<Sym>)
    | IndexedAccessType(objectType: TypeNode, indexType: TypeNode)
    | TupleType(elements: seq<TypeNode>)
    | KeywordType(keyword: KeywordKind)
    | LiteralType(literal: LiteralKind)
      /** Function, mapped, conditional and every other type node kind. */
    | OtherTypeNode(kind: string, children: seq<TypeNode>)

  datatype TypeElement =
    | PropertySignature(name: string, questionToken: bool, memberType: Option<TypeNode>)
    | IndexSignature(memberType: Option<TypeNode>)
    | MethodSignature(name: string)

  /** An `extends` or `implements` clause. */
  datatype HeritageClause = HeritageClause(types: seq<TypeNode>)

  datatype Decl =
    | InterfaceDeclaration(name: string, members: seq<TypeElement>, heritageClauses: seq<HeritageClause>, typeParameters: seq<Decl>)
    | TypeAliasDeclaration(name: string, aliasedType: TypeNode, typeParameters: seq<Decl>)
    | EnumDeclaration(name: string, enumMembers: seq<string>)
    | EnumMember(name: string, parent: Decl)
    | TypeParameterDeclaration(name: string, constraint: Option<TypeNode>, defaultType: Option<TypeNode>)
    | ImportSpecifier(name: string)
      /** Classes, functions, variables and every other declaration kind. */
    | OtherDeclaration(name: string, kind: string)

  /** The checker's view of the program: each symbol's declarations, and which declarations live in libraries. */
  datatype Program = Program(declarations: map<Sym, seq<Decl>>, externalDeclarations: set<Decl>)

  /** `symbol.declarations ?? []`. */
  function DeclarationsOf(p: Program, s: Sym): seq<Decl> {
    if s in p.declarations then p.declarations[s] else []
  }

  /** `aliasSymbol ?? symbol`. */
  function ResolvedSymbol(info: RefInfo): Option<Sym> {
    if info.aliasSymbol.Some? then info.aliasSymbol else info.symbol
  }

  /** The source text of an entity name: `A`, or `A.B.C` for a qualified name. */
  function NameText(e: EntityName): string {
    match e
    case Identifier(text) => text
    case QualifiedName(left, right) => NameText(left) + "." + right
  }
}

=== FILE: type_graph.dfy ===
/**
 * The checker's `Type` objects as the parser-model generator sees them. Types refer
 * to each other by id, so the graph may be cyclic, as the checker's types are.
 */
module TypeGraph {
  import opened Wrappers
  import opened Syntax

  type TypeId = nat

  /** The `ts.TypeFlags` the generator distinguishes. */
  datatype TypeFlag =
    | AnyFlag | UnknownFlag | StringFlag | NumberFlag | BooleanFlag | EnumFlag
    | StringLiteralFlag | NumberLiteralFlag | BooleanLiteralFlag | EnumLiteralFlag
    | VoidFlag | UndefinedFlag | NullFlag | NeverFlag | TypeParameterFlag
    | ObjectFlag | UnionFlag | IntersectionFlag

  /** The keyword inside a literal type node. */
  datatype LiteralKeyword = TrueKeyword | FalseKeyword | UndefinedKeyword | NullKeyword | OtherLiteralKeyword

  /** What `typeToTypeNode` builds for a type, as far as the generator inspects it. */
  datatype NodeShape = NoTypeNode | LiteralTypeNode(literal: LiteralKeyword) | ArrayTypeNode | OtherShape

  /** A property symbol of an object type: its name, its Optional flag and its type. */
  datatype Property = Property(name: string, isOptional: bool, propType: TypeId)

  datatype TypeInfo = TypeInfo(
    flags: set<TypeFlag>,
    typeNode: NodeShape,
    stringValue: string,         // `value` of a string literal type
    numberValue: int,            // `value` of a number literal type
    symbol: Option<Sym>,
    aliasSymbol: Option<Sym>,
    isClassOrInterface: bool,
    types: seq<TypeId>,          // members of a union, flattened
    origin: Option<seq<TypeId>>, // members of a union as written, when the checker kept them
    typeArguments: seq<TypeId>,
    properties: seq<Property>)

  type Graph = map<TypeId, TypeInfo>

  predicate ChildrenIn(g: Graph, info: TypeInfo) {
    && (forall i :: 0 <= i < |info.types| ==> info.types[i] in g)
    && (info.origin.Some? ==> forall i :: 0 <= i < |info.origin.value| ==> info.origin.value[i] in g)
    && (forall i :: 0 <= i < |info.typeArguments| ==> info.typeArguments[i] in g)
    && (forall i :: 0 <= i < |info.properties| ==> info.properties[i].propType in g)
  }

  /** Every type the checker hands out exists, and a class or interface type always has a symbol. */
  predicate WellFormed(g: Graph) {
    forall t :: t in g ==> ChildrenIn(g, g[t]) && (g[t].isClassOrInterface ==> g[t].symbol.Some?)
  }
}

=== FILE: wrappers.dfy ===
/** Failure-compatible wrappers shared by every module of the model. */
module Wrappers {

  /** A value that may be absent (a TypeScript `T | undefined`). */
  datatype Option<+T> = None | Some(value: T) {

    function GetOr(default: T): T {
      match this
      case Some(v) => v
      case None => default
    }
  }

  /** The outcome of a computation that can throw: `Failure` carries the error. */
  datatype Result<+R, +E> = Success(value: R) | Failure(error: E) {

    predicate IsFailure() {
      Failure?
    }

    function PropagateFailure<U>(): Result<U, E>
      requires Failure?
    {
      Failure(error)
    }

    function Extract(): R
      requires Success?
    {
      value
    }
  }
}
